=== FILE: README.md ===
# Algorithms from a data-structures course, modelled in Dafny

This project models five Java classes from a collection of algorithm exercises and proves what their code guarantees:

- **RedBlackBST**, the centre of the collection. It is a left-leaning red-black symbol table whose nodes carry no colour bit. A node counts as red when it is the only child of some node, or when its two children are stored in descending key order (`isRed`). A red node is made by swapping its children (`flipChildren`). `put` and the helpers (`rotateLeft`, `rotateRight`, `flipColors`, `moveRedLeft`, `moveRedRight`, `balance`) run their descents the opposite way round below a red node.
- **MinMaxPriorityQueue**: a min-heap and a max-heap over the same keys. Deleting the root of one heap also deletes the root of the other when that key is in the set `deleted`.
- **LinearProbingHashST**: a linear-probing symbol table with 16 slots. Its `delete` re-inserts the cluster that follows the removed key.
- **NonRecursiveQSort**: quicksort driven by an explicit stack of ranges.
- **ThrowingEggs**: lowest-breaking-floor search over a 0/1 floor array. One version uses binary search over the whole array; the other gallops over the probes 0, 2, 4, 8, … and then searches one bracket.

Java arrays are modelled as sequence values and objects as immutable datatypes. A null link or empty slot is `Option.None` or `Tree.Nil`. Null arguments are modelled only in RedBlackBST, whose keys and values are `Option<int>`. In the other classes keys are plain `int`, so they cannot be null. Every mutating call that returns normally returns the new state. An exception the modelled code can throw is an `Err` of a `Fault` datatype, carrying no state. A loop that never ends is an `Err` too.

Object identity matters in the tree: `isRed` compares references, and it walks from the `root` field, which is stale while a recursive call is running. So every tree node carries an identity `id`. The position of the current call is a context `Ctx`: the public method's root object, then the subtree of each caller as it stood when that caller recursed. A caller's own subtree still holds its link to the child it recursed on. `RootView` rebuilds the heap the `root` field leads to from these snapshots and the current call's subtree. Each object reached is taken in the state of the newest snapshot that holds it. So an object that a deeper call lifted or rotated is seen as that call left it. The restructuring helpers take a colour test `Colour` (the `isRed` of the calling position) as a parameter.

Modules: `Wrappers` (`Option`, `Result`), `Permutations` (exchanges and segment permutations), `ThrowingEggs`, `NonRecursiveQSort`, `MinMaxPriorityQueue`, `LinearProbingHashST`. The tree is split into these modules:

- `RedBlackTree`: nodes, `isRed` and `flipChildren`;
- `RedBlackBalance`: rotations, `flipColors`, `moveRed*`, `balance`;
- `RedBlackPut`;
- `RedBlackDelete`;
- `RedBlackQueries`: get, min, max, floor, ceiling, keys;
- `RedBlackBST`: the public operations on the table value `Bst(root, next)`. `next` is the identity the next new node receives.

## Model

| member | source | states |
|---|---|---|
| ThrowingEggs.BinarySearch | ThrowingEggs.java:73-100 | an empty range gives -1; any other answer is an index inside [L, R] whose egg breaks |
| ThrowingEggs.BinarySearchFindsFirst | ThrowingEggs.java:73-100 | on a range whose floors ascend, the answer is the lowest breaking floor of [L, R], and -1 exactly when no floor there breaks |
| ThrowingEggs.FirstBrokenUnique | ThrowingEggs.java:73-100 | at most one index can be the lowest breaking floor of a range, so the finders can be compared by their answers |
| ThrowingEggs.FindFloorBinarySearchN | ThrowingEggs.java:33-40 | -1 or an index whose egg breaks; -1 for a building without floors |
| ThrowingEggs.FindFloorNFindsFirst | ThrowingEggs.java:33-40 | on a 0/1 floor array that ascends, the answer is the lowest floor where the egg breaks, -1 when none does |
| ThrowingEggs.Gallop | ThrowingEggs.java:50-56 | the doubling loop stops at the first probe of 0, 2, 4, 8, … whose egg breaks, or past the top floor; no earlier probe breaks |
| ThrowingEggs.NoPowerBetween | ThrowingEggs.java:50-56 | no power of two lies strictly between a power of two and its double, so doubling from 2 skips no power of two |
| ThrowingEggs.GallopPassed | ThrowingEggs.java:50-56 | every probe the doubling loop passes on its way to where it stops is a floor whose egg did not break |
| ThrowingEggs.FindFloorBinarySearchLogF | ThrowingEggs.java:44-69 | the galloping finder as written: -1 only for a building without floors, otherwise some floor index; when a probe broke, the answer's egg breaks |
| ThrowingEggs.BracketSearch | ThrowingEggs.java:58-68 | the bracket search after the loop: -1 only for a building without floors, otherwise a floor index, clamped to the top floor; when the stopping probe broke, the answer's egg breaks |
| ThrowingEggs.TopBreaks | ThrowingEggs.java:44-69 | on a 0/1 floor array that ascends and has a breaking floor, the top floor breaks, so the clamped bracket always ends on a breaking floor |
| ThrowingEggs.BracketAfterUnbrokenProbe | ThrowingEggs.java:58-68 | when the probe half of the stopping index did not break, the bracket search answers the lowest breaking floor of the building |
| ThrowingEggs.LogFAgreesOffIndexOne | ThrowingEggs.java:44-69 | on an ascending 0/1 floor array with a breaking floor, the galloping finder as written agrees with the whole-array finder unless floor 0 holds and floor 1 is the first to break |
| ThrowingEggs.LogFDisagreesOnIndexOne | ThrowingEggs.java:44-69 | on a building without a breaking floor, or one of three or more floors whose first break is floor 1, the galloping finder as written differs from the whole-array finder |
| ThrowingEggs.LogFMissesIndexOne | ThrowingEggs.java:44-69 | on the floors [0, 1, 1] the galloping finder answers 2 while the whole-array finder answers the lowest breaking floor 1 |
| ThrowingEggs.LogFWithoutBrokenFloor | ThrowingEggs.java:44-69 | on the floors [0, 0, 0] the galloping finder answers floor 2, where the egg does not break, instead of -1 |
| ThrowingEggs.BinarySearchNOnTestFloors | ThrowingEggs.java:103-110 | on the array of the source's main the whole-array finder answers 9 |
| ThrowingEggs.BinarySearchLogFOnTestFloors | ThrowingEggs.java:103-110 | on the same array the galloping finder also answers 9, so main cannot tell the two apart |
| ThrowingEggs.GallopAll | ThrowingEggs.java:50-56 | the corrected doubling loop over the probes 0, 1, 2, 4, …: it stops at the first breaking probe or past the top, and the previous probe, half of it, is a floor that did not break |
| ThrowingEggs.FindFloorGallop | ThrowingEggs.java:44-69 | the corrected galloping finder answers -1 or a floor whose egg breaks |
| ThrowingEggs.GallopFindsFirst | ThrowingEggs.java:44-69 | on a 0/1 floor array that ascends, the corrected galloping finder answers the lowest breaking floor, -1 when there is none |
| ThrowingEggs.GallopAgreesWithN | ThrowingEggs.java:33-69 | on every such floor array the corrected galloping finder and the whole-array finder give the same answer |
| Permutations.Exch | NonRecursiveQSort.java:117-121 | exchanging two entries swaps exactly those two, keeps the others and the multiset of entries |
| NonRecursiveQSort.ScanUp | NonRecursiveQSort.java:84-89 | the left scan stops at hi or at the first key above the pivot, and every key it passed is at most the pivot |
| NonRecursiveQSort.ScanDown | NonRecursiveQSort.java:91-96 | the right scan stops at lo or at the first key below the pivot, and every key it passed is at least the pivot |
| NonRecursiveQSort.ExchCrossing | NonRecursiveQSort.java:98-102 | exchanging the two keys where the scans stopped restores the partition loop's invariant one step further on |
| NonRecursiveQSort.PlacePivot | NonRecursiveQSort.java:104-108 | once the pointers cross, exchanging the pivot into slot j leaves keys at most it on the left and at least it on the right, as a permutation of [lo, hi] |
| NonRecursiveQSort.Partition | NonRecursiveQSort.java:74-109 | the pivot slot j lies in [lo, hi]; only [lo, hi] is rearranged, as a permutation; every key left of j is at most b[j], every key right of it at least |
| NonRecursiveQSort.PushOrder | NonRecursiveQSort.java:42-68 | the ranges pushed after a partition are exactly the parts beside the pivot that hold two or more slots, in one order or the other |
| NonRecursiveQSort.PushOrderParts | NonRecursiveQSort.java:42-68 | the pushed parts lie inside the popped range, miss the pivot slot, do not overlap and hold fewer slots than it |
| NonRecursiveQSort.PendingConcat | NonRecursiveQSort.java:35-69 | the slots waiting on a stack add up over its parts |
| NonRecursiveQSort.SplitKeepsGoodStack | NonRecursiveQSort.java:37-68 | replacing the popped range by its parts keeps the stacked ranges inside the array range, two slots or more each, and disjoint |
| NonRecursiveQSort.SplitKeepsOrder | NonRecursiveQSort.java:37-68 | after a partition and push, any two slots no pending range holds together are in order |
| NonRecursiveQSort.AfterSplit | NonRecursiveQSort.java:37-68 | one pass of the loop keeps both stack invariants and strictly lowers the number of slots still pending |
| NonRecursiveQSort.SortStep | NonRecursiveQSort.java:37-68 | one pass keeps the array a permutation of the input that agrees with it outside [lo, hi], keeps the stack invariants, and lowers the pending count |
| NonRecursiveQSort.QSort | NonRecursiveQSort.java:26-70 | the loop ends with [lo, hi] sorted ascending, the array a permutation of the input, and nothing outside [lo, hi] changed |
| NonRecursiveQSort.NRQSort | NonRecursiveQSort.java:20-23 | an array of fewer than two entries makes partition read past its end; any other array comes back sorted ascending as a permutation of itself |
| MinMaxPriorityQueue.Above | MinMaxPriorityQueue.java:196-198 | the heap order of either heap: equal keys may sit either way |
| MinMaxPriorityQueue.SwimsPast | MinMaxPriorityQueue.java:147-156 | the swim test moves the child up only when the order allows the child above its parent, and stops only when the parent may stay; on equal keys the min-heap swims and the max-heap stops |
| MinMaxPriorityQueue.TakesRight | MinMaxPriorityQueue.java:169-179 | sink takes the right child only when it may sit above the left one, and the left one only when it may sit above the right; on equal keys the min-heap takes the right child |
| MinMaxPriorityQueue.StaysAbove | MinMaxPriorityQueue.java:170-180 | sink stops only when the parent may sit above the chosen child, and goes on only when the child may sit above it; on equal keys the max-heap stops and the min-heap goes on |
| MinMaxPriorityQueue.Swim | MinMaxPriorityQueue.java:144-160 | swimming the one key out of place restores heap order in the chosen heap and only rearranges slots 1..n |
| MinMaxPriorityQueue.SinkChild | MinMaxPriorityQueue.java:167-169 | the child sink compares with is a child of k inside the heap, and no child of k is above it |
| MinMaxPriorityQueue.Sink | MinMaxPriorityQueue.java:164-186 | sinking the one key out of place restores heap order and only rearranges slots 1..n |
| MinMaxPriorityQueue.RootIsExtreme | MinMaxPriorityQueue.java:144-186 | in a heap-ordered array the root is at most (min-heap) or at least (max-heap) every key of the heap |
| MinMaxPriorityQueue.AddKey | MinMaxPriorityQueue.java:80-86 | writing the key into slot n + 1 and swimming it gives a heap of n + 1 keys whose contents gained exactly that key |
| MinMaxPriorityQueue.RemoveRoot | MinMaxPriorityQueue.java:97-100 | exchanging the root with the last key, sinking and clearing the freed slot gives a heap of n - 1 keys that lost exactly the old root |
| MinMaxPriorityQueue.Create | MinMaxPriorityQueue.java:46-56 | a capacity below -1, or the largest int (whose + 1 wraps), is a negative array size; any other gives a valid queue, empty on both sides, with the requested capacity and nothing deleted, which has no slots exactly for capacity -1 |
| MinMaxPriorityQueue.CreateBelowMinusOneThrows | MinMaxPriorityQueue.java:46-56 | capacities -2 and 2^31 - 1 make the constructor throw a negative array size |
| MinMaxPriorityQueue.IsEmpty | MinMaxPriorityQueue.java:59-62 | a heap is reported empty exactly when its count is 0 |
| MinMaxPriorityQueue.Max | MinMaxPriorityQueue.java:65-68 | null exactly for an empty max-heap; otherwise a key of the max-heap at least every key in it |
| MinMaxPriorityQueue.Min | MinMaxPriorityQueue.java:71-74 | null exactly for an empty min-heap; otherwise a key of the min-heap at most every key in it |
| MinMaxPriorityQueue.Insert | MinMaxPriorityQueue.java:77-87 | with room on both sides, the key is added to both heaps, both stay valid, and nothing else changes |
| MinMaxPriorityQueue.InsertGuard | MinMaxPriorityQueue.java:78 | the capacity test holds on the queue without slots and fails on every queue whose heaps are valid |
| MinMaxPriorityQueue.InsertGuardFiresOnlyWithoutSlots | MinMaxPriorityQueue.java:78 | on a valid queue the capacity test at the head of insert holds exactly for the queue of capacity -1, whose arrays have no slots |
| MinMaxPriorityQueue.InsertAsWritten | MinMaxPriorityQueue.java:77-87 | insert as written returns the queue without slots unchanged; on any other queue it fails with an out-of-bounds write exactly when one heap is full, and otherwise adds the key to both heaps |
| MinMaxPriorityQueue.InsertIntoFullQueueThrows | MinMaxPriorityQueue.java:77-87 | inserting into a queue of capacity 0 throws rather than returning |
| MinMaxPriorityQueue.InsertWithoutSlotsReturns | MinMaxPriorityQueue.java:77-87 | inserting into the queue of capacity -1 returns at the guard and leaves it as it was |
| MinMaxPriorityQueue.InsertChecked | MinMaxPriorityQueue.java:77-87 | the insert evidently intended: a full queue is left as it is, otherwise the key is added to both heaps |
| MinMaxPriorityQueue.InsertCheckedAgrees | MinMaxPriorityQueue.java:77-87 | wherever insert as written returns normally it gives the same queue as the corrected insert |
| MinMaxPriorityQueue.DropOther | MinMaxPriorityQueue.java:103-109 | when the other heap's root is a deleted key, that root is removed from the other heap and the key leaves `deleted`; otherwise nothing changes |
| MinMaxPriorityQueue.ForgetIfEmpty | MinMaxPriorityQueue.java:111-113 | `deleted` is cleared exactly when both heaps are empty; the heaps are untouched |
| MinMaxPriorityQueue.TakeRoot | MinMaxPriorityQueue.java:91-100 | the chosen heap loses exactly its root, the other heap is untouched, and the root's key joins `deleted` |
| MinMaxPriorityQueue.DeleteNonEmpty | MinMaxPriorityQueue.java:90-140 | one heap loses its root; the other loses its root too exactly when that root is now in `deleted`; `deleted` is updated as the source does |
| MinMaxPriorityQueue.DeleteRoot | MinMaxPriorityQueue.java:90-140 | deleting from an empty heap changes nothing; otherwise as above, and the queue stays valid |
| MinMaxPriorityQueue.DeleteMax | MinMaxPriorityQueue.java:90-114 | on a non-empty max-heap the max-heap loses exactly one copy of its maximum and the queue stays valid; an empty one is left alone |
| MinMaxPriorityQueue.DeleteMin | MinMaxPriorityQueue.java:117-140 | on a non-empty min-heap the min-heap loses exactly one copy of its minimum and the queue stays valid; an empty one is left alone |
| LinearProbingHashST.Hash | LinearProbingHashST.java:58-60 | the hash is a slot index in [0, 16) |
| LinearProbingHashST.HashIsLowBits | LinearProbingHashST.java:58-60 | clearing the sign bit and reducing modulo 16 gives the hash code modulo 16, rounded towards negative infinity |
| LinearProbingHashST.ProbeFrom | LinearProbingHashST.java:70 | the probe finds the first slot at or after the hash that is empty or holds the key, or reports that no slot of the 16 stops it |
| LinearProbingHashST.EmptyIsValid | LinearProbingHashST.java:51-55 | the new table is valid and maps no key |
| LinearProbingHashST.ProbeReachesKey | LinearProbingHashST.java:83-86 | in a valid table the probe for a stored key stops at the slot that holds it |
| LinearProbingHashST.ProbeMissesKey | LinearProbingHashST.java:83-88 | the probe for an absent key stops exactly when the table has an empty slot, and then at an empty slot |
| LinearProbingHashST.Get | LinearProbingHashST.java:81-89 | a value get returns is stored with the key in some slot; get fails only when every slot of the probe holds another key |
| LinearProbingHashST.Contains | LinearProbingHashST.java:94 | true only when some slot holds the key with a value; fails only when every slot of the probe holds another key |
| LinearProbingHashST.Put | LinearProbingHashST.java:65-78 | put changes exactly one slot, to the key and value, and raises the count exactly when that slot did not hold the key; it fails only when every slot of the probe holds another key |
| LinearProbingHashST.GetMeansLookup | LinearProbingHashST.java:81-89 | get returns the stored value of a present key, null for an absent key while a slot is free, and never returns for an absent key in a full table |
| LinearProbingHashST.ContainsMeans | LinearProbingHashST.java:94 | contains is true exactly for a key stored with a non-null value; it never returns only for an absent key in a full table |
| LinearProbingHashST.PutPresent | LinearProbingHashST.java:65-78 | putting a present key overwrites its value in place; the keys and the count are unchanged |
| LinearProbingHashST.PutAbsent | LinearProbingHashST.java:65-78 | putting an absent key while a slot is free adds the pair and raises the count by one |
| LinearProbingHashST.PutFull | LinearProbingHashST.java:65-78 | putting an absent key into a full table never returns, since resizing is a stub |
| LinearProbingHashST.PutMeansUpdate | LinearProbingHashST.java:65-78 | put fails exactly for an absent key in a full table; otherwise the table stays valid and now maps the key to the value |
| LinearProbingHashST.PutThenGet | LinearProbingHashST.java:65-89 | after a put, get of that key returns the new value and get of any other stored key is unchanged |
| LinearProbingHashST.CleanStep | LinearProbingHashST.java:108-125 | one re-insertion of the cleanup loop keeps the pairs and the count, keeps every key reachable from its hash, and lowers a measure that ends the loop |
| LinearProbingHashST.DeleteStart | LinearProbingHashST.java:96-106 | clearing the slot of the key removes exactly that pair and leaves the cluster after it ready for cleanup |
| LinearProbingHashST.Delete | LinearProbingHashST.java:92-130 | delete of a key stored with a value removes exactly that pair and keeps the table valid; any other key leaves the table as it is; it never returns only for an absent key in a full table; afterwards get of the key returns null |
| RedBlackTree.Size | RedBlackBST.java:156-160 | size(x) is 0 for null, and the node count wherever the size fields are right |
| RedBlackTree.Snapshots | RedBlackBST.java:34 | the states a running call can see, newest first: its own subtree, then each caller's, ending with the object the `root` field holds |
| RedBlackTree.Newest | RedBlackBST.java:34 | the first snapshot that holds an object, and no earlier one holds it; -1 exactly when none does |
| RedBlackTree.View | RedBlackBST.java:76-142 | the heap seen from a node keeps that node's identity, key, value and size field, and is null exactly for null |
| RedBlackTree.Link | RedBlackBST.java:76-142 | following a link leads to the same object, null exactly for a null link |
| RedBlackTree.ViewOfNewest | RedBlackBST.java:76-142 | the running call's own subtree is seen exactly as it is |
| RedBlackTree.RootView | RedBlackBST.java:34-153 | the tree isRed walks is null exactly when the `root` field is null, and is rooted at the object that field holds |
| RedBlackTree.RootInLocal | RedBlackBST.java:34-153 | wherever the call sits, when its subtree holds the root object, isRed sees that subtree's version of it |
| RedBlackTree.LinkToLocal | RedBlackBST.java:76-142 | a caller's stale link to the child it recursed on leads to the running call's version of that child |
| RedBlackTree.LiftedRootStaysInView | RedBlackBST.java:34-153 | when a caller rotated the root object two levels down and the running call lifted it back above its child, isRed still sees the root object, with its only child red |
| RedBlackTree.SetChild | RedBlackBST.java:36-48 | reassigning one link of a node keeps its identity, key, value, size field and other link |
| RedBlackTree.CountIsEntries | RedBlackBST.java:36-48 | the node count is the number of key-value pairs and of identities |
| RedBlackTree.IsRed | RedBlackBST.java:65-153 | null and the root are black; a node below the root whose two children are in descending key order is red |
| RedBlackTree.Walk | RedBlackBST.java:76-142 | isRed's walk answers true only for a node that is the only child of some node of the tree |
| RedBlackTree.IsRedSound | RedBlackBST.java:65-153 | a red node is a non-root node that is an only child or has descending children |
| RedBlackTree.IsRedCases | RedBlackBST.java:65-153 | a non-root node with two children, and not an only child anywhere, is red exactly when its children descend; a node with fewer than two children is red exactly when the walk from the root finds it |
| RedBlackTree.FlipChildren | RedBlackBST.java:52-62 | a node with two children gets them swapped; any other node is unchanged; identity, key, value and size stay |
| RedBlackTree.FlipChildrenTwice | RedBlackBST.java:52-62 | flipping twice restores the node |
| RedBlackTree.FlipChildrenKeeps | RedBlackBST.java:52-62 | flipping keeps the subtree's pairs, identities, keys and count |
| RedBlackTree.FlipChildrenSizes | RedBlackBST.java:52-62 | flipping keeps every size field as right, or as wrong, as it was |
| RedBlackTree.FlipChildrenToggles | RedBlackBST.java:52-62 | with two children of distinct keys, flipping toggles whether the children descend, so it makes a black node red and a red one black |
| RedBlackBalance.Resize | RedBlackBST.java:304 | the size field is recomputed from the children and nothing else changes |
| RedBlackBalance.SizeIsCount | RedBlackBST.java:156-168 | where the size fields are right, size(x) is the number of nodes |
| RedBlackBalance.RotateLeft | RedBlackBST.java:504-548 | a null node and the cases where there is no child to lift come back unchanged; otherwise the result is a node |
| RedBlackBalance.RotateLeftKeeps | RedBlackBST.java:504-548 | rotating left keeps the subtree's pairs, identities and count |
| RedBlackBalance.RotateLeftSizes | RedBlackBST.java:504-548 | rotating left keeps the size fields below the top right, and all of them right if they were |
| RedBlackBalance.RotateLeftDemotes | RedBlackBST.java:504-548 | a rotation that changes the node lifts another node above it, which takes the old size while the old node's size is recomputed |
| RedBlackBalance.RotateRight | RedBlackBST.java:551-586 | a null node and the cases where there is no child to lift come back unchanged; otherwise the result is a node |
| RedBlackBalance.RotateRightKeeps | RedBlackBST.java:551-586 | rotating right keeps the subtree's pairs, identities and count |
| RedBlackBalance.RotateRightSizes | RedBlackBST.java:551-586 | rotating right keeps the size fields below the top right, and all of them right if they were |
| RedBlackBalance.RotateRightDemotes | RedBlackBST.java:551-586 | a rotation that changes the node lifts another node above it, which takes the old size while the old node's size is recomputed |
| RedBlackBalance.FlipColors | RedBlackBST.java:589-610 | the node changes only when it has two children and is red over two black ones or black over two red ones; it keeps its identity and size |
| RedBlackBalance.FlipColorsKeeps | RedBlackBST.java:589-610 | flipping colours keeps the subtree's pairs, identities and count |
| RedBlackBalance.FlipColorsSizes | RedBlackBST.java:589-610 | flipping colours keeps every size field as right, or as wrong, as it was |
| RedBlackBalance.FlipColorsUndoes | RedBlackBST.java:589-610 | on a red node over two black children the first flip happens, and the second test undoes it exactly when the flipped node is black over two red children |
| RedBlackBalance.FlipAllTwice | RedBlackBST.java:589-610 | flipping a node and both its children twice restores it |
| RedBlackBalance.MoveRedLeft | RedBlackBST.java:614-626 | moveRedLeft on null is a null dereference; otherwise the result is a node |
| RedBlackBalance.MoveRedLeftKeeps | RedBlackBST.java:614-626 | moveRedLeft keeps the subtree's pairs, identities and count |
| RedBlackBalance.MoveRedLeftSizes | RedBlackBST.java:614-626 | moveRedLeft keeps the size fields below the top right, and all of them right if they were |
| RedBlackBalance.MoveRedRight | RedBlackBST.java:629-638 | moveRedRight on null is a null dereference; otherwise the result is a node |
| RedBlackBalance.MoveRedRightKeeps | RedBlackBST.java:629-638 | moveRedRight keeps the subtree's pairs, identities and count |
| RedBlackBalance.MoveRedRightSizes | RedBlackBST.java:629-638 | moveRedRight keeps the size fields below the top right, and all of them right if they were |
| RedBlackBalance.Balance | RedBlackBST.java:641-653 | balance on null is a null dereference; otherwise the result is a node whose size field counts its children plus one |
| RedBlackBalance.BalanceKeeps | RedBlackBST.java:641-653 | balance keeps the subtree's pairs, identities and count |
| RedBlackBalance.BalanceSizes | RedBlackBST.java:641-653 | after balance every size field of the subtree is right, given the ones below the top were |
| RedBlackPut.IdRangeSplit | RedBlackBST.java:249 | the identities handed out by successive new nodes join up into one range |
| RedBlackPut.IdRangeBounds | RedBlackBST.java:249 | every identity handed out lies in the range from the old next identity to the new one |
| RedBlackPut.Put | RedBlackBST.java:247-306 | a put that returns gives a node |
| RedBlackPut.Step | RedBlackBST.java:253-270 | one descent changes only the link on its side |
| RedBlackPut.FixUp | RedBlackBST.java:275-305 | the fix-up returns a node whose size field counts its children plus one |
| RedBlackPut.FixUpKeeps | RedBlackBST.java:275-305 | the fix-up keeps the subtree's pairs, identities and count, and makes every size field right given the ones below the top were |
| RedBlackPut.OverwriteInserts | RedBlackBST.java:259 | overwriting the value at an equal key stores the pair, leaves other keys alone and adds no node |
| RedBlackPut.PutInserts | RedBlackBST.java:247-306 | put leaves the pair present, leaves the pairs of other keys untouched, drops no pair of its key with the new value, and adds exactly the fresh identities, one node each |
| RedBlackPut.DescentsInsert | RedBlackBST.java:253-270 | both descents together insert the pair in the same sense, even when the second descent runs after the first |
| RedBlackPut.PutSizes | RedBlackBST.java:247-306 | put leaves every size field of the subtree right, given the ones below the top were |
| RedBlackQueries.KeysAreEntryKeys | RedBlackBST.java:36-48 | a key is in the tree exactly when some pair carries it |
| RedBlackQueries.AscendingEntryUnique | RedBlackBST.java:36-48 | in a tree in plain ascending order a key has one value |
| RedBlackQueries.GetFrom | RedBlackBST.java:197-205 | a value get finds is stored with the key in the subtree, whatever order the keys are in |
| RedBlackQueries.GetFromFinds | RedBlackBST.java:197-205 | on a tree in ascending order get finds a key exactly when it is present, with its value |
| RedBlackQueries.MinNode | RedBlackBST.java:672-679 | min of null is a null dereference; otherwise a node with no left child |
| RedBlackQueries.MaxNode | RedBlackBST.java:693-699 | max of null is a null dereference; otherwise a node with no right child |
| RedBlackQueries.MinNodeIsLeast | RedBlackBST.java:672-679 | min's node is a pair of the tree, with the smallest key when the tree is in ascending order |
| RedBlackQueries.MaxNodeIsGreatest | RedBlackBST.java:693-699 | max's node is a pair of the tree, with the largest key when the tree is in ascending order |
| RedBlackQueries.FloorNode | RedBlackBST.java:724-737 | a node floor finds is a key of the subtree at most the argument, whatever order the keys are in |
| RedBlackQueries.CeilingNode | RedBlackBST.java:763-776 | a node ceiling finds is a key of the subtree at least the argument, whatever order the keys are in |
| RedBlackQueries.FloorNodeIsFloor | RedBlackBST.java:724-737 | on a tree in ascending order floor finds the largest key at most the argument, and null exactly when every key is larger |
| RedBlackQueries.CeilingNodeIsCeiling | RedBlackBST.java:763-776 | on a tree in ascending order ceiling finds the smallest key at least the argument, and null exactly when every key is smaller |
| RedBlackQueries.JoinSorted | RedBlackBST.java:818-830 | joining increasing runs, all of the first below all of the second, gives an increasing run |
| RedBlackQueries.KeysIn | RedBlackBST.java:818-830 | every key the range walk emits lies in [lo, hi] and is a key of the subtree, whatever order the keys are in |
| RedBlackQueries.KeysInMembers | RedBlackBST.java:818-830 | on a tree in ascending order the range walk emits exactly the keys in [lo, hi] |
| RedBlackQueries.KeysInSorted | RedBlackBST.java:818-830 | on a tree in ascending order the range walk emits its keys strictly increasing |
| RedBlackDelete.BlackBelow | RedBlackBST.java:408-431 | the test of a child's left link is a null dereference exactly when the child is null |
| RedBlackDelete.DeleteMin | RedBlackBST.java:332-341 | deleteMin of null is a null dereference; a node without a left child is replaced by null |
| RedBlackDelete.DeleteMinShrinks | RedBlackBST.java:332-341 | deleteMin keeps a part of the pairs and identities, with strictly fewer nodes |
| RedBlackDelete.DeleteMinSizes | RedBlackBST.java:332-341 | deleteMin leaves every size field right, given the ones below the top were |
| RedBlackDelete.DeleteMax | RedBlackBST.java:363-375 | deleteMax of null is a null dereference |
| RedBlackDelete.DeleteMaxShrinks | RedBlackBST.java:363-375 | deleteMax keeps a part of the pairs and identities, with strictly fewer nodes |
| RedBlackDelete.DeleteMaxSizes | RedBlackBST.java:363-375 | deleteMax leaves every size field right, given the ones below the top were |
| RedBlackDelete.Delete | RedBlackBST.java:401-500 | delete in an empty subtree returns null |
| RedBlackDelete.DeleteWithin | RedBlackBST.java:401-500 | delete leaves only pairs and identities of the subtree, and no more nodes |
| RedBlackDelete.DeleteLess | RedBlackBST.java:406-439 | the branch for a key below the node's returns a node when it returns |
| RedBlackDelete.DeleteLessWithin | RedBlackBST.java:406-439 | the branch for a key below the node's leaves only pairs and identities of the subtree, and no more nodes |
| RedBlackDelete.DeleteNotLessWithin | RedBlackBST.java:440-452 | the rotation and the early null for a key at or above the node's leave only pairs and identities of the subtree, and no more nodes |
| RedBlackDelete.NotLessUnfolds | RedBlackBST.java:440-452 | after the rotation, a key equal to the node's with no right child gives null, and any other case goes on to the right-hand moves |
| RedBlackDelete.DeleteRightward | RedBlackBST.java:453-497 | after the right-hand moves the branch returns a node when it returns |
| RedBlackDelete.DeleteRightwardWithin | RedBlackBST.java:453-497 | the right-hand moves and what follows leave only pairs and identities of the subtree, and no more nodes |
| RedBlackDelete.DeleteBelow | RedBlackBST.java:491-497 | deleting in one child and balancing returns a node when it returns |
| RedBlackDelete.DeleteBelowWithin | RedBlackBST.java:491-497 | deleting in one child and balancing leaves only pairs and identities of the subtree, and no more nodes |
| RedBlackDelete.DeleteFound | RedBlackBST.java:474-490 | copying the successor's pair into the node and deleting below it returns a node when it returns |
| RedBlackDelete.DeleteFoundWithin | RedBlackBST.java:474-490 | copying the successor's pair into the node and deleting below it leaves only pairs of the subtree |
| RedBlackDelete.DeleteSizes | RedBlackBST.java:401-500 | delete leaves every size field right, given the ones below the top were |
| RedBlackBST.EmptyIsValid | RedBlackBST.java:32-48 | the empty table is valid and holds no node |
| RedBlackBST.IsEmpty | RedBlackBST.java:176-179 | isEmpty holds exactly when the table holds no pair |
| RedBlackBST.TableSize | RedBlackBST.java:166-168 | size of an empty table is 0 |
| RedBlackBST.SizeCountsPairs | RedBlackBST.java:156-179 | in a valid table size() is the number of pairs, and isEmpty holds exactly when it is 0 |
| RedBlackBST.Get | RedBlackBST.java:189-193 | a null key is an illegal argument, and any other key gets an answer |
| RedBlackBST.Contains | RedBlackBST.java:215-217 | contains of a null key is an illegal argument |
| RedBlackBST.GetMeansLookup | RedBlackBST.java:189-217 | on a tree in ascending order get finds a key exactly when it is present, with its value, and contains says whether it is present |
| RedBlackBST.Put | RedBlackBST.java:233-243 | a null key is an illegal argument; a null value deletes the key; otherwise the table is non-empty afterwards |
| RedBlackBST.PutInserts | RedBlackBST.java:233-306 | put keeps the table valid, leaves the pair present, leaves the pairs of other keys untouched, and grows by one node per fresh identity |
| RedBlackBST.PutThenGet | RedBlackBST.java:189-306 | when the tree after put is in ascending order, get of the key returns the value just put |
| RedBlackBST.Prepared | RedBlackBST.java:322-323 | the root flip before a deletion keeps the pairs and the root |
| RedBlackBST.Finished | RedBlackBST.java:326-327 | the root flip after a deletion keeps the pairs and whether the tree is empty |
| RedBlackBST.DeleteMin | RedBlackBST.java:317-329 | deleteMin of an empty table is a no-such-element error |
| RedBlackBST.DeleteMinShrinks | RedBlackBST.java:317-341 | deleteMin keeps the table valid, keeps a part of its pairs and makes it strictly smaller |
| RedBlackBST.DeleteMax | RedBlackBST.java:348-360 | deleteMax of an empty table is a no-such-element error |
| RedBlackBST.DeleteMaxShrinks | RedBlackBST.java:348-375 | deleteMax keeps the table valid, keeps a part of its pairs and makes it strictly smaller |
| RedBlackBST.Delete | RedBlackBST.java:385-398 | a null key is an illegal argument; a key get does not find leaves the table as it is |
| RedBlackBST.ShrinkValid | RedBlackBST.java:385-398 | a tree with right sizes and a part of the table's identities, after the final root flip, is a valid table |
| RedBlackBST.DeleteWithin | RedBlackBST.java:385-500 | delete keeps the table valid, leaves only pairs it held, and does not grow it |
| RedBlackBST.Min | RedBlackBST.java:665-669 | min fails, with no-such-element, exactly on an empty table |
| RedBlackBST.Max | RedBlackBST.java:686-690 | max fails, with no-such-element, exactly on an empty table |
| RedBlackBST.MinMaxAreExtremes | RedBlackBST.java:665-699 | on a non-empty table min and max are keys of it, and on a tree in ascending order every key lies between them |
| RedBlackBST.Floor | RedBlackBST.java:710-722 | a null key is an illegal argument; an empty table is a no-such-element error |
| RedBlackBST.Ceiling | RedBlackBST.java:749-761 | a null key is an illegal argument; an empty table is a no-such-element error |
| RedBlackBST.FloorMeans | RedBlackBST.java:710-737 | on a tree in ascending order floor is the largest key at most the argument, and fails exactly when every key is larger |
| RedBlackBST.CeilingMeans | RedBlackBST.java:749-776 | on a tree in ascending order ceiling is the smallest key at least the argument, and fails exactly when every key is smaller |
| RedBlackBST.KeysBetween | RedBlackBST.java:802-815 | keys(lo, hi) with a null bound is an illegal argument |
| RedBlackBST.AllKeys | RedBlackBST.java:785-789 | keys() of an empty table is empty |
| RedBlackBST.KeysBetweenMeans | RedBlackBST.java:802-830 | on a tree in ascending order keys(lo, hi) lists exactly the keys in [lo, hi], strictly increasing |
| RedBlackBST.AllKeysMeans | RedBlackBST.java:785-830 | on a tree in ascending order keys() succeeds and lists every key, strictly increasing |

## Left out

- Printing (`printTree`, `printMin`, `printMax`, `printSet`) and every `main` method: output only. Their test arrays are kept only where they show something (ThrowingEggs).
- Generic `Comparable` keys and values are `int` with the usual order (`Option<int>` in RedBlackBST's public operations, where `None` is null), and `hashCode` is a function parameter of the hash table. Java `int` overflow of `size`, of the counts and of the hash table's index arithmetic is not modelled, since it would need 2^31 entries; the two places where it comes earlier are listed next.
- ThrowingEggs.Gallop, ThrowingEggs.FindFloorBinarySearchLogF: `search *= 2` wraps from 2^30 to -2^31 in Java, so on a building of more than 2^30 floors without a break below 2^30 the next `floors[search]` throws. The model keeps doubling and is faithful only for buildings of at most 2^30 floors.
- MinMaxPriorityQueue.Sink: `2*k` overflows once k exceeds 2^30, that is in a heap of more than 2^30 keys. The model is faithful only up to that size.
- MinMaxPriorityQueue.Create: a capacity too large for memory makes `new Comparable[...]` fail with an out-of-memory error; the model does not model memory and returns a queue.
- LinearProbingHashST `resize`: the source's `resize()` is an empty stub, and the calls `resize(2*M)` and `resize(M/2)` pass it an argument it does not take. Resizing is modelled as doing nothing, so the table keeps 16 slots.
- LinearProbingHashST `delete`, line 129: the condition `N > 0 N == M/8` does not parse. Since the only thing it guards is the resize stub, it is modelled as doing nothing.
- LinearProbingHashST.Contains: the class calls `contains` without defining it. It is modelled as `get(key) != null`, so a key stored with a null value counts as absent and `delete` leaves it in place.
- LinearProbingHashST.Get, Put: a loop that never ends (an absent key in a table of 16 full slots) is the error `ProbeNeverEnds`, not a hang.
- RedBlackBST red-black invariants: the model does not prove perfect black balance or the absence of two reds in a row. Neither the code nor its comments define them over the colour encoding, and put's double descent and flipColors' double test do not keep them.
- RedBlackBST.DeleteMin, RedBlackBST.DeleteMax, RedBlackBST.Delete: these state when the operation fails, not that it fails only then. A null dereference deep in the tree depends on the colours found along the way.
- RedBlackBST.DeleteMinShrinks, RedBlackBST.DeleteMaxShrinks, RedBlackDelete.DeleteMinShrinks, RedBlackDelete.DeleteMaxShrinks: the removed pair is not shown to be the one with the smallest (largest) key. The descent follows the colour-swapped links, so no ordering invariant holds across the encoding to support it.
- RedBlackBST.DeleteWithin, RedBlackDelete.DeleteWithin: this is set inclusion of pairs, not removal of exactly the key. `delete` copies the successor's key and value into the node and then runs `deleteMin` on the child that a fresh colour test picks. That child need not be the one the successor came from, so a pair can be duplicated and another one dropped.
- RedBlackBST.GetMeansLookup, FloorMeans, CeilingMeans, KeysBetweenMeans, AllKeysMeans, PutThenGet: these are stated for trees in plain ascending order. The queries search in plain key order and ignore the swapped children of red nodes, and no lemma shows which trees put produces in that order.
- RedBlackBST.Put: the model does not say that a put into a table whose tree is not in ascending order finds an existing key. Put descends by the colour-dependent side and may insert a second node for a key already present.
- LinearProbingHashST.Get, LinearProbingHashST.Contains, LinearProbingHashST.Put, LinearProbingHashST.Delete, MinMaxPriorityQueue.Insert, MinMaxPriorityQueue.InsertAsWritten: keys are `int`, so the NullPointerException of a null key is not modelled. In the hash table that is `key.hashCode()` in hash, reached from put, get and delete, and `key.equals` in delete. In the queue it is `compareTo` inside `less` at the first swim comparison after `insert(null)`.
- MinMaxPriorityQueue.InsertAsWritten: the error result carries no queue. In Java the write `minPQ[++Nmin]` has already raised Nmin when it throws. When only the max heap is full, the min heap has already taken the key and swum it before `maxPQ[++Nmax]` throws. The model does not describe that partly updated object.
- MinMaxPriorityQueue `less` on an empty slot: the heaps never compare an empty slot, so the null-key comparison that would throw is not modelled.
- NonRecursiveQSort running time and stack depth: the complexity claims in the comments (O(N log N) time, log N stack) are not modelled.

## Findings

| source | as written | input that shows it | evidently intended | confidence | as-written member | corrected member |
|---|---|---|---|---|---|---|
| ThrowingEggs.java:50-68 | the galloping loop probes 0, 2, 4, 8, …, so floor 1 is never probed; the bracket search starts after the previous probe, and when it finds nothing the loop's stopping index is returned even if that floor did not break (past the end it is clamped to the top floor) | floors [0, 1, 1]: answers 2, lowest breaking floor is 1; floors [0, 0, 0]: answers 2, no floor breaks (-1 meant) | the lowest breaking floor, or -1, as the whole-array search gives | not executed | ThrowingEggs.FindFloorBinarySearchLogF, ThrowingEggs.GallopPassed, ThrowingEggs.LogFAgreesOffIndexOne, ThrowingEggs.LogFDisagreesOnIndexOne, ThrowingEggs.LogFMissesIndexOne, ThrowingEggs.LogFWithoutBrokenFloor | ThrowingEggs.FindFloorGallop, ThrowingEggs.GallopFindsFirst, ThrowingEggs.GallopAgreesWithN |
| MinMaxPriorityQueue.java:78 | the capacity test `Nmin >= minPQ.length - 1 && Nmax > maxPQ.length - 1` needs Nmax above the capacity, which no queue of capacity 0 or more reaches; it fires only on the capacity -1 queue, whose arrays have no slots at all, so a full queue writes past the end of its arrays | a queue of capacity 0, insert 7: the write to minPQ[1] is out of bounds | the class comment at MinMaxPriorityQueue.java:33 promises resizing the arrays when the capacity is surpassed; the corrected member follows the guard's `return` instead, so a full queue ignores the insert (an or of two at-capacity tests) | not executed | MinMaxPriorityQueue.InsertAsWritten, MinMaxPriorityQueue.InsertGuardFiresOnlyWithoutSlots, MinMaxPriorityQueue.InsertIntoFullQueueThrows, MinMaxPriorityQueue.InsertWithoutSlotsReturns | MinMaxPriorityQueue.InsertChecked, MinMaxPriorityQueue.InsertCheckedAgrees |

=== FILE: eggs.dfy ===
/**
 The egg-drop floor finders: a recursive "lowest index holding a 1" binary
 search over a 0/1 array, the whole-array search built on it, and the
 galloping variant that first probes indices 0, 2, 4, 8, ... and then
 binary-searches between the last two probes.
 */
module ThrowingEggs {

  /** The array value that marks a floor where the egg breaks. */
  const Broken := 1

  /** `arr` is nondecreasing on the closed index range [L, R]. */
  ghost predicate SortedOn(arr: seq<int>, L: int, R: int)
    requires L <= R ==> 0 <= L && R < |arr|
  {
    forall i, j :: L <= i <= j <= R ==> arr[i] <= arr[j]
  }

  /** Every floor holds 0 (egg survives) or 1 (egg breaks), and once an egg
      breaks it breaks on every higher floor. */
  ghost predicate EggFloors(arr: seq<int>)
  {
    && (forall i :: 0 <= i < |arr| ==> arr[i] == 0 || arr[i] == Broken)
    && SortedOn(arr, 0, |arr| - 1)
  }

  /** Reference meaning of a floor finder's answer on [L, R]: `r` is the
      smallest index in the range whose value is at least `Broken`, or -1
      when the range holds no such index. */
  ghost predicate IsFirstBroken(arr: seq<int>, L: int, R: int, r: int)
    requires L <= R ==> 0 <= L && R < |arr|
  {
    if r == -1 then
      forall i :: L <= i <= R ==> arr[i] < Broken
    else
      && L <= r <= R
      && arr[r] >= Broken
      && forall i :: L <= i < r ==> arr[i] < Broken
  }

  /** The recursive binary search of the source: look at the middle index;
      below `Broken` means search the right half, otherwise search the left
      half and fall back to the middle when the left half has nothing. */
  function BinarySearch(arr: seq<int>, L: int, R: int): (r: int)
    requires L <= R ==> 0 <= L && R < |arr|
    ensures R < L ==> r == -1
    ensures r == -1 || (L <= r <= R && arr[r] >= Broken)
    decreases R - L + 1
  {
    if R >= L then
      var mid := L + (R - L) / 2;
      if arr[mid] < Broken then
        BinarySearch(arr, mid + 1, R)
      else
        var brokenFloor := BinarySearch(arr, L, mid - 1);
        if brokenFloor == -1 then mid else brokenFloor
    else
      -1
  }

  /** On a nondecreasing range the binary search returns exactly the lowest
      breaking index, or -1 when there is none. */
  lemma {:induction false} BinarySearchFindsFirst(arr: seq<int>, L: int, R: int)
    requires L <= R ==> 0 <= L && R < |arr|
    requires SortedOn(arr, L, R)
    ensures IsFirstBroken(arr, L, R, BinarySearch(arr, L, R))
    decreases R - L + 1
  {
    if R >= L {
      var mid := L + (R - L) / 2;
      if arr[mid] < Broken {
        SortedWithin(arr, L, R, mid + 1, R);
        BinarySearchFindsFirst(arr, mid + 1, R);
        SearchRightHalf(arr, L, R, mid);
      } else {
        SortedWithin(arr, L, R, L, mid - 1);
        BinarySearchFindsFirst(arr, L, mid - 1);
        SearchLeftHalf(arr, L, R, mid);
      }
    }
  }

  /** When the midpoint is unbroken, the search continues above it and the
      first broken floor found there is the first of the whole range. */
  lemma SearchRightHalf(arr: seq<int>, L: int, R: int, mid: int)
    requires 0 <= L <= R < |arr| && mid == L + (R - L) / 2
    requires SortedOn(arr, L, R) && arr[mid] < Broken
    requires IsFirstBroken(arr, mid + 1, R, BinarySearch(arr, mid + 1, R))
    ensures IsFirstBroken(arr, L, R, BinarySearch(arr, L, R))
  {
    UnbrokenUpTo(arr, L, R, mid);
    var r := BinarySearch(arr, mid + 1, R);
    assert BinarySearch(arr, L, R) == r;
    if r != -1 {
      forall i | L <= i < r ensures arr[i] < Broken {
        if i > mid { assert mid + 1 <= i < r; }
      }
    }
  }

  /** When the midpoint is broken, the search continues below it and answers
      what it finds there, or the midpoint itself. */
  lemma SearchLeftHalf(arr: seq<int>, L: int, R: int, mid: int)
    requires 0 <= L <= R < |arr| && mid == L + (R - L) / 2
    requires arr[mid] >= Broken
    requires IsFirstBroken(arr, L, mid - 1, BinarySearch(arr, L, mid - 1))
    ensures IsFirstBroken(arr, L, R, BinarySearch(arr, L, R))
  {
    var f := BinarySearch(arr, L, mid - 1);
    assert BinarySearch(arr, L, R) == if f == -1 then mid else f;
  }

  /** On a sorted range, an unbroken index has only unbroken indices below it. */
  lemma UnbrokenUpTo(arr: seq<int>, L: int, R: int, mid: int)
    requires 0 <= L <= mid <= R < |arr|
    requires SortedOn(arr, L, R) && arr[mid] < Broken
    ensures forall i :: L <= i <= mid ==> arr[i] < Broken
  {
    forall i | L <= i <= mid ensures arr[i] < Broken {
      assert arr[i] <= arr[mid];
    }
  }

  /** A range sorted in ascending order is sorted on every sub-range. */
  lemma SortedWithin(arr: seq<int>, L: int, R: int, L2: int, R2: int)
    requires L <= R ==> 0 <= L && R < |arr|
    requires SortedOn(arr, L, R) && L <= L2 && R2 <= R
    ensures SortedOn(arr, L2, R2)
  {
  }


  /** At most one index satisfies the reference meaning. */
  lemma FirstBrokenUnique(arr: seq<int>, L: int, R: int, r1: int, r2: int)
    requires L <= R ==> 0 <= L && R < |arr|
    requires IsFirstBroken(arr, L, R, r1) && IsFirstBroken(arr, L, R, r2)
    ensures r1 == r2
  {
  }

  /** Binary search over the whole building, indices 0 .. length-1. */
  function FindFloorBinarySearchN(floors: seq<int>): (r: int)
    ensures r == -1 || (0 <= r < |floors| && floors[r] >= Broken)
    ensures |floors| == 0 ==> r == -1
  {
    BinarySearch(floors, 0, |floors| - 1)
  }

  /** On an egg-floor array the whole-array search finds the lowest breaking
      floor, or -1 when no floor breaks. */
  lemma FindFloorNFindsFirst(floors: seq<int>)
    requires EggFloors(floors)
    ensures IsFirstBroken(floors, 0, |floors| - 1, FindFloorBinarySearchN(floors))
  {
    BinarySearchFindsFirst(floors, 0, |floors| - 1);
  }

  /** n is a positive power of two. */
  predicate PowerOfTwo(n: nat)
    decreases n
  {
    n == 1 || (n >= 2 && n % 2 == 0 && PowerOfTwo(n / 2))
  }

  /** The indices the galloping loop of the source can probe: 0, 2, 4, 8, ... */
  predicate IsProbe(n: nat)
  {
    n == 0 || (n >= 2 && PowerOfTwo(n))
  }

  /** The next probe after `search` in the source's loop. */
  function NextProbe(search: nat): nat
  {
    if search == 0 then 2 else search * 2
  }

  /** The galloping loop of the source, from probe `search` on: it stops at
      the first probe holding exactly `Broken`, or at the first probe past the
      end of the array. */
  function Gallop(floors: seq<int>, search: nat): (s: nat)
    requires IsProbe(search)
    ensures s >= search
    ensures s < |floors| ==> floors[s] == Broken
    ensures IsProbe(s)
    ensures forall p :: search <= p < s && p < |floors| && IsProbe(p) ==> floors[p] != Broken
    decreases |floors| - search
  {
    if search >= |floors| then search
    else if floors[search] == Broken then search
    else
      var s := Gallop(floors, NextProbe(search));
      assert forall p :: search < p < NextProbe(search) ==> !IsProbe(p) by {
        forall p | search < p < NextProbe(search)
          ensures !IsProbe(p)
        {
          if search != 0 {
            NoPowerBetween(search, p);
          }
        }
      }
      s
  }

  /** Between a power of two and its double there is no other power of two. */
  lemma {:induction false} NoPowerBetween(a: nat, p: nat)
    requires PowerOfTwo(a)
    requires a < p < 2 * a
    ensures !PowerOfTwo(p)
    decreases a
  {
    if a >= 2 && p % 2 == 0 {
      NoPowerBetween(a / 2, p / 2);
    }
  }

  /** Every probe the loop passed on its way from `search` to where it
      stopped lies inside the array and did not break. */
  lemma {:induction false} GallopPassed(floors: seq<int>, search: nat, p: nat)
    requires IsProbe(search) && IsProbe(p)
    requires search <= p < Gallop(floors, search)
    ensures p < |floors| && floors[p] != Broken
    decreases |floors| - search
  {
    if p > search {
      if search != 0 && p < NextProbe(search) {
        NoPowerBetween(search, p);
      }
      GallopPassed(floors, NextProbe(search), p);
    }
  }

  function Min(a: int, b: int): int
  {
    if a <= b then a else b
  }

  /** The source's ~2 lg F floor finder, as written: gallop, then binary
      search strictly between half the stopping probe and the (clamped)
      stopping probe, falling back to the clamped stopping probe. */
  function FindFloorBinarySearchLogF(floors: seq<int>): (r: int)
    ensures |floors| == 0 ==> r == -1
    ensures |floors| > 0 ==> 0 <= r < |floors|
    ensures Gallop(floors, 0) < |floors| ==> floors[r] >= Broken
  {
    BracketSearch(floors, Gallop(floors, 0))
  }

  /** The search after the as-written loop stopped at probe `search`: clamp
      the probe to the last index, binary-search strictly between half the
      probe and the clamped probe, and fall back to the clamped probe. */
  function BracketSearch(floors: seq<int>, search: nat): (r: int)
    ensures |floors| == 0 ==> r == -1
    ensures |floors| > 0 ==> 0 <= r < |floors|
    ensures search < |floors| && floors[search] >= Broken ==> floors[r] >= Broken
  {
    var prevPowerOf2 := search / 2;
    var last := Min(|floors| - 1, search);
    var floor := BinarySearch(floors, prevPowerOf2 + 1, last - 1);
    if floor != -1 then floor else last
  }

  /** Off its two failure cases the as-written galloping finder is right:
      when some floor breaks, and floor 1 is not the lowest breaking floor
      of a building of more than two floors, it agrees with the whole-array
      search. */
  lemma LogFAgreesOffIndexOne(floors: seq<int>)
    requires EggFloors(floors)
    requires exists i :: 0 <= i < |floors| && floors[i] == Broken
    requires |floors| > 2 && floors[0] != Broken ==> floors[1] != Broken
    ensures FindFloorBinarySearchLogF(floors) == FindFloorBinarySearchN(floors)
  {
    var n := |floors|;
    TopBreaks(floors);
    FindFloorNFindsFirst(floors);
    if floors[0] == Broken {
      assert Gallop(floors, 0) == 0;
      assert BinarySearch(floors, 1, -1) == -1;
      assert IsFirstBroken(floors, 0, n - 1, 0);
      FirstBrokenUnique(floors, 0, n - 1, 0, FindFloorBinarySearchN(floors));
    } else if n == 2 {
      assert Gallop(floors, 0) == 2;
      assert BinarySearch(floors, 2, 0) == -1;
      assert IsFirstBroken(floors, 0, n - 1, 1);
      FirstBrokenUnique(floors, 0, n - 1, 1, FindFloorBinarySearchN(floors));
    } else {
      var s := Gallop(floors, 0);
      assert s == Gallop(floors, 2);
      if s > 2 {
        GallopPassed(floors, 0, s / 2);
      }
      BracketAfterUnbrokenProbe(floors, s);
      FirstBrokenUnique(floors, 0, n - 1, FindFloorBinarySearchLogF(floors), FindFloorBinarySearchN(floors));
    }
  }

  /** The bracket search after a stop at probe `search` above 0, whose half
      is a floor that did not break, gives the lowest breaking floor of a
      building whose top floor breaks. */
  lemma BracketAfterUnbrokenProbe(floors: seq<int>, search: nat)
    requires SortedOn(floors, 0, |floors| - 1)
    requires |floors| > 0 && floors[|floors| - 1] >= Broken
    requires search >= 2 && search / 2 < |floors| && floors[search / 2] < Broken
    requires search < |floors| ==> floors[search] >= Broken
    ensures IsFirstBroken(floors, 0, |floors| - 1, BracketSearch(floors, search))
  {
    var n := |floors|;
    var prev := search / 2;
    var last := Min(n - 1, search);
    assert prev < last;
    UnbrokenUpTo(floors, 0, n - 1, prev);
    var w := FinishSearch(floors, prev + 1, last - 1);
    BracketSearchWidens(floors, search, prev, last, w);
  }

  /** The bracket search is the binary search below the clamped probe,
      widened by the clamped probe itself, so it is the lowest breaking floor
      whenever that widened search is. */
  lemma BracketSearchWidens(floors: seq<int>, search: nat, prev: int, last: int, w: int)
    requires |floors| > 0 && prev == search / 2 && last == Min(|floors| - 1, search)
    requires w == Widen(BinarySearch(floors, prev + 1, last - 1), last - 1, |floors|)
    requires IsFirstBroken(floors, 0, |floors| - 1, w)
    ensures BracketSearch(floors, search) == w
    ensures IsFirstBroken(floors, 0, |floors| - 1, BracketSearch(floors, search))
  {
  }

  /** When some floor of an egg-floor array breaks, the top floor does. */
  lemma TopBreaks(floors: seq<int>)
    requires EggFloors(floors)
    requires exists i :: 0 <= i < |floors| && floors[i] == Broken
    ensures floors[|floors| - 1] == Broken
  {
    var i :| 0 <= i < |floors| && floors[i] == Broken;
    assert floors[i] <= floors[|floors| - 1];
  }

  /** The two failure cases are failures on every array that has them: a
      building where no floor breaks gets a floor index instead of -1, and
      one of more than two floors whose lowest breaking floor is 1 gets 2. */
  lemma LogFDisagreesOnIndexOne(floors: seq<int>)
    requires EggFloors(floors)
    requires || (|floors| > 0 && forall i :: 0 <= i < |floors| ==> floors[i] != Broken)
             || (|floors| > 2 && floors[0] != Broken && floors[1] == Broken)
    ensures FindFloorBinarySearchLogF(floors) != FindFloorBinarySearchN(floors)
  {
    FindFloorNFindsFirst(floors);
    if |floors| > 2 && floors[0] != Broken && floors[1] == Broken {
      assert floors[1] <= floors[2];
      assert Gallop(floors, 2) == 2;
      assert Gallop(floors, 0) == 2;
      assert BinarySearch(floors, 2, 1) == -1;
      assert IsFirstBroken(floors, 0, |floors| - 1, 1);
      FirstBrokenUnique(floors, 0, |floors| - 1, 1, FindFloorBinarySearchN(floors));
    } else {
      assert IsFirstBroken(floors, 0, |floors| - 1, -1);
      FirstBrokenUnique(floors, 0, |floors| - 1, -1, FindFloorBinarySearchN(floors));
    }
  }

  /** The as-written galloping finder never probes index 1: on [0, 1, 1] it
      answers 2 although floor 1 is the lowest breaking floor. */
  lemma LogFMissesIndexOne()
    ensures EggFloors([0, 1, 1])
    ensures FindFloorBinarySearchN([0, 1, 1]) == 1
    ensures FindFloorBinarySearchLogF([0, 1, 1]) == 2
  {
    var a := [0, 1, 1];
    assert Gallop(a, 2) == 2;
    assert Gallop(a, 0) == 2;
    assert BinarySearch(a, 2, 1) == -1;
    assert BinarySearch(a, 0, 0) == -1 by {
      assert BinarySearch(a, 1, 0) == -1;
    }
    assert BinarySearch(a, 0, 2) == 1;
  }

  /** When no floor breaks, the as-written galloping finder still answers the
      last index: on [0, 0, 0] it answers 2 instead of -1. */
  lemma LogFWithoutBrokenFloor()
    ensures EggFloors([0, 0, 0])
    ensures FindFloorBinarySearchN([0, 0, 0]) == -1
    ensures FindFloorBinarySearchLogF([0, 0, 0]) == 2
  {
    var z := [0, 0, 0];
    assert Gallop(z, 4) == 4;
    assert Gallop(z, 2) == 4;
    assert Gallop(z, 0) == 4;
    assert BinarySearch(z, 3, 1) == -1;
    assert BinarySearch(z, 2, 2) == -1 by {
      assert BinarySearch(z, 3, 2) == -1;
    }
    assert BinarySearch(z, 0, 2) == -1 by {
      assert BinarySearch(z, 2, 2) == -1;
    }
  }

  /** The array the source's driver uses: nine 0s followed by five 1s. */
  const TestFloors: seq<int> := [0, 0, 0, 0, 0, 0, 0, 0, 0, 1, 1, 1, 1, 1]

  /** On the driver's array the whole-array binary search answers 9. */
  lemma BinarySearchNOnTestFloors()
    ensures FindFloorBinarySearchN(TestFloors) == 9
  {
    var a := TestFloors;
    assert EggFloors(a);
    assert IsFirstBroken(a, 0, |a| - 1, 9);
    FindFloorNFindsFirst(a);
    FirstBrokenUnique(a, 0, |a| - 1, 9, FindFloorBinarySearchN(a));
  }

  /** On the driver's array the galloping finder, as written, answers 9 too:
      it probes 2, 4, 8 and 16 and then binary-searches 9..12. */
  lemma BinarySearchLogFOnTestFloors()
    ensures FindFloorBinarySearchLogF(TestFloors) == 9
  {
    var a := TestFloors;
    assert Gallop(a, 16) == 16;
    assert Gallop(a, 8) == 16;
    assert Gallop(a, 4) == 16;
    assert Gallop(a, 2) == 16;
    assert Gallop(a, 0) == 16;
    assert BinarySearch(a, 9, 9) == 9 by {
      assert BinarySearch(a, 9, 8) == -1;
    }
    assert BinarySearch(a, 9, 12) == 9;
  }


  /** The next probe of the corrected loop, which also probes index 1. */
  function NextGallopProbe(search: nat): nat
  {
    if search == 0 then 1 else search * 2
  }

  /** The corrected probe set: 0, 1, 2, 4, 8, ... */
  predicate IsGallopProbe(n: nat)
  {
    n == 0 || PowerOfTwo(n)
  }

  /** The corrected galloping loop: the same stopping rule over the probes
      0, 1, 2, 4, 8, ... */
  function GallopAll(floors: seq<int>, search: nat): (s: nat)
    requires IsGallopProbe(search)
    ensures s >= search
    ensures s < |floors| ==> floors[s] == Broken
    ensures IsGallopProbe(s)
    ensures s > search ==> search <= s / 2 < |floors|
    ensures forall p :: search <= p < s && p < |floors| && IsGallopProbe(p) ==> floors[p] != Broken
    decreases |floors| - search
  {
    if search >= |floors| then search
    else if floors[search] == Broken then search
    else
      var s := GallopAll(floors, NextGallopProbe(search));
      assert forall p :: search < p < NextGallopProbe(search) ==> !IsGallopProbe(p) by {
        forall p | search < p < NextGallopProbe(search)
          ensures !IsGallopProbe(p)
        {
          NoPowerBetween(search, p);
        }
      }
      s
  }

  /** Half of a corrected probe (rounding down) is again a corrected probe. */
  lemma HalfOfGallopProbe(p: nat)
    requires IsGallopProbe(p)
    ensures IsGallopProbe(p / 2)
  {
  }

  /** The corrected ~2 lg F floor finder: gallop over 0, 1, 2, 4, ..., then
      finish with a binary search. */
  function FindFloorGallop(floors: seq<int>): (r: int)
    ensures r == -1 || (0 <= r < |floors| && floors[r] >= Broken)
  {
    FinishGallop(floors, GallopAll(floors, 0))
  }

  /** The search after the corrected loop stopped at probe `search`:
      binary-search strictly above half the stopping probe, up to just below
      the stopping probe when it broke (falling back to the probe itself),
      and up to the last index otherwise. */
  function FinishGallop(floors: seq<int>, search: nat): (r: int)
    ensures r == -1 || (0 <= r < |floors| && floors[r] >= Broken) || (r == search < |floors|)
  {
    var prev := search / 2;
    if search < |floors| then
      var floor := BinarySearch(floors, prev + 1, search - 1);
      if floor != -1 then floor else search
    else
      BinarySearch(floors, prev + 1, |floors| - 1)
  }

  /** A first-broken answer on [lo, hi] becomes one on the whole array when
      everything below lo is unbroken and the index just above hi (if any)
      breaks. */
  lemma ExtendFirstBroken(arr: seq<int>, lo: int, hi: int, b: int)
    requires 0 <= lo <= hi + 1 <= |arr|
    requires forall i :: 0 <= i < lo ==> arr[i] < Broken
    requires IsFirstBroken(arr, lo, hi, b)
    requires hi + 1 < |arr| ==> arr[hi + 1] >= Broken
    ensures IsFirstBroken(arr, 0, |arr| - 1, if b != -1 then b else if hi + 1 < |arr| then hi + 1 else -1)
  {
  }

  /** Below a corrected probe that did not break, no floor breaks. */
  lemma BelowUnbrokenProbe(floors: seq<int>, prev: nat)
    requires EggFloors(floors)
    requires prev < |floors| && floors[prev] != Broken
    ensures forall i :: 0 <= i <= prev ==> floors[i] < Broken
  {
    forall i | 0 <= i <= prev ensures floors[i] < Broken {
      assert floors[i] <= floors[prev];
    }
  }

  /** Sortedness of an array carries over to every sub-range. */
  lemma SortedSub(arr: seq<int>, L: int, R: int)
    requires SortedOn(arr, 0, |arr| - 1)
    requires L <= R ==> 0 <= L && R < |arr|
    ensures SortedOn(arr, L, R)
  {
  }

  /** A first-broken answer b on [lo, hi], widened to the whole array when
      the index just above hi breaks. */
  function Widen(b: int, hi: int, n: int): int
  {
    if b != -1 then b else if hi + 1 < n then hi + 1 else -1
  }

  /** The binary search that finishes the corrected finder, on [lo, hi],
      extended to an answer on the whole array. */
  lemma FinishSearch(floors: seq<int>, lo: int, hi: int) returns (w: int)
    requires SortedOn(floors, 0, |floors| - 1)
    requires 0 < lo <= hi + 1 <= |floors|
    requires forall i :: 0 <= i < lo ==> floors[i] < Broken
    requires hi + 1 < |floors| ==> floors[hi + 1] >= Broken
    ensures w == Widen(BinarySearch(floors, lo, hi), hi, |floors|)
    ensures IsFirstBroken(floors, 0, |floors| - 1, w)
  {
    SortedSub(floors, lo, hi);
    BinarySearchFindsFirst(floors, lo, hi);
    ExtendFirstBroken(floors, lo, hi, BinarySearch(floors, lo, hi));
    w := Widen(BinarySearch(floors, lo, hi), hi, |floors|);
  }

  /** Finishing after a stop at probe `search` above 0 gives the reference
      answer, provided the previous probe did not break and the stopping
      probe broke when inside the array. */
  lemma FinishAboveZero(floors: seq<int>, search: nat)
    requires SortedOn(floors, 0, |floors| - 1)
    requires search > 0 && search / 2 < |floors|
    requires forall i :: 0 <= i <= search / 2 ==> floors[i] < Broken
    requires search < |floors| ==> floors[search] == Broken
    ensures IsFirstBroken(floors, 0, |floors| - 1, FinishGallop(floors, search))
  {
    var n := |floors|;
    var lo := search / 2 + 1;
    var hi := if search < n then search - 1 else n - 1;
    var w := FinishSearch(floors, lo, hi);
    FinishGallopWidens(floors, search, lo, hi, w);
  }

  /** The search after the corrected loop is the binary search of its range,
      widened by the stopping probe, so it is the lowest breaking floor
      whenever that widened search is. */
  lemma FinishGallopWidens(floors: seq<int>, search: nat, lo: int, hi: int, w: int)
    requires lo == search / 2 + 1 && hi == if search < |floors| then search - 1 else |floors| - 1
    requires w == Widen(BinarySearch(floors, lo, hi), hi, |floors|)
    requires IsFirstBroken(floors, 0, |floors| - 1, w)
    ensures FinishGallop(floors, search) == w
    ensures IsFirstBroken(floors, 0, |floors| - 1, FinishGallop(floors, search))
  {
  }

  /** The corrected galloping finder meets the reference meaning on every
      egg-floor array. */
  lemma GallopFindsFirst(floors: seq<int>)
    requires EggFloors(floors)
    ensures IsFirstBroken(floors, 0, |floors| - 1, FindFloorGallop(floors))
  {
    var search := GallopAll(floors, 0);
    if search == 0 {
      assert BinarySearch(floors, 1, -1) == -1;
    } else {
      HalfOfGallopProbe(search);
      BelowUnbrokenProbe(floors, search / 2);
      FinishAboveZero(floors, search);
    }
  }

  /** For every egg-floor array the corrected galloping finder gives the same
      answer as the whole-array binary search. */
  lemma GallopAgreesWithN(floors: seq<int>)
    requires EggFloors(floors)
    ensures FindFloorGallop(floors) == FindFloorBinarySearchN(floors)
  {
    GallopFindsFirst(floors);
    FindFloorNFindsFirst(floors);
    FirstBrokenUnique(floors, 0, |floors| - 1, FindFloorGallop(floors), FindFloorBinarySearchN(floors));
  }
}

=== FILE: linear_probing.dfy ===
/**
 The linear-probing symbol table: parallel arrays of M = 16 key and value
 slots, where a key lives at the first free slot at or after its hash,
 probing forwards with wrap-around. Resizing is a stub in the source, so
 the arrays never grow. Keys are `int`, values are nullable `int`s, and the
 keys' `hashCode` is an arbitrary function passed in as a parameter.
 */
module LinearProbingHashST {

  import opened Wrappers

  /** Java's 32-bit signed `int`. */
  newtype int32 = x: int | -0x8000_0000 <= x < 0x8000_0000

  /** The number of slots; `resize` is a stub, so it never changes. */
  const M := 16

  /** A call of the source that never returns: a probe loop over a table
      with no free slot and no matching key runs forever. */
  datatype Fault = ProbeNeverEnds

  /** The two parallel arrays and the pair count `N`. */
  datatype Table = Table(keys: seq<Option<int>>, vals: seq<Option<int>>, n: int)

  // ---------------------------------------------------------------------
  // Hashing and probe arithmetic
  // ---------------------------------------------------------------------

  /** Java's `&` on two non-negative bit patterns. */
  function BitAnd(a: nat, b: nat): nat
  {
    if a == 0 || b == 0 then 0
    else 2 * BitAnd(a / 2, b / 2) + (if a % 2 == 1 && b % 2 == 1 then 1 else 0)
  }

  /** The source's hash: clear the sign bit of the 32-bit hash code, then
      reduce modulo M. The hash code's bit pattern is its value modulo 2^32. */
  function Hash(code: int32): (i: int)
    ensures 0 <= i < M
  {
    BitAnd((code as int) % 0x1_0000_0000, 0x7fff_ffff) % M
  }

  /** Clearing the sign bit does not disturb the low four bits, so the hash
      is the hash code modulo 16, rounded towards negative infinity. */
  lemma HashIsLowBits(code: int32)
    ensures Hash(code) == (code as int) % M
  {
    var u := (code as int) % 0x1_0000_0000;
    AndLowMod(u, 0x7fff_ffff, 4);
    WrapKeepsLowBits(code as int);
  }

  /** Reducing modulo 2^32 keeps the remainder modulo 16. */
  lemma WrapKeepsLowBits(x: int)
    ensures (x % 0x1_0000_0000) % 16 == x % 16
  {
    var q, u := x / 0x1_0000_0000, x % 0x1_0000_0000;
    var q2, r := u / 16, u % 16;
    assert u == 16 * q2 + r;
    assert x == 16 * (0x1000_0000 * q + q2) + r;
    ModOfSum(x, 16, 0x1000_0000 * q + q2, r);
  }

  function Pow2(j: nat): nat
    requires j <= 4
  {
    if j == 0 then 1 else if j == 1 then 2 else if j == 2 then 4 else if j == 3 then 8 else 16
  }

  /** A mask whose low j bits are set keeps the low j bits of any value. */
  lemma {:induction false} AndLowMod(u: nat, b: nat, j: nat)
    requires j <= 4 && b % Pow2(j) == Pow2(j) - 1
    ensures BitAnd(u, b) % Pow2(j) == u % Pow2(j)
  {
    if j > 0 && u > 0 {
      HalfMask(b, j);
      AndLowMod(u / 2, b / 2, j - 1);
      var y := BitAnd(u / 2, b / 2);
      assert BitAnd(u, b) == 2 * y + u % 2;
      DoubleMod(y, u % 2, Pow2(j - 1));
      DoubleMod(u / 2, u % 2, Pow2(j - 1));
      assert u == 2 * (u / 2) + u % 2;
    }
  }

  lemma HalfMask(b: nat, j: nat)
    requires 1 <= j <= 4 && b % Pow2(j) == Pow2(j) - 1
    ensures b % 2 == 1 && (b / 2) % Pow2(j - 1) == Pow2(j - 1) - 1
  {
    if j == 1 {} else if j == 2 {} else if j == 3 {} else {}
  }

  /** Doubling and adding a bit doubles the remainder and adds the bit. */
  lemma DoubleMod(y: nat, b: nat, m: nat)
    requires b < 2 && (m == 1 || m == 2 || m == 4 || m == 8)
    ensures (2 * y + b) % (2 * m) == 2 * (y % m) + b
  {
    if m == 1 { DoubleMod1(y, b); }
    else if m == 2 { DoubleModBy(y, b, 2, y / 2, y % 2); }
    else if m == 4 { DoubleModBy(y, b, 4, y / 4, y % 4); }
    else { DoubleModBy(y, b, 8, y / 8, y % 8); }
  }

  lemma DoubleMod1(y: nat, b: nat)
    requires b < 2
    ensures (2 * y + b) % 2 == b
  {
  }

  lemma DoubleModBy(y: nat, b: nat, m: nat, q: nat, r: nat)
    requires b < 2 && (m == 2 || m == 4 || m == 8)
    requires y == m * q + r && r < m && r == y % m
    ensures (2 * y + b) % (2 * m) == 2 * r + b
  {
    assert 2 * y + b == (2 * m) * q + (2 * r + b);
    ModOfSum(2 * y + b, 2 * m, q, 2 * r + b);
  }

  /** The remainder of q * d + c, for 0 <= c < d, is c. */
  lemma ModOfSum(x: int, d: int, q: int, c: int)
    requires d == 4 || d == 8 || d == 16
    requires x == d * q + c && 0 <= c < d
    ensures x % d == c
  {
    if d == 4 {} else if d == 8 {} else {}
  }

  /** The hash of a key under the given hash-code function. */
  function HashOf(hashCode: int -> int32, key: int): int
  {
    Hash(hashCode(key))
  }

  /** The source's probe step `(i + 1) % M`: the next slot, wrapping from
      the last slot back to slot 0. */
  function Next(i: int): (j: int)
    requires 0 <= i < M
    ensures 0 <= j < M
    ensures i < M - 1 ==> j == i + 1
    ensures i == M - 1 ==> j == 0
  {
    (i + 1) % M
  }

  /** The slot d probe steps after `start`. */
  function Slot(start: int, d: int): (j: int)
    requires 0 <= start < M && d >= 0
    ensures 0 <= j < M
  {
    (start + d) % M
  }

  /** The number of probe steps from slot a forward to slot b. */
  function Dist(a: int, b: int): (d: int)
    requires 0 <= a < M && 0 <= b < M
    ensures 0 <= d < M
    ensures d == 0 <==> a == b
  {
    (b - a) % M
  }

  /** One more probe step is one application of the source's `(i + 1) % M`. */
  lemma SlotNext(start: int, d: nat)
    requires 0 <= start < M
    ensures Slot(start, d + 1) == Next(Slot(start, d))
  {
    var q := (start + d) / M;
    assert start + d == M * q + Slot(start, d);
    assert start + d + 1 == M * q + (Slot(start, d) + 1);
  }

  /** Starting the probe one slot later shifts every offset by one. */
  lemma SlotShift(i: int, e: nat)
    requires 0 <= i < M
    ensures Slot(Next(i), e) == Slot(i, e + 1)
  {
    var q := (Next(i) + e) / M;
    if i < M - 1 {
      assert Next(i) + e == i + e + 1;
    } else {
      assert Next(i) + e + M == i + e + 1;
      assert i + e + 1 == M * (q + 1) + Slot(Next(i), e);
    }
  }

  lemma SlotDist(a: int, b: int)
    requires 0 <= a < M && 0 <= b < M
    ensures Slot(a, Dist(a, b)) == b
  {
    if a <= b {
      assert Dist(a, b) == b - a;
    } else {
      assert Dist(a, b) == b - a + M;
    }
  }

  lemma DistSlot(a: int, e: int)
    requires 0 <= a < M && 0 <= e < M
    ensures Dist(a, Slot(a, e)) == e
  {
    if a + e < M {
      assert Slot(a, e) == a + e;
    } else {
      assert Slot(a, e) == a + e - M;
    }
  }

  /** Two shorter walks make up a longer one when they fit in one lap. */
  lemma DistAdd(h: int, x: int, z: int)
    requires 0 <= h < M && 0 <= x < M && 0 <= z < M
    requires Dist(h, x) + Dist(x, z) < M
    ensures Dist(h, z) == Dist(h, x) + Dist(x, z)
  {
    if h <= x {
      assert Dist(h, x) == x - h;
    } else {
      assert Dist(h, x) == x - h + M;
    }
    if x <= z {
      assert Dist(x, z) == z - x;
    } else {
      assert Dist(x, z) == z - x + M;
    }
  }

  /** Starting one slot later shortens the walk to any other slot by one. */
  lemma DistNext(i: int, j: int)
    requires 0 <= i < M && 0 <= j < M && i != j
    ensures Dist(Next(i), j) == Dist(i, j) - 1
  {
    if i < M - 1 {
      assert Next(i) == i + 1;
    } else {
      assert Next(i) == 0;
    }
  }

  // ---------------------------------------------------------------------
  // The table's contents
  // ---------------------------------------------------------------------

  /** Both arrays have M slots. */
  predicate Shaped(keys: seq<Option<int>>, vals: seq<Option<int>>)
  {
    |keys| == M && |vals| == M
  }

  /** No key is stored in two slots. */
  ghost predicate Distinct(keys: seq<Option<int>>)
  {
    forall a, b :: 0 <= a < b < |keys| && keys[a].Some? ==> keys[a] != keys[b]
  }

  /** Every empty key slot has an empty value slot. */
  ghost predicate NullVals(keys: seq<Option<int>>, vals: seq<Option<int>>)
    requires Shaped(keys, vals)
  {
    forall j :: 0 <= j < M && keys[j].None? ==> vals[j].None?
  }

  /** The key-value pairs held in slots j .. M - 1, as a map. */
  function MapFrom(keys: seq<Option<int>>, vals: seq<Option<int>>, j: int): map<int, Option<int>>
    requires Shaped(keys, vals) && 0 <= j <= M
    decreases M - j
  {
    if j == M then map[]
    else
      var m := MapFrom(keys, vals, j + 1);
      if keys[j].Some? then m[keys[j].value := vals[j]] else m
  }

  /** The symbol table a pair of arrays represents. */
  function Contents(keys: seq<Option<int>>, vals: seq<Option<int>>): map<int, Option<int>>
    requires Shaped(keys, vals)
  {
    MapFrom(keys, vals, 0)
  }

  function Map(t: Table): map<int, Option<int>>
    requires Shaped(t.keys, t.vals)
  {
    Contents(t.keys, t.vals)
  }

  /** A key is in the map exactly when some slot holds it. */
  lemma {:induction false} MapFromHas(keys: seq<Option<int>>, vals: seq<Option<int>>, j: int, k: int)
    requires Shaped(keys, vals) && 0 <= j <= M
    ensures k in MapFrom(keys, vals, j) <==> exists x :: j <= x < M && keys[x] == Some(k)
    decreases M - j
  {
    if j < M {
      MapFromHas(keys, vals, j + 1, k);
      if keys[j] == Some(k) {
        assert keys[j] == Some(k);
      }
      if k in MapFrom(keys, vals, j + 1) {
        var x :| j + 1 <= x < M && keys[x] == Some(k);
        assert j <= x < M && keys[x] == Some(k);
      }
    }
  }

  /** With distinct keys, the map sends a stored key to its slot's value. */
  lemma {:induction false} MapFromAt(keys: seq<Option<int>>, vals: seq<Option<int>>, j: int, x: int)
    requires Shaped(keys, vals) && Distinct(keys) && 0 <= j <= x < M && keys[x].Some?
    ensures keys[x].value in MapFrom(keys, vals, j)
    ensures MapFrom(keys, vals, j)[keys[x].value] == vals[x]
    decreases M - j
  {
    if j < x {
      MapFromAt(keys, vals, j + 1, x);
      assert keys[j] != keys[x];
    }
  }

  lemma ContentsHas(keys: seq<Option<int>>, vals: seq<Option<int>>, k: int)
    requires Shaped(keys, vals)
    ensures k in Contents(keys, vals) <==> exists x :: 0 <= x < M && keys[x] == Some(k)
  {
    MapFromHas(keys, vals, 0, k);
  }

  lemma ContentsAt(keys: seq<Option<int>>, vals: seq<Option<int>>, x: int)
    requires Shaped(keys, vals) && Distinct(keys) && 0 <= x < M && keys[x].Some?
    ensures keys[x].value in Contents(keys, vals)
    ensures Contents(keys, vals)[keys[x].value] == vals[x]
  {
    MapFromAt(keys, vals, 0, x);
  }

  /** Emptying the slot of a key removes exactly that key. */
  lemma ContentsClear(keys: seq<Option<int>>, vals: seq<Option<int>>, x: int)
    requires Shaped(keys, vals) && Distinct(keys) && 0 <= x < M && keys[x].Some?
    ensures Distinct(keys[x := None])
    ensures Contents(keys[x := None], vals[x := None]) == Contents(keys, vals) - {keys[x].value}
  {
    var keys', vals' := keys[x := None], vals[x := None];
    var A, B := Contents(keys', vals'), Contents(keys, vals) - {keys[x].value};
    forall k ensures k in A <==> k in B {
      ContentsHas(keys', vals', k);
      ContentsHas(keys, vals, k);
      if k in B {
        var y :| 0 <= y < M && keys[y] == Some(k);
        assert keys'[y] == Some(k);
      }
    }
    forall k | k in A ensures A[k] == B[k] {
      ContentsHas(keys', vals', k);
      var y :| 0 <= y < M && keys'[y] == Some(k);
      ContentsAt(keys', vals', y);
      ContentsAt(keys, vals, y);
    }
    assert A == B;
  }

  /** Filling an empty slot with an absent key adds exactly that pair. */
  lemma ContentsFill(keys: seq<Option<int>>, vals: seq<Option<int>>, x: int, k: int, v: Option<int>)
    requires Shaped(keys, vals) && Distinct(keys) && 0 <= x < M && keys[x].None?
    requires forall y :: 0 <= y < M ==> keys[y] != Some(k)
    ensures Distinct(keys[x := Some(k)])
    ensures Contents(keys[x := Some(k)], vals[x := v]) == Contents(keys, vals)[k := v]
  {
    var keys', vals' := keys[x := Some(k)], vals[x := v];
    var A, B := Contents(keys', vals'), Contents(keys, vals)[k := v];
    forall k' ensures k' in A <==> k' in B {
      ContentsHas(keys', vals', k');
      ContentsHas(keys, vals, k');
      assert keys'[x] == Some(k);
      if k' in B && k' != k {
        var y :| 0 <= y < M && keys[y] == Some(k');
        assert keys'[y] == Some(k');
      }
      if k' in A && k' != k {
        var y :| 0 <= y < M && keys'[y] == Some(k');
        assert keys[y] == Some(k');
      }
    }
    forall k' | k' in A ensures A[k'] == B[k'] {
      ContentsHas(keys', vals', k');
      var y :| 0 <= y < M && keys'[y] == Some(k');
      ContentsAt(keys', vals', y);
      if y != x {
        ContentsAt(keys, vals, y);
      }
    }
    assert A == B;
  }

  /** Overwriting the value in a key's slot rebinds exactly that key. */
  lemma ContentsOverwrite(keys: seq<Option<int>>, vals: seq<Option<int>>, x: int, v: Option<int>)
    requires Shaped(keys, vals) && Distinct(keys) && 0 <= x < M && keys[x].Some?
    ensures Contents(keys, vals[x := v]) == Contents(keys, vals)[keys[x].value := v]
  {
    var vals' := vals[x := v];
    var A, B := Contents(keys, vals'), Contents(keys, vals)[keys[x].value := v];
    forall k ensures k in A <==> k in B {
      ContentsHas(keys, vals', k);
      ContentsHas(keys, vals, k);
      ContentsAt(keys, vals, x);
    }
    forall k | k in A ensures A[k] == B[k] {
      ContentsHas(keys, vals', k);
      var y :| 0 <= y < M && keys[y] == Some(k);
      ContentsAt(keys, vals', y);
      if y != x {
        ContentsAt(keys, vals, y);
      }
    }
    assert A == B;
  }

  /** The number of occupied key slots among j .. M - 1. */
  function OccupiedFrom(keys: seq<Option<int>>, j: int): (c: int)
    requires |keys| == M && 0 <= j <= M
    ensures 0 <= c <= M - j
    decreases M - j
  {
    if j == M then 0 else OccupiedFrom(keys, j + 1) + (if keys[j].Some? then 1 else 0)
  }

  /** Some key slot is empty. */
  ghost predicate HasNull(keys: seq<Option<int>>)
    requires |keys| == M
  {
    exists z :: 0 <= z < M && keys[z].None?
  }

  /** All slots j .. M - 1 are occupied exactly when the count says so. */
  lemma {:induction false} OccupiedFull(keys: seq<Option<int>>, j: int)
    requires |keys| == M && 0 <= j <= M
    ensures OccupiedFrom(keys, j) == M - j <==> forall x :: j <= x < M ==> keys[x].Some?
    decreases M - j
  {
    if j < M {
      OccupiedFull(keys, j + 1);
    }
  }

  /** With distinct keys, the map has one entry per occupied slot. */
  lemma {:induction false} MapFromSize(keys: seq<Option<int>>, vals: seq<Option<int>>, j: int)
    requires Shaped(keys, vals) && Distinct(keys) && 0 <= j <= M
    ensures |MapFrom(keys, vals, j)| == OccupiedFrom(keys, j)
    decreases M - j
  {
    if j < M {
      MapFromSize(keys, vals, j + 1);
      if keys[j].Some? {
        MapFromHas(keys, vals, j + 1, keys[j].value);
      }
    }
  }

  /** With distinct keys, the table has a free slot exactly when it holds
      fewer than M pairs. */
  lemma HasNullIffRoom(keys: seq<Option<int>>, vals: seq<Option<int>>)
    requires Shaped(keys, vals) && Distinct(keys)
    ensures HasNull(keys) <==> |Contents(keys, vals)| < M
    ensures |Contents(keys, vals)| <= M
  {
    MapFromSize(keys, vals, 0);
    OccupiedFull(keys, 0);
  }

  // ---------------------------------------------------------------------
  // Probing, the table invariant, get and put
  // ---------------------------------------------------------------------

  /** The source's probe loops stop at an empty key slot or at the key. */
  predicate Stops(keys: seq<Option<int>>, key: int, j: int)
    requires |keys| == M && 0 <= j < M
  {
    keys[j].None? || keys[j] == Some(key)
  }

  /** The offset, counted from `start`, of the first stopping slot at
      offset d or later within one lap; None when there is none, in which
      case the source's loop revisits the same slots forever. */
  function ProbeFrom(keys: seq<Option<int>>, key: int, start: int, d: nat): (r: Option<nat>)
    requires |keys| == M && 0 <= start < M && d <= M
    ensures r.Some? ==> d <= r.value < M && Stops(keys, key, Slot(start, r.value))
    ensures r.Some? ==> forall e :: d <= e < r.value ==> !Stops(keys, key, Slot(start, e))
    ensures r.None? ==> forall e :: d <= e < M ==> !Stops(keys, key, Slot(start, e))
    decreases M - d
  {
    if d == M then None
    else if Stops(keys, key, Slot(start, d)) then Some(d)
    else ProbeFrom(keys, key, start, d + 1)
  }

  /** The key in slot j can be found from its hash: every slot the probe
      passes before reaching j is occupied. */
  ghost predicate Placed(hashCode: int -> int32, keys: seq<Option<int>>, j: int)
    requires |keys| == M && 0 <= j < M
  {
    keys[j].Some? ==>
      var h := HashOf(hashCode, keys[j].value);
      forall e :: 0 <= e < Dist(h, j) ==> keys[Slot(h, e)].Some?
  }

  ghost predicate AllPlaced(hashCode: int -> int32, keys: seq<Option<int>>)
    requires |keys| == M
  {
    forall j :: 0 <= j < M ==> Placed(hashCode, keys, j)
  }

  /** The table invariant: M slots each, empty keys with empty values,
      distinct keys, every key findable from its hash, and N the number of
      pairs. */
  ghost predicate Valid(hashCode: int -> int32, t: Table)
  {
    && Shaped(t.keys, t.vals)
    && NullVals(t.keys, t.vals)
    && Distinct(t.keys)
    && AllPlaced(hashCode, t.keys)
    && t.n == |Map(t)|
  }

  /** The source's constructor: M empty slots and no pairs. */
  function Empty(): (t: Table)
    ensures Shaped(t.keys, t.vals) && t.n == 0
    ensures forall j :: 0 <= j < M ==> t.keys[j].None? && t.vals[j].None?
  {
    var none := seq(M, _ => None);
    Table(none, none, 0)
  }

  /** The empty table is valid and holds no pairs. */
  lemma EmptyIsValid(hashCode: int -> int32)
    ensures Valid(hashCode, Empty()) && Map(Empty()) == map[]
  {
    var t := Empty();
    forall k ensures k !in Map(t) { ContentsHas(t.keys, t.vals, k); }
  }

  /** The source's get: probe from the key's hash; the key's value, or null
      at the first empty slot. */
  function Get(hashCode: int -> int32, t: Table, key: int): (r: Result<Option<int>, Fault>)
    requires Shaped(t.keys, t.vals)
    ensures r.Ok? && r.value.Some? ==> exists i :: 0 <= i < M && t.keys[i] == Some(key) && t.vals[i] == r.value
    ensures r.Err? ==> forall e :: 0 <= e < M ==>
      var k := t.keys[Slot(HashOf(hashCode, key), e)]; k.Some? && k != Some(key)
  {
    var h := HashOf(hashCode, key);
    match ProbeFrom(t.keys, key, h, 0)
    case None => Err(ProbeNeverEnds)
    case Some(d) =>
      var i := Slot(h, d);
      if t.keys[i].None? then Ok(None) else Ok(t.vals[i])
  }

  /** The source's contains, taken as get(key) != null. */
  function Contains(hashCode: int -> int32, t: Table, key: int): (r: Result<bool, Fault>)
    requires Shaped(t.keys, t.vals)
    ensures r.Ok? && r.value ==> exists i :: 0 <= i < M && t.keys[i] == Some(key) && t.vals[i].Some?
    ensures r.Err? ==> forall e :: 0 <= e < M ==>
      var k := t.keys[Slot(HashOf(hashCode, key), e)]; k.Some? && k != Some(key)
  {
    var r := Get(hashCode, t, key);
    if r.Err? then Err(r.error) else Ok(r.value.Some?)
  }

  /** The source's put: probe from the key's hash; overwrite the value of
      an equal key, or store the pair in the first empty slot and count it.
      The call `resize(2*M)` at the head is a stub and does nothing. */
  function Put(hashCode: int -> int32, t: Table, key: int, val: Option<int>): (r: Result<Table, Fault>)
    requires Shaped(t.keys, t.vals)
    ensures r.Ok? ==> Shaped(r.value.keys, r.value.vals)
    ensures r.Ok? ==> exists i :: (
      && 0 <= i < M
      && r.value.keys == t.keys[i := Some(key)] && r.value.vals == t.vals[i := val]
      && r.value.n == if t.keys[i] == Some(key) then t.n else t.n + 1)
    ensures r.Err? ==> forall e :: 0 <= e < M ==>
      var k := t.keys[Slot(HashOf(hashCode, key), e)]; k.Some? && k != Some(key)
  {
    var h := HashOf(hashCode, key);
    match ProbeFrom(t.keys, key, h, 0)
    case None => Err(ProbeNeverEnds)
    case Some(d) =>
      var i := Slot(h, d);
      if t.keys[i] == Some(key) then Ok(t.(vals := t.vals[i := val]))
      else Ok(Table(t.keys[i := Some(key)], t.vals[i := val], t.n + 1))
  }

  /** A probe stops at the first stopping offset. */
  lemma FirstStop(keys: seq<Option<int>>, key: int, h: int, D: int)
    requires |keys| == M && 0 <= h < M && 0 <= D < M
    requires Stops(keys, key, Slot(h, D))
    requires forall e :: 0 <= e < D ==> !Stops(keys, key, Slot(h, e))
    ensures ProbeFrom(keys, key, h, 0) == Some(D)
  {
  }

  /** Before reaching a stored key's slot, its probe passes only other keys. */
  lemma PassesOtherKeys(hashCode: int -> int32, t: Table, key: int, s: int, e: int)
    requires Shaped(t.keys, t.vals) && Distinct(t.keys) && 0 <= s < M && t.keys[s] == Some(key)
    requires Placed(hashCode, t.keys, s)
    requires 0 <= e < Dist(HashOf(hashCode, key), s)
    ensures !Stops(t.keys, key, Slot(HashOf(hashCode, key), e))
  {
    var h := HashOf(hashCode, key);
    DistSlot(h, e);
    var y := Slot(h, e);
    assert t.keys[y].Some?;
    if y < s { assert t.keys[y] != t.keys[s]; } else if s < y { assert t.keys[s] != t.keys[y]; }
  }

  /** In a valid table the probe for a stored key stops at the key's slot. */
  lemma ProbeReachesKey(hashCode: int -> int32, t: Table, key: int, s: int)
    requires Valid(hashCode, t) && 0 <= s < M && t.keys[s] == Some(key)
    ensures ProbeFrom(t.keys, key, HashOf(hashCode, key), 0) == Some(Dist(HashOf(hashCode, key), s))
  {
    var h := HashOf(hashCode, key);
    SlotDist(h, s);
    assert Placed(hashCode, t.keys, s);
    forall e | 0 <= e < Dist(h, s)
      ensures !Stops(t.keys, key, Slot(h, e))
    {
      PassesOtherKeys(hashCode, t, key, s, e);
    }
    FirstStop(t.keys, key, h, Dist(h, s));
  }

  /** For a key stored nowhere, the probe stops exactly when some slot is
      empty, and then at an empty slot. */
  lemma ProbeMissesKey(keys: seq<Option<int>>, key: int, h: int)
    requires |keys| == M && 0 <= h < M
    requires forall y :: 0 <= y < M ==> keys[y] != Some(key)
    ensures ProbeFrom(keys, key, h, 0).Some? <==> HasNull(keys)
    ensures ProbeFrom(keys, key, h, 0).Some? ==> keys[Slot(h, ProbeFrom(keys, key, h, 0).value)].None?
  {
    var r := ProbeFrom(keys, key, h, 0);
    if HasNull(keys) {
      var z :| 0 <= z < M && keys[z].None?;
      SlotDist(h, z);
      assert Stops(keys, key, Slot(h, Dist(h, z)));
    }
    if r.Some? {
      assert keys[Slot(h, r.value)].None?;
    }
  }

  /** get agrees with the table's map: the stored value of a present key,
      null for an absent key while a slot is free, and a probe that never
      ends for an absent key in a full table. */
  lemma GetMeansLookup(hashCode: int -> int32, t: Table, key: int)
    requires Valid(hashCode, t)
    ensures Get(hashCode, t, key) ==
      if key in Map(t) then Ok(Map(t)[key])
      else if t.n < M then Ok(None)
      else Err(ProbeNeverEnds)
  {
    ContentsHas(t.keys, t.vals, key);
    HasNullIffRoom(t.keys, t.vals);
    if key in Map(t) {
      var s :| 0 <= s < M && t.keys[s] == Some(key);
      ProbeReachesKey(hashCode, t, key, s);
      SlotDist(HashOf(hashCode, key), s);
      ContentsAt(t.keys, t.vals, s);
    } else {
      ProbeMissesKey(t.keys, key, HashOf(hashCode, key));
    }
  }

  /** contains never ends only for an absent key in a full table, and is
      otherwise true exactly for keys stored with a non-null value. */
  lemma ContainsMeans(hashCode: int -> int32, t: Table, key: int)
    requires Valid(hashCode, t)
    ensures Contains(hashCode, t, key).Err? <==> key !in Map(t) && t.n == M
    ensures Contains(hashCode, t, key).Ok? ==>
      (Contains(hashCode, t, key).value <==> key in Map(t) && Map(t)[key].Some?)
  {
    GetMeansLookup(hashCode, t, key);
    HasNullIffRoom(t.keys, t.vals);
  }

  /** Filling an empty slot keeps every other key findable. */
  lemma FillKeepsPlaced(hashCode: int -> int32, keys: seq<Option<int>>, x: int, k: int, j: int)
    requires |keys| == M && 0 <= x < M && 0 <= j < M && j != x && keys[x].None?
    requires Placed(hashCode, keys, j)
    ensures Placed(hashCode, keys[x := Some(k)], j)
  {
  }

  /** For an absent key and a table with a free slot, put stores the pair
      in the first empty slot on the key's probe and counts it. */
  lemma PutFillsFirstNull(hashCode: int -> int32, t: Table, key: int, val: Option<int>) returns (d: nat, x: int)
    requires Shaped(t.keys, t.vals) && HasNull(t.keys)
    requires forall y :: 0 <= y < M ==> t.keys[y] != Some(key)
    ensures ProbeFrom(t.keys, key, HashOf(hashCode, key), 0) == Some(d)
    ensures d < M && x == Slot(HashOf(hashCode, key), d) && t.keys[x].None?
    ensures forall e :: 0 <= e < d ==> t.keys[Slot(HashOf(hashCode, key), e)].Some?
    ensures Put(hashCode, t, key, val) == Ok(Table(t.keys[x := Some(key)], t.vals[x := val], t.n + 1))
  {
    var h := HashOf(hashCode, key);
    ProbeMissesKey(t.keys, key, h);
    d := ProbeFrom(t.keys, key, h, 0).value;
    x := Slot(h, d);
  }

  /** The new pair's slot is findable: every slot the probe passed is full. */
  lemma FilledSlotPlaced(hashCode: int -> int32, keys: seq<Option<int>>, key: int, d: int)
    requires |keys| == M && 0 <= d < M
    requires var h := HashOf(hashCode, key);
      keys[Slot(h, d)].None? && forall e :: 0 <= e < d ==> keys[Slot(h, e)].Some?
    ensures Placed(hashCode, keys[Slot(HashOf(hashCode, key), d) := Some(key)], Slot(HashOf(hashCode, key), d))
  {
    var h := HashOf(hashCode, key);
    var x := Slot(h, d);
    DistSlot(h, d);
    var keys' := keys[x := Some(key)];
    forall e | 0 <= e < Dist(h, x) ensures keys'[Slot(h, e)].Some? {
      assert keys[Slot(h, e)].Some?;
    }
  }

  /** put of a present key overwrites its value and keeps N. */
  lemma PutPresent(hashCode: int -> int32, t: Table, key: int, val: Option<int>)
    requires Valid(hashCode, t) && key in Map(t)
    ensures Put(hashCode, t, key, val).Ok?
    ensures var r := Put(hashCode, t, key, val).value;
      Valid(hashCode, r) && Map(r) == Map(t)[key := val] && r.n == t.n && r.keys == t.keys
  {
    ContentsHas(t.keys, t.vals, key);
    var s :| 0 <= s < M && t.keys[s] == Some(key);
    ProbeReachesKey(hashCode, t, key, s);
    SlotDist(HashOf(hashCode, key), s);
    ContentsOverwrite(t.keys, t.vals, s, val);
  }

  /** put of an absent key into a table with a free slot adds the pair and
      counts it. */
  lemma PutAbsent(hashCode: int -> int32, t: Table, key: int, val: Option<int>)
    requires Valid(hashCode, t) && key !in Map(t) && t.n < M
    ensures Put(hashCode, t, key, val).Ok?
    ensures var r := Put(hashCode, t, key, val).value;
      Valid(hashCode, r) && Map(r) == Map(t)[key := val] && r.n == t.n + 1
  {
    ContentsHas(t.keys, t.vals, key);
    HasNullIffRoom(t.keys, t.vals);
    var d, x := PutFillsFirstNull(hashCode, t, key, val);
    var r := Put(hashCode, t, key, val).value;
    ContentsFill(t.keys, t.vals, x, key, val);
    FilledSlotPlaced(hashCode, t.keys, key, d);
    forall j | 0 <= j < M ensures Placed(hashCode, r.keys, j) {
      if j != x {
        assert Placed(hashCode, t.keys, j);
        FillKeepsPlaced(hashCode, t.keys, x, key, j);
      }
    }
  }

  /** put of an absent key into a full table never ends. */
  lemma PutFull(hashCode: int -> int32, t: Table, key: int, val: Option<int>)
    requires Valid(hashCode, t) && key !in Map(t) && t.n == M
    ensures Put(hashCode, t, key, val).Err?
  {
    ContentsHas(t.keys, t.vals, key);
    HasNullIffRoom(t.keys, t.vals);
    ProbeMissesKey(t.keys, key, HashOf(hashCode, key));
  }

  /** put on a valid table: it never ends only for an absent key in a full
      table; otherwise the result is valid, maps key to val, keeps every
      other pair, and counts a new key. */
  lemma PutMeansUpdate(hashCode: int -> int32, t: Table, key: int, val: Option<int>)
    requires Valid(hashCode, t)
    ensures Put(hashCode, t, key, val).Err? <==> key !in Map(t) && t.n == M
    ensures Put(hashCode, t, key, val).Ok? ==>
      var r := Put(hashCode, t, key, val).value;
      && Valid(hashCode, r)
      && Map(r) == Map(t)[key := val]
      && r.n == if key in Map(t) then t.n else t.n + 1
  {
    if key in Map(t) {
      PutPresent(hashCode, t, key, val);
    } else if t.n < M {
      PutAbsent(hashCode, t, key, val);
    } else {
      HasNullIffRoom(t.keys, t.vals);
      PutFull(hashCode, t, key, val);
    }
  }

  /** Reading back after a put yields the value just put. */
  lemma PutThenGet(hashCode: int -> int32, t: Table, key: int, val: Option<int>, other: int)
    requires Valid(hashCode, t) && Put(hashCode, t, key, val).Ok?
    ensures Get(hashCode, Put(hashCode, t, key, val).value, key) == Ok(val)
    ensures other != key && other in Map(t) ==>
      Get(hashCode, Put(hashCode, t, key, val).value, other) == Get(hashCode, t, other)
  {
    PutMeansUpdate(hashCode, t, key, val);
    var r := Put(hashCode, t, key, val).value;
    GetMeansLookup(hashCode, r, key);
    GetMeansLookup(hashCode, r, other);
    GetMeansLookup(hashCode, t, other);
  }

  // ---------------------------------------------------------------------
  // Delete: clearing a slot and re-inserting the rest of its cluster
  // ---------------------------------------------------------------------

  /** Walking e0 steps and then f more is walking e0 + f steps. */
  lemma SlotAdd(h: int, e0: int, f: int)
    requires 0 <= h < M && 0 <= e0 && 0 <= f && e0 + f < M
    ensures Slot(Slot(h, e0), f) == Slot(h, e0 + f)
  {
    if h + e0 < M {
      assert Slot(h, e0) == h + e0;
    } else {
      assert Slot(h, e0) == h + e0 - M;
      if h + e0 + f < 2 * M {
        assert Slot(h, e0 + f) == h + e0 + f - M;
      }
    }
  }

  /** The offset, counted from `start`, of the first empty key slot at
      offset d or later, or M when the rest of the lap is occupied. */
  function NullOffset(keys: seq<Option<int>>, start: int, d: nat): (g: nat)
    requires |keys| == M && 0 <= start < M && d <= M
    ensures d <= g <= M
    ensures g < M ==> keys[Slot(start, g)].None?
    ensures forall e :: d <= e < g ==> keys[Slot(start, e)].Some?
    decreases M - d
  {
    if d == M then M
    else if keys[Slot(start, d)].None? then d
    else NullOffset(keys, start, d + 1)
  }

  /** The length of the run of occupied slots that starts at slot i. */
  function Gap(keys: seq<Option<int>>, i: int): (g: nat)
    requires |keys| == M && 0 <= i < M
    ensures g <= M
    ensures g < M ==> keys[Slot(i, g)].None?
    ensures forall e :: 0 <= e < g ==> keys[Slot(i, e)].Some?
  {
    NullOffset(keys, i, 0)
  }

  /** A run of D occupied slots from `start` makes the gap at least D. */
  lemma GapAtLeast(keys: seq<Option<int>>, start: int, D: int)
    requires |keys| == M && 0 <= start < M && 0 <= D <= M
    requires forall e :: 0 <= e < D ==> keys[Slot(start, e)].Some?
    ensures Gap(keys, start) >= D
  {
  }

  /** If the slots from offset e0 of j's probe up to j itself are all
      occupied, then j lies in the run that starts at that slot. */
  lemma RunCovers(keys: seq<Option<int>>, h: int, j: int, e0: int)
    requires |keys| == M && 0 <= h < M && 0 <= j < M && 0 <= e0 <= Dist(h, j)
    requires forall e :: e0 <= e <= Dist(h, j) ==> keys[Slot(h, e)].Some?
    ensures Dist(Slot(h, e0), j) < Gap(keys, Slot(h, e0))
  {
    var x := Slot(h, e0);
    var D := Dist(h, j) - e0;
    SlotAdd(h, e0, D);
    SlotDist(h, j);
    DistSlot(x, D);
    forall f | 0 <= f < D + 1 ensures keys[Slot(x, f)].Some? {
      SlotAdd(h, e0, f);
      assert keys[Slot(h, e0 + f)].Some?;
    }
    GapAtLeast(keys, x, D + 1);
  }

  /** Clearing an occupied slot x shortens the run after it by one at most. */
  lemma ClearGap(keys: seq<Option<int>>, x: int)
    requires |keys| == M && 0 <= x < M && keys[x].Some?
    ensures Gap(keys[x := None], Next(x)) >= Gap(keys, x) - 1
  {
    var G := Gap(keys, x);
    var keys' := keys[x := None];
    forall e | 0 <= e < G - 1 ensures keys'[Slot(Next(x), e)].Some? {
      SlotShift(x, e);
      DistSlot(x, e + 1);
      assert keys[Slot(x, e + 1)].Some?;
    }
    GapAtLeast(keys', Next(x), G - 1);
  }

  /** Filling an empty slot never shortens a run. */
  lemma FillGap(keys: seq<Option<int>>, x: int, k: int, start: int)
    requires |keys| == M && 0 <= x < M && 0 <= start < M && keys[x].None?
    ensures Gap(keys[x := Some(k)], start) >= Gap(keys, start)
  {
    var keys' := keys[x := Some(k)];
    var G := Gap(keys, start);
    forall e | 0 <= e < G ensures keys'[Slot(start, e)].Some? {
      assert keys[Slot(start, e)].Some?;
    }
    GapAtLeast(keys', start, G);
  }

  /** With an empty slot somewhere, the run after an occupied slot i is one
      shorter than the run from i. */
  lemma GapShrinks(keys: seq<Option<int>>, i: int)
    requires |keys| == M && 0 <= i < M && keys[i].Some? && HasNull(keys)
    ensures Gap(keys, Next(i)) < Gap(keys, i)
  {
    var G := Gap(keys, i);
    if G == M {
      var z :| 0 <= z < M && keys[z].None?;
      SlotDist(i, z);
    } else {
      SlotShift(i, G - 1);
      assert keys[Slot(Next(i), G - 1)].None?;
    }
  }

  /** Clearing a slot x outside j's probe keeps j findable; x is outside it
      when j does not lie in the run from x. */
  lemma ClearKeepsPlaced(hashCode: int -> int32, keys: seq<Option<int>>, x: int, j: int)
    requires |keys| == M && 0 <= x < M && 0 <= j < M && j != x && keys[x].Some?
    requires Placed(hashCode, keys, j) && Gap(keys, x) <= Dist(x, j)
    ensures Placed(hashCode, keys[x := None], j)
  {
    if keys[j].Some? {
      var h := HashOf(hashCode, keys[j].value);
      forall e | 0 <= e < Dist(h, j) ensures Slot(h, e) != x {
        OffPath(keys, h, x, j, e);
      }
    }
  }

  /** A slot whose run does not reach j is not on a full probe to j. */
  lemma OffPath(keys: seq<Option<int>>, h: int, x: int, j: int, e: int)
    requires |keys| == M && 0 <= h < M && 0 <= x < M && 0 <= j < M && keys[j].Some?
    requires forall e' :: 0 <= e' < Dist(h, j) ==> keys[Slot(h, e')].Some?
    requires Gap(keys, x) <= Dist(x, j) && 0 <= e < Dist(h, j)
    ensures Slot(h, e) != x
  {
    SlotDist(h, j);
    if Slot(h, e) == x {
      RunCovers(keys, h, j, e);
    }
  }

  /** The probe distance of the key in slot j from its hash, 0 if empty. */
  function Weight(hashCode: int -> int32, keys: seq<Option<int>>, j: int): nat
    requires |keys| == M && 0 <= j < M
  {
    if keys[j].Some? then Dist(HashOf(hashCode, keys[j].value), j) else 0
  }

  /** The total probe distance of the keys in slots j .. M - 1. */
  function Displacement(hashCode: int -> int32, keys: seq<Option<int>>, j: int): nat
    requires |keys| == M && 0 <= j <= M
    decreases M - j
  {
    if j == M then 0 else Weight(hashCode, keys, j) + Displacement(hashCode, keys, j + 1)
  }

  /** Changing one slot changes the total by the change of its weight. */
  lemma {:induction false} DisplacementUpdate(hashCode: int -> int32, keys: seq<Option<int>>, x: int, v: Option<int>, j: int)
    requires |keys| == M && 0 <= x < M && 0 <= j <= x
    ensures Displacement(hashCode, keys[x := v], j)
      == Displacement(hashCode, keys, j) - Weight(hashCode, keys, x) + Weight(hashCode, keys[x := v], x)
    decreases M - j
  {
    if j < x {
      DisplacementUpdate(hashCode, keys, x, v, j + 1);
      assert Weight(hashCode, keys[x := v], j) == Weight(hashCode, keys, j);
    } else {
      DisplacementSame(hashCode, keys, keys[x := v], j + 1);
    }
  }

  /** Tables that agree from slot j on have the same total from j. */
  lemma {:induction false} DisplacementSame(hashCode: int -> int32, a: seq<Option<int>>, b: seq<Option<int>>, j: int)
    requires |a| == M && |b| == M && 0 <= j <= M
    requires forall y :: j <= y < M ==> a[y] == b[y]
    ensures Displacement(hashCode, a, j) == Displacement(hashCode, b, j)
    decreases M - j
  {
    if j < M {
      DisplacementSame(hashCode, a, b, j + 1);
      assert Weight(hashCode, a, j) == Weight(hashCode, b, j);
    }
  }

  /** The table with slot i emptied and its pair uncounted, as the source's
      cleanup loop leaves it just before re-inserting that pair. */
  function Cleared(c: Table, i: int): (r: Table)
    requires Shaped(c.keys, c.vals) && 0 <= i < M
    ensures Shaped(r.keys, r.vals) && r.keys[i].None?
  {
    Table(c.keys[i := None], c.vals[i := None], c.n - 1)
  }

  /** The state of the cleanup loop at slot i: the table keeps its shape,
      its empty values and its distinct keys, has a free slot, and every key
      outside the run from i is findable. The keys in that run may have
      lost their way and are the ones still to be re-inserted. */
  ghost predicate Cleaning(hashCode: int -> int32, c: Table, i: int)
  {
    && Shaped(c.keys, c.vals) && NullVals(c.keys, c.vals) && Distinct(c.keys)
    && 0 <= i < M && |Map(c)| < M
    && forall j :: 0 <= j < M && Gap(c.keys, i) <= Dist(i, j) ==> Placed(hashCode, c.keys, j)
  }

  /** Re-inserting the pair of slot i puts it into the first empty slot x
      on its probe, which is i itself or a slot nearer its hash. */
  lemma StepShape(hashCode: int -> int32, c: Table, i: int) returns (x: int)
    requires Shaped(c.keys, c.vals) && Distinct(c.keys) && 0 <= i < M && c.keys[i].Some?
    ensures 0 <= x < M && Cleared(c, i).keys[x].None?
    ensures var h := HashOf(hashCode, c.keys[i].value); x == i || Dist(h, x) < Dist(h, i)
    ensures var h := HashOf(hashCode, c.keys[i].value);
      forall e :: 0 <= e < Dist(h, x) ==> Cleared(c, i).keys[Slot(h, e)].Some?
    ensures var cl := Cleared(c, i);
      Put(hashCode, cl, c.keys[i].value, c.vals[i]) == Ok(Table(cl.keys[x := c.keys[i]], cl.vals[x := c.vals[i]], c.n))
  {
    var k := c.keys[i].value;
    var cl := Cleared(c, i);
    var h := HashOf(hashCode, k);
    forall y | 0 <= y < M ensures cl.keys[y] != Some(k) {
      if y < i { assert c.keys[y] != c.keys[i]; } else if i < y { assert c.keys[i] != c.keys[y]; }
    }
    var d;
    d, x := PutFillsFirstNull(hashCode, cl, k, c.vals[i]);
    assert c.keys[i] == Some(k) && cl.n + 1 == c.n;
    DistSlot(h, d);
    SlotDist(h, i);
    if d > Dist(h, i) {
      assert false;
    } else if d == Dist(h, i) {
      assert x == i;
    } else {
      assert Dist(h, x) < Dist(h, i);
    }
  }

  /** The re-insertion keeps the table's pairs, count, empty values and
      distinct keys. */
  lemma StepContents(keys: seq<Option<int>>, vals: seq<Option<int>>, i: int, x: int)
    requires Shaped(keys, vals) && NullVals(keys, vals) && Distinct(keys)
    requires 0 <= i < M && keys[i].Some? && 0 <= x < M && (x == i || keys[x].None?)
    ensures Distinct(keys[i := None][x := keys[i]])
    ensures NullVals(keys[i := None][x := keys[i]], vals[i := None][x := vals[i]])
    ensures Contents(keys[i := None][x := keys[i]], vals[i := None][x := vals[i]]) == Contents(keys, vals)
  {
    var k := keys[i].value;
    var kc, vc := keys[i := None], vals[i := None];
    ContentsClear(keys, vals, i);
    forall y | 0 <= y < M ensures kc[y] != Some(k) {
      if y < i { assert keys[y] != keys[i]; } else if i < y { assert keys[i] != keys[y]; }
    }
    ContentsFill(kc, vc, x, k, vals[i]);
    ContentsAt(keys, vals, i);
    ContentsHas(keys, vals, k);
    var m := Contents(keys, vals);
    assert (m - {k})[k := vals[i]] == m;
  }

  /** After the re-insertion every key outside the run from the next slot
      is findable. */
  lemma StepPlaced(hashCode: int -> int32, c: Table, i: int, x: int)
    requires Cleaning(hashCode, c, i) && c.keys[i].Some? && 0 <= x < M
    requires var cl := Cleared(c, i);
      var h := HashOf(hashCode, c.keys[i].value);
      cl.keys[x].None? && forall e :: 0 <= e < Dist(h, x) ==> cl.keys[Slot(h, e)].Some?
    ensures var keys' := Cleared(c, i).keys[x := c.keys[i]];
      forall j :: 0 <= j < M && Gap(keys', Next(i)) <= Dist(Next(i), j) ==> Placed(hashCode, keys', j)
  {
    var k := c.keys[i].value;
    var cl := Cleared(c, i);
    var h := HashOf(hashCode, k);
    var keys' := cl.keys[x := Some(k)];
    ClearGap(c.keys, i);
    FillGap(cl.keys, x, k, Next(i));
    SlotDist(h, x);
    FilledSlotPlaced(hashCode, cl.keys, k, Dist(h, x));
    forall j | 0 <= j < M && Gap(keys', Next(i)) <= Dist(Next(i), j)
      ensures Placed(hashCode, keys', j)
    {
      if j != x && j != i {
        DistNext(i, j);
        assert Placed(hashCode, c.keys, j);
        ClearKeepsPlaced(hashCode, c.keys, i, j);
        FillKeepsPlaced(hashCode, cl.keys, x, k, j);
      }
    }
  }

  /** The re-insertion lowers the total probe distance, or leaves the table
      as it was and moves on to a shorter run. */
  lemma StepDecreases(hashCode: int -> int32, c: Table, i: int, x: int)
    requires Shaped(c.keys, c.vals) && 0 <= i < M && c.keys[i].Some? && 0 <= x < M && HasNull(c.keys)
    requires var h := HashOf(hashCode, c.keys[i].value); x == i || Dist(h, x) < Dist(h, i)
    ensures var keys' := Cleared(c, i).keys[x := c.keys[i]];
      || Displacement(hashCode, keys', 0) < Displacement(hashCode, c.keys, 0)
      || (keys' == c.keys && Gap(keys', Next(i)) < Gap(c.keys, i))
  {
    var cl := Cleared(c, i);
    var keys' := cl.keys[x := c.keys[i]];
    if x == i {
      assert keys' == c.keys;
      GapShrinks(c.keys, i);
    } else {
      DisplacementUpdate(hashCode, c.keys, i, None, 0);
      DisplacementUpdate(hashCode, cl.keys, x, c.keys[i], 0);
    }
  }

  /** One turn of the source's cleanup loop keeps its state and makes
      progress. */
  lemma CleanStep(hashCode: int -> int32, c: Table, i: int)
    requires Cleaning(hashCode, c, i) && c.keys[i].Some?
    ensures var r := Put(hashCode, Cleared(c, i), c.keys[i].value, c.vals[i]);
      && r.Ok?
      && Cleaning(hashCode, r.value, Next(i))
      && Map(r.value) == Map(c) && r.value.n == c.n
      && (|| Displacement(hashCode, r.value.keys, 0) < Displacement(hashCode, c.keys, 0)
          || (Displacement(hashCode, r.value.keys, 0) == Displacement(hashCode, c.keys, 0)
              && Gap(r.value.keys, Next(i)) < Gap(c.keys, i)))
  {
    var x := StepShape(hashCode, c, i);
    StepContents(c.keys, c.vals, i, x);
    StepPlaced(hashCode, c, i, x);
    HasNullIffRoom(c.keys, c.vals);
    StepDecreases(hashCode, c, i, x);
  }

  /** Emptying the slot s of the deleted key leaves every key outside the
      run after s findable. */
  lemma StartPlaced(hashCode: int -> int32, keys: seq<Option<int>>, s: int)
    requires |keys| == M && 0 <= s < M && keys[s].Some? && AllPlaced(hashCode, keys)
    ensures forall j :: 0 <= j < M && Gap(keys[s := None], Next(s)) <= Dist(Next(s), j) ==>
      Placed(hashCode, keys[s := None], j)
  {
    ClearGap(keys, s);
    forall j | 0 <= j < M && Gap(keys[s := None], Next(s)) <= Dist(Next(s), j)
      ensures Placed(hashCode, keys[s := None], j)
    {
      if j != s {
        DistNext(s, j);
        assert Placed(hashCode, keys, j);
        ClearKeepsPlaced(hashCode, keys, s, j);
      }
    }
  }

  /** Removing a present key shrinks a map by one. */
  lemma RemoveOne(m: map<int, Option<int>>, k: int)
    requires k in m
    ensures |m - {k}| == |m| - 1
  {
    assert m.Keys == (m - {k}).Keys + {k};
  }

  /** Emptying the slot of the deleted key removes just that key and keeps
      a free slot. */
  lemma StartContents(keys: seq<Option<int>>, vals: seq<Option<int>>, s: int)
    requires Shaped(keys, vals) && NullVals(keys, vals) && Distinct(keys) && 0 <= s < M && keys[s].Some?
    ensures Distinct(keys[s := None]) && NullVals(keys[s := None], vals[s := None])
    ensures Contents(keys[s := None], vals[s := None]) == Contents(keys, vals) - {keys[s].value}
    ensures |Contents(keys[s := None], vals[s := None])| == |Contents(keys, vals)| - 1 < M
  {
    var k := keys[s].value;
    ContentsClear(keys, vals, s);
    ContentsHas(keys, vals, k);
    HasNullIffRoom(keys, vals);
    RemoveOne(Contents(keys, vals), k);
  }

  /** Emptying the slot of the deleted key starts the cleanup loop at the
      slot after it. */
  lemma DeleteStart(hashCode: int -> int32, t: Table, key: int, s: int)
    requires Valid(hashCode, t) && 0 <= s < M && t.keys[s] == Some(key)
    ensures Cleaning(hashCode, Table(t.keys[s := None], t.vals[s := None], t.n), Next(s))
    ensures Map(Table(t.keys[s := None], t.vals[s := None], t.n)) == Map(t) - {key}
    ensures |Map(Table(t.keys[s := None], t.vals[s := None], t.n))| == t.n - 1
  {
    StartContents(t.keys, t.vals, s);
    StartPlaced(hashCode, t.keys, s);
  }

  /** When the cleanup loop reaches an empty slot, every key is findable
      again, and the deferred decrement of N makes the count right. */
  lemma FinishDelete(hashCode: int -> int32, c: Table, i: int)
    requires Cleaning(hashCode, c, i) && c.keys[i].None? && |Map(c)| == c.n - 1
    ensures Valid(hashCode, Table(c.keys, c.vals, c.n - 1))
  {
    GapAtEmpty(c.keys, i);
    assert AllPlaced(hashCode, c.keys);
  }

  /** No run starts at an empty slot. */
  lemma GapAtEmpty(keys: seq<Option<int>>, i: int)
    requires |keys| == M && 0 <= i < M && keys[i].None?
    ensures Gap(keys, i) == 0
  {
    assert Slot(i, 0) == i;
  }

  /** The source's delete. A key that contains reports absent (missing, or
      stored with a null value) leaves the table alone; otherwise the key's
      slot is emptied and every pair of the run after it is taken out and
      put back. */
  method Delete(hashCode: int -> int32, t: Table, key: int) returns (r: Result<Table, Fault>)
    requires Valid(hashCode, t)
    ensures r.Err? <==> key !in Map(t) && t.n == M
    ensures r.Ok? && !(key in Map(t) && Map(t)[key].Some?) ==> r.value == t
    ensures r.Ok? && key in Map(t) && Map(t)[key].Some? ==>
      && Valid(hashCode, r.value)
      && Map(r.value) == Map(t) - {key}
      && r.value.n == t.n - 1
    ensures r.Ok? ==> Valid(hashCode, r.value) && Get(hashCode, r.value, key) == Ok(None)
  {
    ContainsMeans(hashCode, t, key);
    var present := Contains(hashCode, t, key);
    if present.Err? {
      return Err(present.error);
    }
    if !present.value {
      GetMeansLookup(hashCode, t, key);
      return Ok(t);
    }
    assert key in Map(t);
    ContentsHas(t.keys, t.vals, key);
    ghost var s :| 0 <= s < M && t.keys[s] == Some(key);
    var i := HashOf(hashCode, key);
    while t.keys[i] != Some(key)
      invariant 0 <= i < M
      decreases Dist(i, s)
    {
      DistNext(i, s);
      i := Next(i);
    }
    DeleteStart(hashCode, t, key, i);
    var c := Table(t.keys[i := None], t.vals[i := None], t.n);
    i := Next(i);
    while c.keys[i].Some?
      invariant Cleaning(hashCode, c, i) && Map(c) == Map(t) - {key} && c.n == t.n
      invariant |Map(c)| == c.n - 1
      decreases Displacement(hashCode, c.keys, 0), Gap(c.keys, i)
    {
      CleanStep(hashCode, c, i);
      var keyToRedo, valToRedo := c.keys[i].value, c.vals[i];
      c := Table(c.keys[i := None], c.vals[i := None], c.n - 1);
      c := Put(hashCode, c, keyToRedo, valToRedo).value;
      i := Next(i);
    }
    FinishDelete(hashCode, c, i);
    r := Ok(Table(c.keys, c.vals, c.n - 1));
    GetMeansLookup(hashCode, r.value, key);
  }
}

=== FILE: minmax_pq.dfy ===
/**
 A min-max priority queue built from two binary heaps over the same keys:
 a min-heap and a max-heap, each a 1-based array whose slot 0 is unused,
 with lazy deletion through a set of keys already taken out of one heap.
 Arrays are sequence values of optional keys (None is Java's null); every
 operation returns the new queue.
 */
module MinMaxPriorityQueue {

  import opened Wrappers
  import opened Permutations

  /** The source's MIN and MAX flags selecting one of the two heaps. */
  datatype Which = MinHeap | MaxHeap

  /** The exceptions the source can throw: a write past the end of a heap
      array, and the allocation of an array of negative length. */
  datatype Fault = IndexOutOfBounds | NegativeArraySize

  /** The heap order: key x may sit above key y in heap w. */
  function Above(w: Which, x: int, y: int): (b: bool)
    ensures x == y ==> b
  {
    if w == MinHeap then x <= y else y <= x
  }

  /** The swim loop's test: the child moves above its parent. */
  function SwimsPast(w: Which, parent: int, child: int): (b: bool)
    ensures b ==> Above(w, child, parent)
    ensures !b ==> Above(w, parent, child)
    ensures parent == child ==> (b <==> w.MinHeap?)
  {
    if w == MinHeap then !(parent < child) else parent < child
  }

  /** The sink loop's choice of the right child j + 1 over the left child
      j: the same comparison as swim's, with the left child in the parent's
      place. */
  function TakesRight(w: Which, left: int, right: int): (b: bool)
    ensures b ==> Above(w, right, left)
    ensures !b ==> Above(w, left, right)
    ensures left == right ==> (b <==> w.MinHeap?)
  {
    SwimsPast(w, left, right)
  }

  /** The sink loop's exit test: the parent stays above the chosen child. */
  function StaysAbove(w: Which, parent: int, child: int): (b: bool)
    ensures b ==> Above(w, parent, child)
    ensures !b ==> Above(w, child, parent)
    ensures parent == child ==> (b <==> w.MaxHeap?)
  {
    if w == MinHeap then parent < child else !(parent < child)
  }

  /** Slots 1..n hold keys. */
  ghost predicate Keyed(a: seq<Option<int>>, n: int)
  {
    0 <= n < |a| && forall i :: 1 <= i <= n ==> a[i].Some?
  }

  /** Slots 1..n hold keys and every other slot, slot 0 included, is null. */
  ghost predicate Filled(a: seq<Option<int>>, n: int)
  {
    Keyed(a, n) && a[0].None? && forall i :: n < i < |a| ==> a[i].None?
  }

  /** The parent of slot i sits above it. */
  ghost predicate OrderedAt(w: Which, a: seq<Option<int>>, i: int)
    requires 2 <= i < |a| && a[i / 2].Some? && a[i].Some?
  {
    Above(w, a[i / 2].value, a[i].value)
  }

  /** Every parent among slots 1..n sits above its children. */
  ghost predicate HeapOrdered(w: Which, a: seq<Option<int>>, n: int)
    requires Keyed(a, n)
  {
    forall i :: 2 <= i <= n ==> OrderedAt(w, a, i)
  }

  /** An ordered heap of n keys with every other slot null. */
  ghost predicate IsHeap(w: Which, a: seq<Option<int>>, n: int)
  {
    Filled(a, n) && HeapOrdered(w, a, n)
  }

  /** The swim invariant: ordered except that slot k may be above its parent,
      and k's parent is above k's children. */
  ghost predicate HeapExceptUp(w: Which, a: seq<Option<int>>, n: int, k: int)
    requires Keyed(a, n) && 1 <= k <= n
  {
    && (forall i :: 2 <= i <= n && i != k ==> OrderedAt(w, a, i))
    && (k > 1 ==> forall i :: 2 <= i <= n && i / 2 == k ==> Above(w, a[k / 2].value, a[i].value))
  }

  /** The sink invariant: ordered except that slot k may be below its
      children, and k's parent is above k's children. */
  ghost predicate HeapExceptDown(w: Which, a: seq<Option<int>>, n: int, k: int)
    requires Keyed(a, n) && 1 <= k
  {
    && (forall i :: 2 <= i <= n && i / 2 != k ==> OrderedAt(w, a, i))
    && (k > 1 && k <= n ==> forall i :: 2 <= i <= n && i / 2 == k ==> Above(w, a[k / 2].value, a[i].value))
  }

  /** The keys held in slots 1..n. */
  function Contents(a: seq<Option<int>>, n: int): multiset<Option<int>>
    requires 0 <= n < |a|
  {
    multiset(a[1..n + 1])
  }

  /** Exchanging k with a parent it swims past leaves the swim invariant
      holding one level up. */
  lemma SwimStep(w: Which, a: seq<Option<int>>, n: int, k: int)
    requires Keyed(a, n) && 1 < k <= n && HeapExceptUp(w, a, n, k)
    requires SwimsPast(w, a[k / 2].value, a[k].value)
    ensures Keyed(Exch(a, k / 2, k), n) && HeapExceptUp(w, Exch(a, k / 2, k), n, k / 2)
  {
    var p := k / 2;
    var b := Exch(a, p, k);
    forall i | 2 <= i <= n && i != p
      ensures OrderedAt(w, b, i)
    {
      if i != k && i / 2 != k {
        assert OrderedAt(w, a, i);
      }
    }
    if p > 1 {
      forall i | 2 <= i <= n && i / 2 == p
        ensures Above(w, b[p / 2].value, b[i].value)
      {
        assert OrderedAt(w, a, p);
        if i != k {
          assert OrderedAt(w, a, i);
        }
      }
    }
  }

  /** The source's swim: while slot k is not the root and moves past its
      parent, exchange the two and continue from the parent. */
  function Swim(w: Which, a: seq<Option<int>>, n: int, k: int): (b: seq<Option<int>>)
    requires Keyed(a, n) && 1 <= k <= n && HeapExceptUp(w, a, n, k)
    ensures Keyed(b, n) && HeapOrdered(w, b, n)
    ensures SameOutside(a, b, 1, n) && multiset(b[1..n + 1]) == multiset(a[1..n + 1])
    decreases k
  {
    if k > 1 && SwimsPast(w, a[k / 2].value, a[k].value) then
      SwimStep(w, a, n, k);
      var a' := Exch(a, k / 2, k);
      SegmentPermutation(a, a', 1, n);
      Swim(w, a', n, k / 2)
    else
      a
  }

  /** The child of k that the source's sink compares k with. */
  function SinkChild(w: Which, a: seq<Option<int>>, n: int, k: int): (j: int)
    requires Keyed(a, n) && 1 <= k && 2 * k <= n
    ensures j == 2 * k || j == 2 * k + 1
    ensures j <= n
    ensures forall i :: 2 <= i <= n && i / 2 == k ==> Above(w, a[j].value, a[i].value)
  {
    if 2 * k < n && TakesRight(w, a[2 * k].value, a[2 * k + 1].value) then 2 * k + 1 else 2 * k
  }

  /** Exchanging k with the child it does not stay above leaves the sink
      invariant holding one level down. */
  lemma SinkStep(w: Which, a: seq<Option<int>>, n: int, k: int, j: int)
    requires Keyed(a, n) && 1 <= k && 2 * k <= n && HeapExceptDown(w, a, n, k)
    requires j == SinkChild(w, a, n, k) && !StaysAbove(w, a[k].value, a[j].value)
    ensures Keyed(Exch(a, k, j), n) && HeapExceptDown(w, Exch(a, k, j), n, j)
  {
    var b := Exch(a, k, j);
    forall i | 2 <= i <= n && i / 2 != j
      ensures OrderedAt(w, b, i)
    {
      if i != j && i / 2 != k && i != k {
        assert OrderedAt(w, a, i);
      }
    }
    forall i | 2 <= i <= n && i / 2 == j
      ensures Above(w, b[j / 2].value, b[i].value)
    {
      assert OrderedAt(w, a, i);
    }
  }

  /** Once slot k stays above its chosen child, or has no child, the heap is
      ordered. */
  lemma SinkDone(w: Which, a: seq<Option<int>>, n: int, k: int)
    requires Keyed(a, n) && 1 <= k && HeapExceptDown(w, a, n, k)
    requires 2 * k <= n ==> StaysAbove(w, a[k].value, a[SinkChild(w, a, n, k)].value)
    ensures HeapOrdered(w, a, n)
  {
    if 2 * k <= n {
      var j := SinkChild(w, a, n, k);
      forall i | 2 <= i <= n
        ensures OrderedAt(w, a, i)
      {
        if i / 2 == k {
          assert Above(w, a[j].value, a[i].value);
        }
      }
    }
  }

  /** The source's sink: while slot k has a child among slots 1..n, pick the
      child to compare with, stop if k stays above it, and otherwise
      exchange the two and continue from the child. */
  function Sink(w: Which, a: seq<Option<int>>, n: int, k: int): (b: seq<Option<int>>)
    requires Keyed(a, n) && 1 <= k && HeapExceptDown(w, a, n, k)
    ensures Keyed(b, n) && HeapOrdered(w, b, n)
    ensures SameOutside(a, b, 1, n) && multiset(b[1..n + 1]) == multiset(a[1..n + 1])
    decreases n - k
  {
    if 2 * k <= n then
      var j := SinkChild(w, a, n, k);
      if StaysAbove(w, a[k].value, a[j].value) then
        SinkDone(w, a, n, k);
        a
      else
        SinkStep(w, a, n, k, j);
        var a' := Exch(a, k, j);
        SegmentPermutation(a, a', 1, n);
        Sink(w, a', n, j)
    else
      SinkDone(w, a, n, k);
      a
  }

  /** The root of an ordered heap sits above every key in it. */
  lemma {:induction false} RootIsExtreme(w: Which, a: seq<Option<int>>, n: int, i: int)
    requires Keyed(a, n) && HeapOrdered(w, a, n) && 1 <= i <= n
    ensures Above(w, a[1].value, a[i].value)
  {
    if i > 1 {
      RootIsExtreme(w, a, n, i / 2);
      assert OrderedAt(w, a, i);
    }
  }

  /** Writing a key into the first free slot of an ordered heap leaves the
      swim invariant holding at that slot. */
  lemma AppendReady(w: Which, a: seq<Option<int>>, n: int, key: int)
    requires Filled(a, n) && HeapOrdered(w, a, n) && n + 1 < |a|
    ensures var a' := a[n + 1 := Some(key)];
      && Filled(a', n + 1) && HeapExceptUp(w, a', n + 1, n + 1)
      && Contents(a', n + 1) == Contents(a, n) + multiset{Some(key)}
  {
    var a' := a[n + 1 := Some(key)];
    forall i | 2 <= i <= n
      ensures OrderedAt(w, a', i)
    {
      assert OrderedAt(w, a, i);
    }
    assert a'[1..n + 2] == a[1..n + 1] + [Some(key)];
  }

  /** Rearranging slots 1..n keeps the null slots null. */
  lemma RearrangedFilled(a: seq<Option<int>>, b: seq<Option<int>>, n: int)
    requires Filled(a, n) && Keyed(b, n) && SameOutside(a, b, 1, n)
    ensures Filled(b, n)
  {
    assert b[0] == a[0];
    assert forall i :: n < i < |b| ==> b[i] == a[i];
  }

  /** Appending a key in slot n + 1 of an ordered heap and swimming it up:
      the swim half of the source's insert. */
  function AddKey(w: Which, a: seq<Option<int>>, n: int, key: int): (b: seq<Option<int>>)
    requires IsHeap(w, a, n) && n + 1 < |a|
    ensures |b| == |a| && IsHeap(w, b, n + 1)
    ensures Contents(b, n + 1) == Contents(a, n) + multiset{Some(key)}
  {
    AppendReady(w, a, n, key);
    var a' := a[n + 1 := Some(key)];
    var b := Swim(w, a', n + 1, n + 1);
    RearrangedFilled(a', b, n + 1);
    b
  }

  /** Exchanging the root with slot n leaves slots 1..n-1 holding the old
      keys but the root. */
  lemma RootExchangeContents(a: seq<Option<int>>, n: int)
    requires 1 <= n < |a|
    ensures Contents(Exch(a, 1, n), n - 1) == Contents(a, n) - multiset{a[1]}
  {
    var a1 := Exch(a, 1, n);
    SegmentPermutation(a, a1, 1, n);
    assert a1[1..n + 1] == a1[1..n] + [a[1]];
  }

  /** Exchanging the root with slot n leaves slots 1..n-1 ordered except at
      the root. */
  lemma RootExchangeReady(w: Which, a: seq<Option<int>>, n: int)
    requires Filled(a, n) && HeapOrdered(w, a, n) && n >= 1
    ensures var a1 := Exch(a, 1, n);
      && Keyed(a1, n - 1) && HeapExceptDown(w, a1, n - 1, 1)
      && a1[0].None? && forall i :: n < i < |a1| ==> a1[i].None?
  {
    var a1 := Exch(a, 1, n);
    forall i | 2 <= i <= n - 1 && i / 2 != 1
      ensures OrderedAt(w, a1, i)
    {
      assert OrderedAt(w, a, i);
    }
  }

  /** Nulling slot n after a sink among slots 1..n-1 leaves an ordered heap
      of n - 1 keys. */
  lemma ClearedSlotFilled(w: Which, a1: seq<Option<int>>, a2: seq<Option<int>>, n: int)
    requires 1 <= n < |a1| && Keyed(a2, n - 1) && HeapOrdered(w, a2, n - 1)
    requires SameOutside(a1, a2, 1, n - 1) && a1[0].None?
    requires forall i :: n < i < |a1| ==> a1[i].None?
    ensures var b := a2[n := None];
      && Filled(b, n - 1) && HeapOrdered(w, b, n - 1) && Contents(b, n - 1) == Contents(a2, n - 1)
  {
    var b := a2[n := None];
    assert b[0] == a1[0];
    assert forall i :: n < i < |b| ==> b[i] == a1[i];
    forall i | 2 <= i <= n - 1
      ensures OrderedAt(w, b, i)
    {
      assert OrderedAt(w, a2, i);
    }
    assert b[1..n] == a2[1..n];
  }

  /** Removing the root of an ordered heap: exchange it with slot n, sink
      the new root among slots 1..n-1, and null slot n. */
  function RemoveRoot(w: Which, a: seq<Option<int>>, n: int): (b: seq<Option<int>>)
    requires IsHeap(w, a, n) && n >= 1
    ensures |b| == |a| && IsHeap(w, b, n - 1)
    ensures Contents(b, n - 1) == Contents(a, n) - multiset{a[1]}
  {
    RootExchangeReady(w, a, n);
    RootExchangeContents(a, n);
    var a1 := Exch(a, 1, n);
    var a2 := Sink(w, a1, n - 1, 1);
    ClearedSlotFilled(w, a1, a2, n);
    a2[n := None]
  }

  datatype PQ = PQ(minPQ: seq<Option<int>>, maxPQ: seq<Option<int>>, deleted: set<int>, nmin: int, nmax: int)

  /** Both arrays have the same length, hold their counts of keys in slots
      1..n and are heap ordered. */
  ghost predicate HeapsValid(q: PQ)
  {
    && |q.minPQ| == |q.maxPQ|
    && IsHeap(MinHeap, q.minPQ, q.nmin)
    && IsHeap(MaxHeap, q.maxPQ, q.nmax)
  }

  /** The queue a capacity of -1 builds: both arrays have no slot at all,
      not even the unused slot 0, and both counts are 0. */
  predicate NoSlots(q: PQ)
  {
    |q.minPQ| == 0 && |q.maxPQ| == 0 && q.nmin == 0 && q.nmax == 0
  }

  /** The queues the constructor and the operations can produce. */
  ghost predicate Valid(q: PQ)
  {
    HeapsValid(q) || NoSlots(q)
  }

  /** The number of keys each array can hold: its length minus slot 0. */
  function Capacity(q: PQ): int
  {
    |q.minPQ| - 1
  }

  /** The bounds of Java's 32-bit int. */
  const IntMin := -0x8000_0000
  const IntMax := 0x7fff_ffff

  /** Java's initCapacity + 1 on a 32-bit int, which wraps at the top. */
  function ArrayLength(initCapacity: int): int
  {
    if initCapacity == IntMax then IntMin else initCapacity + 1
  }

  /** The source's constructor: two arrays of initCapacity + 1 null slots,
      no keys and no deleted keys. A negative length, which a capacity
      below -1 or the wrapped largest int gives, throws; a capacity of -1
      gives arrays without slots. */
  function Create(initCapacity: int): (r: Result<PQ, Fault>)
    requires IntMin <= initCapacity <= IntMax
    ensures r.Err? <==> initCapacity < -1 || initCapacity == IntMax
    ensures r.Ok? ==> Valid(r.value) && Capacity(r.value) == initCapacity
    ensures r.Ok? ==> r.value.nmin == 0 && r.value.nmax == 0 && r.value.deleted == {}
    ensures r.Ok? ==> (NoSlots(r.value) <==> initCapacity == -1)
  {
    var length := ArrayLength(initCapacity);
    if length < 0 then Err(NegativeArraySize)
    else
      var empty := seq(length, _ => None);
      Ok(PQ(empty, empty, {}, 0, 0))
  }

  /** The source's isEmpty for the selected heap. */
  function IsEmpty(q: PQ, w: Which): (b: bool)
    ensures b <==> (if w == MinHeap then q.nmin else q.nmax) == 0
  {
    if w == MinHeap then q.nmin == 0 else q.nmax == 0
  }

  /** The source's max: null on an empty max-heap, otherwise a key of the
      max-heap that no key in it exceeds. */
  function Max(q: PQ): (r: Option<int>)
    requires Valid(q)
    ensures r.None? <==> q.nmax == 0
    ensures r.Some? ==> r in Contents(q.maxPQ, q.nmax)
    ensures r.Some? ==> forall i :: 1 <= i <= q.nmax ==> q.maxPQ[i].value <= r.value
  {
    if IsEmpty(q, MaxHeap) then None
    else
      assert q.maxPQ[1] == q.maxPQ[1..q.nmax + 1][0];
      assert forall i :: 1 <= i <= q.nmax ==> Above(MaxHeap, q.maxPQ[1].value, q.maxPQ[i].value) by {
        forall i | 1 <= i <= q.nmax
          ensures Above(MaxHeap, q.maxPQ[1].value, q.maxPQ[i].value)
        {
          RootIsExtreme(MaxHeap, q.maxPQ, q.nmax, i);
        }
      }
      q.maxPQ[1]
  }

  /** The source's min: null on an empty min-heap, otherwise a key of the
      min-heap that no key in it is below. */
  function Min(q: PQ): (r: Option<int>)
    requires Valid(q)
    ensures r.None? <==> q.nmin == 0
    ensures r.Some? ==> r in Contents(q.minPQ, q.nmin)
    ensures r.Some? ==> forall i :: 1 <= i <= q.nmin ==> r.value <= q.minPQ[i].value
  {
    if IsEmpty(q, MinHeap) then None
    else
      assert q.minPQ[1] == q.minPQ[1..q.nmin + 1][0];
      assert forall i :: 1 <= i <= q.nmin ==> Above(MinHeap, q.minPQ[1].value, q.minPQ[i].value) by {
        forall i | 1 <= i <= q.nmin
          ensures Above(MinHeap, q.minPQ[1].value, q.minPQ[i].value)
        {
          RootIsExtreme(MinHeap, q.minPQ, q.nmin, i);
        }
      }
      q.minPQ[1]
  }

  /** Both heaps have a free slot. */
  predicate HasRoom(q: PQ)
  {
    q.nmin < Capacity(q) && q.nmax < Capacity(q)
  }

  /** The heap the flag selects, and its count of keys. */
  function Heap(q: PQ, w: Which): seq<Option<int>>
  {
    if w == MinHeap then q.minPQ else q.maxPQ
  }

  function Count(q: PQ, w: Which): int
  {
    if w == MinHeap then q.nmin else q.nmax
  }

  function Other(w: Which): Which
  {
    if w == MinHeap then MaxHeap else MinHeap
  }

  /** Replaces the selected heap and its count, leaving the rest alone. */
  function Update(q: PQ, w: Which, a: seq<Option<int>>, n: int): (r: PQ)
    ensures Heap(r, w) == a && Count(r, w) == n && r.deleted == q.deleted
    ensures Heap(r, Other(w)) == Heap(q, Other(w)) && Count(r, Other(w)) == Count(q, Other(w))
  {
    if w == MinHeap then q.(minPQ := a, nmin := n) else q.(maxPQ := a, nmax := n)
  }

  /** Each heap of a valid queue with slots is a heap of the queue's length. */
  lemma HeapOf(q: PQ, w: Which)
    requires HeapsValid(q)
    ensures IsHeap(w, Heap(q, w), Count(q, w)) && |Heap(q, w)| == |q.minPQ|
  {
  }

  /** Putting a heap of the same length in place of one heap keeps the
      queue valid. */
  lemma UpdateValid(q: PQ, w: Which, a: seq<Option<int>>, n: int)
    requires HeapsValid(q) && |a| == |Heap(q, w)| && IsHeap(w, a, n)
    ensures HeapsValid(Update(q, w, a, n)) && Capacity(Update(q, w, a, n)) == Capacity(q)
  {
  }

  /** Appends key to the selected heap, leaving the other heap alone. */
  function AddTo(q: PQ, w: Which, key: int): (r: PQ)
    requires HeapsValid(q) && Count(q, w) < Capacity(q)
    ensures HeapsValid(r) && Capacity(r) == Capacity(q) && r.deleted == q.deleted
    ensures Count(r, w) == Count(q, w) + 1
    ensures Contents(Heap(r, w), Count(r, w)) == Contents(Heap(q, w), Count(q, w)) + multiset{Some(key)}
    ensures Heap(r, Other(w)) == Heap(q, Other(w)) && Count(r, Other(w)) == Count(q, Other(w))
  {
    HeapOf(q, w);
    var a := AddKey(w, Heap(q, w), Count(q, w), key);
    UpdateValid(q, w, a, Count(q, w) + 1);
    Update(q, w, a, Count(q, w) + 1)
  }

  /** The source's insert once its capacity test has let the key through:
      the key is appended to each heap and swum into place. */
  function Insert(q: PQ, key: int): (r: PQ)
    requires Valid(q) && HasRoom(q)
    ensures HeapsValid(r) && Capacity(r) == Capacity(q) && r.deleted == q.deleted
    ensures r.nmin == q.nmin + 1 && r.nmax == q.nmax + 1
    ensures Contents(r.minPQ, r.nmin) == Contents(q.minPQ, q.nmin) + multiset{Some(key)}
    ensures Contents(r.maxPQ, r.nmax) == Contents(q.maxPQ, q.nmax) + multiset{Some(key)}
  {
    AddTo(AddTo(q, MinHeap, key), MaxHeap, key)
  }

  /** The capacity test at the head of the source's insert, as written. */
  function InsertGuard(q: PQ): (b: bool)
    ensures NoSlots(q) ==> b
    ensures HeapsValid(q) ==> !b
  {
    q.nmin >= |q.minPQ| - 1 && q.nmax > |q.maxPQ| - 1
  }

  /** The capacity test fires only on the queue without slots that a
      capacity of -1 builds: on every other queue the max count stays at or
      below the capacity, so the second half of the test is false. */
  lemma InsertGuardFiresOnlyWithoutSlots(q: PQ)
    requires Valid(q)
    ensures InsertGuard(q) <==> NoSlots(q)
  {
  }

  /** The source's insert as written: the guard lets the queue without slots
      return unchanged, but does not stop a full heap, so writing slot
      Nmin + 1 or Nmax + 1 runs past the array. */
  function InsertAsWritten(q: PQ, key: int): (r: Result<PQ, Fault>)
    requires Valid(q)
    ensures NoSlots(q) ==> r == Ok(q)
    ensures r.Err? <==> !NoSlots(q) && !HasRoom(q)
    ensures r.Ok? ==> Valid(r.value)
    ensures HasRoom(q) ==>
      && r.Ok? && r.value.nmin == q.nmin + 1 && r.value.nmax == q.nmax + 1
      && Contents(r.value.minPQ, r.value.nmin) == Contents(q.minPQ, q.nmin) + multiset{Some(key)}
      && Contents(r.value.maxPQ, r.value.nmax) == Contents(q.maxPQ, q.nmax) + multiset{Some(key)}
  {
    if InsertGuard(q) then Ok(q)
    else if !HasRoom(q) then Err(IndexOutOfBounds)
    else Ok(Insert(q, key))
  }

  /** A queue of capacity zero is already full, and the source's insert
      throws instead of returning. */
  lemma InsertIntoFullQueueThrows()
    ensures Create(0).Ok? && InsertAsWritten(Create(0).value, 7) == Err(IndexOutOfBounds)
  {
    var q := Create(0).value;
    assert !HasRoom(q) && !NoSlots(q);
  }

  /** The queue of capacity -1 is the one where the guard fires: its insert
      returns without storing the key. */
  lemma InsertWithoutSlotsReturns()
    ensures Create(-1).Ok? && InsertAsWritten(Create(-1).value, 7) == Create(-1)
  {
    var q := Create(-1).value;
    assert NoSlots(q);
  }

  /** Capacities below -1 make the constructor throw. */
  lemma CreateBelowMinusOneThrows()
    ensures Create(-2) == Err(NegativeArraySize)
    ensures Create(IntMax) == Err(NegativeArraySize)
  {
  }

  /** The insert with the capacity test evidently intended: a full heap on
      either side leaves the queue unchanged, otherwise the key goes into
      both heaps. */
  function InsertChecked(q: PQ, key: int): (r: PQ)
    requires Valid(q)
    ensures Valid(r) && Capacity(r) == Capacity(q)
    ensures !HasRoom(q) ==> r == q
    ensures HasRoom(q) ==> Contents(r.minPQ, r.nmin) == Contents(q.minPQ, q.nmin) + multiset{Some(key)}
    ensures HasRoom(q) ==> Contents(r.maxPQ, r.nmax) == Contents(q.maxPQ, q.nmax) + multiset{Some(key)}
  {
    if q.nmin >= Capacity(q) || q.nmax >= Capacity(q) then q else Insert(q, key)
  }

  /** The checked insert never throws where the source's does not, and then
      does the same. */
  lemma InsertCheckedAgrees(q: PQ, key: int)
    requires Valid(q)
    ensures InsertAsWritten(q, key).Ok? ==> InsertAsWritten(q, key).value == InsertChecked(q, key)
  {
  }

  /** Removes the root of the selected heap, leaving the other heap and the
      deleted set alone. */
  function RemoveFrom(q: PQ, w: Which): (r: PQ)
    requires HeapsValid(q) && Count(q, w) > 0
    ensures HeapsValid(r) && Capacity(r) == Capacity(q) && r.deleted == q.deleted
    ensures Count(r, w) == Count(q, w) - 1
    ensures Contents(Heap(r, w), Count(r, w)) == Contents(Heap(q, w), Count(q, w)) - multiset{Heap(q, w)[1]}
    ensures Heap(r, Other(w)) == Heap(q, Other(w)) && Count(r, Other(w)) == Count(q, Other(w))
  {
    HeapOf(q, w);
    var a := RemoveRoot(w, Heap(q, w), Count(q, w));
    UpdateValid(q, w, a, Count(q, w) - 1);
    Update(q, w, a, Count(q, w) - 1)
  }

  /** The other heap's root is a deleted key. */
  predicate RootDeleted(q: PQ, o: Which)
    requires Capacity(q) >= 1 && |Heap(q, o)| == |q.minPQ|
  {
    Heap(q, o)[1].Some? && Heap(q, o)[1].value in q.deleted
  }

  /** The second half of a delete: when the root of heap o is a deleted
      key, remove it there too and take key out of the deleted set. */
  function DropOther(q: PQ, o: Which, key: int): (r: PQ)
    requires HeapsValid(q) && Capacity(q) >= 1
    ensures HeapsValid(r) && Capacity(r) == Capacity(q)
    ensures Heap(r, Other(o)) == Heap(q, Other(o)) && Count(r, Other(o)) == Count(q, Other(o))
    ensures RootDeleted(q, o) ==>
      && Count(q, o) > 0 && Count(r, o) == Count(q, o) - 1
      && Contents(Heap(r, o), Count(r, o)) == Contents(Heap(q, o), Count(q, o)) - multiset{Heap(q, o)[1]}
      && r.deleted == q.deleted - {key}
    ensures !RootDeleted(q, o) ==> r == q
  {
    if RootDeleted(q, o) then RemoveFrom(q, o).(deleted := q.deleted - {key}) else q
  }

  /** The end of a delete: once both heaps are empty the deleted set is
      cleared. */
  function ForgetIfEmpty(q: PQ): (r: PQ)
    requires HeapsValid(q)
    ensures HeapsValid(r) && Capacity(r) == Capacity(q)
    ensures r.minPQ == q.minPQ && r.maxPQ == q.maxPQ && r.nmin == q.nmin && r.nmax == q.nmax
    ensures r.deleted == if q.nmin == 0 && q.nmax == 0 then {} else q.deleted
  {
    if IsEmpty(q, MinHeap) && IsEmpty(q, MaxHeap) then q.(deleted := {}) else q
  }

  /** Deleting the root of heap w also removes the other heap's root: that
      root is a key already deleted, or the key being deleted now. */
  ghost predicate AlsoOther(q: PQ, w: Which)
    requires HeapsValid(q) && Count(q, w) > 0
  {
    Count(q, Other(w)) > 0 && Heap(q, Other(w))[1].value in q.deleted + {Heap(q, w)[1].value}
  }

  /** The first half of a delete: record the root of heap w as deleted and
      remove it. */
  function TakeRoot(q: PQ, w: Which): (r: PQ)
    requires HeapsValid(q) && Count(q, w) > 0
    ensures HeapsValid(r) && Capacity(r) == Capacity(q) && Capacity(r) >= 1
    ensures Count(r, w) == Count(q, w) - 1
    ensures Contents(Heap(r, w), Count(r, w)) == Contents(Heap(q, w), Count(q, w)) - multiset{Heap(q, w)[1]}
    ensures Heap(r, Other(w)) == Heap(q, Other(w)) && Count(r, Other(w)) == Count(q, Other(w))
    ensures r.deleted == q.deleted + {Heap(q, w)[1].value}
    ensures RootDeleted(r, Other(w)) == AlsoOther(q, w)
  {
    RemoveFrom(q, w).(deleted := q.deleted + {Heap(q, w)[1].value})
  }

  /** The common shape of the source's deleteMax and deleteMin: on a
      non-empty selected heap, record its root as deleted and remove it;
      then, when the other heap's root has been deleted, remove that root
      too and drop the first key from the deleted set; forget all deleted
      keys once both heaps are empty. */
  function DeleteRoot(q: PQ, w: Which): (r: PQ)
    requires Valid(q)
    ensures Valid(r) && Capacity(r) == Capacity(q)
    ensures Count(q, w) == 0 ==> r == q
    ensures Count(q, w) > 0 ==> r == DeleteNonEmpty(q, w)
  {
    if IsEmpty(q, w) then q else DeleteNonEmpty(q, w)
  }

  /** A delete on a non-empty selected heap. */
  function DeleteNonEmpty(q: PQ, w: Which): (r: PQ)
    requires HeapsValid(q) && Count(q, w) > 0
    ensures HeapsValid(r) && Capacity(r) == Capacity(q)
    ensures Count(r, w) == Count(q, w) - 1
    ensures Contents(Heap(r, w), Count(r, w)) == Contents(Heap(q, w), Count(q, w)) - multiset{Heap(q, w)[1]}
    ensures AlsoOther(q, w) ==>
      && Count(r, Other(w)) == Count(q, Other(w)) - 1
      && Contents(Heap(r, Other(w)), Count(r, Other(w)))
         == Contents(Heap(q, Other(w)), Count(q, Other(w))) - multiset{Heap(q, Other(w))[1]}
    ensures !AlsoOther(q, w) ==>
      Heap(r, Other(w)) == Heap(q, Other(w)) && Count(r, Other(w)) == Count(q, Other(w))
    ensures r.deleted == if r.nmin == 0 && r.nmax == 0 then {}
                         else if AlsoOther(q, w) then q.deleted - {Heap(q, w)[1].value}
                         else q.deleted + {Heap(q, w)[1].value}
  {
    var key := Heap(q, w)[1].value;
    var q1 := TakeRoot(q, w);
    OtherOther(w);
    var q2 := DropOther(q1, Other(w), key);
    var r := ForgetIfEmpty(q2);
    SameHeaps(q2, r, w);
    r
  }

  lemma OtherOther(w: Which)
    ensures Other(Other(w)) == w
  {
  }

  /** Queues with the same arrays and counts have the same selected heaps. */
  lemma SameHeaps(q: PQ, r: PQ, w: Which)
    requires r.minPQ == q.minPQ && r.maxPQ == q.maxPQ && r.nmin == q.nmin && r.nmax == q.nmax
    ensures Heap(r, w) == Heap(q, w) && Count(r, w) == Count(q, w)
    ensures Heap(r, Other(w)) == Heap(q, Other(w)) && Count(r, Other(w)) == Count(q, Other(w))
  {
  }

  /** The source's deleteMax: the max-heap loses its maximum. */
  function DeleteMax(q: PQ): (r: PQ)
    requires Valid(q)
    ensures Valid(r) && Capacity(r) == Capacity(q)
    ensures q.nmax == 0 ==> r == q
    ensures q.nmax > 0 ==> r.nmax == q.nmax - 1 && Contents(r.maxPQ, r.nmax) == Contents(q.maxPQ, q.nmax) - multiset{Max(q)}
  {
    DeleteRoot(q, MaxHeap)
  }

  /** The source's deleteMin: the min-heap loses its minimum. */
  function DeleteMin(q: PQ): (r: PQ)
    requires Valid(q)
    ensures Valid(r) && Capacity(r) == Capacity(q)
    ensures q.nmin == 0 ==> r == q
    ensures q.nmin > 0 ==> r.nmin == q.nmin - 1 && Contents(r.minPQ, r.nmin) == Contents(q.minPQ, q.nmin) - multiset{Min(q)}
  {
    DeleteRoot(q, MinHeap)
  }
}

=== FILE: nrqsort.dfy ===
/**
 The non-recursive quicksort: Sedgewick's two-pointer partition with a
 non-strict `less`, driven by an explicit stack of pending [lo, hi] ranges
 instead of recursion. Arrays are modelled as sequence values; every method
 returns the rearranged sequence.
 */
module NonRecursiveQSort {

  import opened Wrappers
  import opened Permutations

  /** The exception the source can throw: partition reads past the end of
      an array with fewer than two entries. */
  datatype Fault = IndexOutOfBounds

  /** The source's comparison: note that it is non-strict. */
  predicate Less(a: int, b: int)
  {
    a <= b
  }

  /** s is ascending on the closed index range [lo, hi]. */
  ghost predicate SortedOn(s: seq<int>, lo: int, hi: int)
    requires 0 <= lo && hi < |s|
  {
    forall i, j :: lo <= i < j <= hi ==> s[i] <= s[j]
  }

  /** The source's partition around the pivot a[lo]: the left scan skips keys
      not above the pivot, the right scan skips keys not below it, crossed
      pointers end the loop, and the pivot is exchanged into place j. */
  method Partition(a: seq<int>, lo: int, hi: int) returns (b: seq<int>, j: int)
    requires 0 <= lo < hi < |a|
    ensures lo <= j <= hi
    ensures SameOutside(a, b, lo, hi)
    ensures multiset(b[lo..hi + 1]) == multiset(a[lo..hi + 1])
    ensures forall k :: lo <= k < j ==> b[k] <= b[j]
    ensures forall k :: j < k <= hi ==> b[j] <= b[k]
  {
    var pivot := a[lo];
    b := a;
    var i := lo;
    j := hi + 1;
    while true
      invariant Scanned(a, b, pivot, lo, hi, i, j)
      decreases j - i
    {
      i := ScanUp(b, pivot, lo, hi, i);
      j := ScanDown(b, pivot, lo, hi, j);
      if i >= j {
        break;
      }
      b := ExchCrossing(a, b, pivot, lo, hi, i, j);
    }
    b := PlacePivot(a, b, pivot, lo, hi, i, j);
  }

  /** The state between two rounds of the partition loop: keys in (lo, i]
      are not above the pivot, keys in [j, hi] are not below it, the pivot
      still sits at lo, and b is a rearrangement of a inside [lo, hi]. */
  ghost predicate Scanned(a: seq<int>, b: seq<int>, pivot: int, lo: int, hi: int, i: int, j: int)
  {
    && 0 <= lo < hi < |a|
    && lo <= i < j <= hi + 1
    && (i == lo || j <= hi)
    && SameOutside(a, b, lo, hi) && multiset(b) == multiset(a)
    && b[lo] == pivot
    && (forall k :: lo < k <= i ==> b[k] <= pivot)
    && (forall k :: j <= k <= hi ==> pivot <= b[k])
  }

  /** Exchanging the two keys where the scans stopped restores the round
      invariant. */
  function ExchCrossing(a: seq<int>, b: seq<int>, pivot: int, lo: int, hi: int, i: int, j: int): (c: seq<int>)
    requires 0 <= lo < hi < |a| && SameOutside(a, b, lo, hi) && multiset(b) == multiset(a)
    requires b[lo] == pivot && lo < i < j <= hi
    requires forall k :: lo < k < i ==> b[k] <= pivot
    requires forall k :: j < k <= hi ==> pivot <= b[k]
    requires pivot < b[i] && b[j] < pivot
    ensures Scanned(a, c, pivot, lo, hi, i, j)
  {
    var c := Exch(b, i, j);
    assert SameOutside(a, c, lo, hi);
    c
  }

  /** The closing exchange of the pivot into place j. */
  function PlacePivot(a: seq<int>, b: seq<int>, pivot: int, lo: int, hi: int, i: int, j: int): (c: seq<int>)
    requires 0 <= lo < hi < |a| && SameOutside(a, b, lo, hi) && multiset(b) == multiset(a)
    requires b[lo] == pivot && lo <= j <= i <= hi
    requires forall k :: lo < k < i ==> b[k] <= pivot
    requires forall k :: j < k <= hi ==> pivot <= b[k]
    requires j == lo || b[j] < pivot
    ensures SameOutside(a, c, lo, hi)
    ensures multiset(c[lo..hi + 1]) == multiset(a[lo..hi + 1])
    ensures forall k :: lo <= k < j ==> c[k] <= c[j]
    ensures forall k :: j < k <= hi ==> c[j] <= c[k]
  {
    var c := Exch(b, lo, j);
    assert SameOutside(a, c, lo, hi);
    SegmentPermutation(a, c, lo, hi);
    c
  }

  /** The left scan: advance i past keys not above the pivot, stopping at hi. */
  method ScanUp(b: seq<int>, pivot: int, lo: int, hi: int, i0: int) returns (i: int)
    requires 0 <= lo <= i0 < hi < |b|
    requires forall k :: lo < k <= i0 ==> b[k] <= pivot
    ensures i0 < i <= hi
    ensures forall k :: lo < k < i ==> b[k] <= pivot
    ensures i == hi || pivot < b[i]
  {
    i := i0 + 1;
    while Less(b[i], pivot) && i != hi
      invariant i0 < i <= hi
      invariant forall k :: lo < k < i ==> b[k] <= pivot
      decreases hi - i
    {
      i := i + 1;
    }
  }

  /** The right scan: retreat j past keys not below the pivot, stopping at lo. */
  method ScanDown(b: seq<int>, pivot: int, lo: int, hi: int, j0: int) returns (j: int)
    requires 0 <= lo < j0 <= hi + 1 <= |b|
    requires forall k :: j0 <= k <= hi ==> pivot <= b[k]
    ensures lo <= j < j0
    ensures forall k :: j < k <= hi ==> pivot <= b[k]
    ensures j == lo || b[j] < pivot
  {
    j := j0 - 1;
    while Less(pivot, b[j]) && j != lo
      invariant lo <= j < j0
      invariant forall k :: j < k <= hi ==> pivot <= b[k]
      decreases j
    {
      j := j - 1;
    }
  }

  /** A pending [lo, hi] range on the explicit stack. */
  datatype Range = Range(lo: int, hi: int)

  function RangeSize(r: Range): int
  {
    r.hi - r.lo + 1
  }

  /** Total number of array slots still waiting on the stack. */
  function Pending(stack: seq<Range>): int
  {
    if |stack| == 0 then 0 else Pending(stack[..|stack| - 1]) + RangeSize(stack[|stack| - 1])
  }

  lemma PendingPush(stack: seq<Range>, r: Range)
    ensures Pending(stack + [r]) == Pending(stack) + RangeSize(r)
  {
    assert (stack + [r])[..|stack|] == stack;
  }

  /** With every range holding at least one slot, the pending total is not
      negative. */
  lemma {:induction false} PendingNonNegative(stack: seq<Range>)
    requires forall x :: 0 <= x < |stack| ==> stack[x].lo <= stack[x].hi
    ensures Pending(stack) >= 0
    decreases |stack|
  {
    if |stack| > 0 {
      PendingNonNegative(stack[..|stack| - 1]);
    }
  }

  /** Every stacked range lies inside [lo, hi] and holds at least two slots,
      and no two stacked ranges overlap. */
  ghost predicate GoodStack(stack: seq<Range>, lo: int, hi: int)
  {
    && (forall x :: 0 <= x < |stack| ==> lo <= stack[x].lo < stack[x].hi <= hi)
    && (forall x, y :: 0 <= x < y < |stack| ==> stack[x].hi < stack[y].lo || stack[y].hi < stack[x].lo)
  }

  /** Slots i and j still lie in one common pending range. */
  ghost predicate Together(stack: seq<Range>, i: int, j: int)
  {
    exists x :: 0 <= x < |stack| && stack[x].lo <= i && j <= stack[x].hi
  }

  /** Any two slots of [lo, hi] that no pending range holds together are
      already in order. */
  ghost predicate OrderedApart(s: seq<int>, stack: seq<Range>, lo: int, hi: int)
    requires 0 <= lo && hi < |s|
  {
    forall i, j :: lo <= i < j <= hi && !Together(stack, i, j) ==> s[i] <= s[j]
  }

  /** The parts of range r around pivot slot p that the source pushes back:
      those holding more than one slot, in either order. */
  ghost predicate SplitPushed(pushed: seq<Range>, r: Range, p: int)
  {
    var left := Range(r.lo, p - 1);
    var right := Range(p + 1, r.hi);
    var L := if RangeSize(left) >= 2 then [left] else [];
    var R := if RangeSize(right) >= 2 then [right] else [];
    pushed == L + R || pushed == R + L
  }

  /** What the stack needs of the pushed parts: at most two, each holding
      at least two slots of r and not the pivot slot p, not overlapping each
      other, and holding fewer slots in total than r. */
  ghost predicate PartsOf(pushed: seq<Range>, r: Range, p: int)
  {
    && |pushed| <= 2
    && (forall x :: 0 <= x < |pushed| ==>
          r.lo <= pushed[x].lo < pushed[x].hi <= r.hi && (pushed[x].hi < p || p < pushed[x].lo))
    && (|pushed| == 2 ==> pushed[0].hi < pushed[1].lo || pushed[1].hi < pushed[0].lo)
    && Pending(pushed) < RangeSize(r)
  }

  /** The parts pushed in the source's order meet what the stack needs. */
  lemma PushOrderParts(r: Range, p: int)
    requires r.lo <= p <= r.hi
    ensures PartsOf(PushOrder(r, p), r, p)
  {
    var left, right := Range(r.lo, p - 1), Range(p + 1, r.hi);
    var bigL, bigR := RangeSize(left) >= 2, RangeSize(right) >= 2;
    var pushed := PushOrder(r, p);
    if bigL && bigR {
      assert pushed == [left, right] || pushed == [right, left];
      BothParts(r, p);
    } else if bigL {
      assert pushed == [left];
      OnePart(r, p, left);
    } else if bigR {
      assert pushed == [right];
      OnePart(r, p, right);
    } else {
      assert pushed == [];
    }
  }

  lemma BothParts(r: Range, p: int)
    requires r.lo <= p <= r.hi
    requires RangeSize(Range(r.lo, p - 1)) >= 2 && RangeSize(Range(p + 1, r.hi)) >= 2
    ensures PartsOf([Range(r.lo, p - 1), Range(p + 1, r.hi)], r, p)
    ensures PartsOf([Range(p + 1, r.hi), Range(r.lo, p - 1)], r, p)
  {
    PendingTwo(Range(r.lo, p - 1), Range(p + 1, r.hi));
    PendingTwo(Range(p + 1, r.hi), Range(r.lo, p - 1));
  }

  lemma OnePart(r: Range, p: int, part: Range)
    requires r.lo <= p <= r.hi && RangeSize(part) >= 2
    requires part == Range(r.lo, p - 1) || part == Range(p + 1, r.hi)
    ensures PartsOf([part], r, p)
  {
    PendingOne(part);
  }

  lemma PendingOne(x: Range)
    ensures Pending([x]) == RangeSize(x)
  {
    assert [x][..0] == [];
  }

  lemma PendingTwo(x: Range, y: Range)
    ensures Pending([x, y]) == RangeSize(x) + RangeSize(y)
  {
    assert [x, y][..1] == [x];
    PendingOne(x);
  }

  /** The pending total of two stacked stacks is the sum of their totals. */
  lemma {:induction false} PendingConcat(s1: seq<Range>, s2: seq<Range>)
    ensures Pending(s1 + s2) == Pending(s1) + Pending(s2)
    decreases |s2|
  {
    if |s2| == 0 {
      assert s1 + s2 == s1;
    } else {
      var init := s2[..|s2| - 1];
      PendingConcat(s1, init);
      assert (s1 + s2)[..|s1 + s2| - 1] == s1 + init;
    }
  }

  /** The ranges the source pushes after partitioning r at p: the parts with
      more than one slot, the larger part first (so the smaller one is popped
      next); on equal sizes the right part goes first. */
  function PushOrder(r: Range, p: int): (pushed: seq<Range>)
    ensures SplitPushed(pushed, r, p)
  {
    var leftRange := Range(r.lo, p - 1);
    var rightRange := Range(p + 1, r.hi);
    var leftArrSize := p - r.lo;
    var rightArrSize := r.hi - p;
    var left := if leftArrSize > 1 then [leftRange] else [];
    var right := if rightArrSize > 1 then [rightRange] else [];
    if leftArrSize > rightArrSize then left + right else right + left
  }

  /** Two slots held together by the old stack are both in its top range r,
      or are still held together once r is replaced by its parts. */
  lemma TogetherAfterPop(stack: seq<Range>, rest: seq<Range>, pushed: seq<Range>, i: int, j: int)
    requires |stack| > 0 && rest == stack[..|stack| - 1]
    requires Together(stack, i, j)
    ensures var r := stack[|stack| - 1]; (r.lo <= i && j <= r.hi) || Together(rest + pushed, i, j)
  {
    var x :| 0 <= x < |stack| && stack[x].lo <= i && j <= stack[x].hi;
    if x < |stack| - 1 {
      assert (rest + pushed)[x] == stack[x];
    }
  }

  /** In a good stack no range holds a slot of the top range together with a
      slot outside it. */
  lemma NotTogetherAcross(stack: seq<Range>, lo: int, hi: int, i: int, j: int)
    requires |stack| > 0 && GoodStack(stack, lo, hi) && i < j
    requires var r := stack[|stack| - 1]; (r.lo <= i <= r.hi) != (r.lo <= j <= r.hi)
    ensures !Together(stack, i, j)
  {
    var top := |stack| - 1;
    forall x | 0 <= x < |stack|
      ensures !(stack[x].lo <= i && j <= stack[x].hi)
    {
      if x != top {
        var y, z := if x < top then x else top, if x < top then top else x;
        assert stack[y].hi < stack[z].lo || stack[z].hi < stack[y].lo;
      }
    }
  }

  /** A part that was pushed back holds any two of its slots together. */
  lemma TogetherInPart(rest: seq<Range>, pushed: seq<Range>, part: Range, i: int, j: int)
    requires part in pushed
    requires part.lo <= i && j <= part.hi
    ensures Together(rest + pushed, i, j)
  {
    var x :| 0 <= x < |pushed| && pushed[x] == part;
    assert (rest + pushed)[|rest| + x] == part;
  }

  /** Replacing the top range by its pushed parts keeps the stack good. */
  lemma SplitKeepsGoodStack(stack: seq<Range>, rest: seq<Range>, pushed: seq<Range>, lo: int, hi: int, p: int)
    requires |stack| > 0 && rest == stack[..|stack| - 1]
    requires GoodStack(stack, lo, hi)
    requires PartsOf(pushed, stack[|stack| - 1], p)
    ensures GoodStack(rest + pushed, lo, hi)
  {
    var r := stack[|stack| - 1];
    var st := rest + pushed;
    forall x, y | 0 <= x < y < |st|
      ensures st[x].hi < st[y].lo || st[y].hi < st[x].lo
    {
      if y < |rest| {
        assert st[x] == stack[x] && st[y] == stack[y];
      } else if x < |rest| {
        assert st[x] == stack[x];
        assert st[y].lo >= r.lo && st[y].hi <= r.hi;
      }
    }
  }

  /** What holds after one pass of the sorting loop: the top range r of the
      stack was partitioned at p (turning s into t) and replaced by its
      pushed parts. */
  ghost predicate SplitStep(s: seq<int>, t: seq<int>, stack: seq<Range>, rest: seq<Range>,
                            pushed: seq<Range>, lo: int, hi: int, p: int)
  {
    && 0 <= lo && hi < |s|
    && |stack| > 0 && rest == stack[..|stack| - 1]
    && GoodStack(stack, lo, hi) && OrderedApart(s, stack, lo, hi)
    && var r := stack[|stack| - 1];
    && r.lo <= p <= r.hi && SplitPushed(pushed, r, p)
    && SameOutside(s, t, r.lo, r.hi)
    && multiset(t[r.lo..r.hi + 1]) == multiset(s[r.lo..r.hi + 1])
    && (forall k :: r.lo <= k < p ==> t[k] <= t[p])
    && (forall k :: p < k <= r.hi ==> t[p] <= t[k])
  }

  /** Two slots of the partitioned range that no part holds together lie on
      either side of the pivot, or one of them is the pivot. */
  lemma PairInsideRange(s: seq<int>, t: seq<int>, stack: seq<Range>, rest: seq<Range>,
                        pushed: seq<Range>, lo: int, hi: int, p: int, i: int, j: int)
    requires SplitStep(s, t, stack, rest, pushed, lo, hi, p)
    requires var r := stack[|stack| - 1]; r.lo <= i < j <= r.hi
    requires !Together(rest + pushed, i, j)
    ensures t[i] <= t[j]
  {
    var r := stack[|stack| - 1];
    if j < p {
      TogetherInPart(rest, pushed, Range(r.lo, p - 1), i, j);
    } else if p < i {
      TogetherInPart(rest, pushed, Range(p + 1, r.hi), i, j);
    }
  }

  /** A slot of the partitioned range stays below a slot above the range. */
  lemma PairLowInside(s: seq<int>, t: seq<int>, stack: seq<Range>, rest: seq<Range>,
                      pushed: seq<Range>, lo: int, hi: int, p: int, i: int, j: int)
    requires SplitStep(s, t, stack, rest, pushed, lo, hi, p)
    requires var r := stack[|stack| - 1]; r.lo <= i <= r.hi < j <= hi
    requires !Together(rest + pushed, i, j)
    ensures t[i] <= t[j]
  {
    var r := stack[|stack| - 1];
    var st := rest + pushed;
    PermutedValue(s, t, r.lo, r.hi, i);
    var m :| r.lo <= m <= r.hi && t[i] == s[m];
    NotTogetherAcross(stack, lo, hi, m, j);
    assert s[m] <= s[j];
  }

  /** A slot below the partitioned range stays below each of its slots. */
  lemma PairHighInside(s: seq<int>, t: seq<int>, stack: seq<Range>, rest: seq<Range>,
                       pushed: seq<Range>, lo: int, hi: int, p: int, i: int, j: int)
    requires SplitStep(s, t, stack, rest, pushed, lo, hi, p)
    requires var r := stack[|stack| - 1]; lo <= i < r.lo <= j <= r.hi
    requires !Together(rest + pushed, i, j)
    ensures t[i] <= t[j]
  {
    var r := stack[|stack| - 1];
    var st := rest + pushed;
    PermutedValue(s, t, r.lo, r.hi, j);
    var m :| r.lo <= m <= r.hi && t[j] == s[m];
    NotTogetherAcross(stack, lo, hi, i, m);
    assert s[i] <= s[m];
  }

  /** Two slots outside the partitioned range keep their values and order. */
  lemma PairOutside(s: seq<int>, t: seq<int>, stack: seq<Range>, rest: seq<Range>,
                    pushed: seq<Range>, lo: int, hi: int, p: int, i: int, j: int)
    requires SplitStep(s, t, stack, rest, pushed, lo, hi, p)
    requires var r := stack[|stack| - 1]; lo <= i < j <= hi && !(r.lo <= i <= r.hi) && !(r.lo <= j <= r.hi)
    requires !Together(rest + pushed, i, j)
    ensures t[i] <= t[j]
  {
    if Together(stack, i, j) {
      TogetherAfterPop(stack, rest, pushed, i, j);
    }
    assert s[i] <= s[j];
  }

  /** Partitioning the top range at p and replacing it by its pushed parts
      keeps every pair of slots that no pending range holds together in
      order. */
  lemma SplitKeepsOrder(s: seq<int>, t: seq<int>, stack: seq<Range>,
                        rest: seq<Range>, pushed: seq<Range>,
                        lo: int, hi: int, p: int)
    requires SplitStep(s, t, stack, rest, pushed, lo, hi, p)
    ensures OrderedApart(t, rest + pushed, lo, hi)
  {
    var r := stack[|stack| - 1];
    forall i, j | lo <= i < j <= hi && !Together(rest + pushed, i, j)
      ensures t[i] <= t[j]
    {
      if r.lo <= i && j <= r.hi {
        PairInsideRange(s, t, stack, rest, pushed, lo, hi, p, i, j);
      } else if r.lo <= i <= r.hi {
        PairLowInside(s, t, stack, rest, pushed, lo, hi, p, i, j);
      } else if r.lo <= j <= r.hi {
        PairHighInside(s, t, stack, rest, pushed, lo, hi, p, i, j);
      } else {
        PairOutside(s, t, stack, rest, pushed, lo, hi, p, i, j);
      }
    }
  }

  /** After one round the new stack is good, keeps every unordered pair of
      slots together, and holds fewer pending slots. */
  lemma AfterSplit(s: seq<int>, t: seq<int>, stack: seq<Range>, rest: seq<Range>,
                   pushed: seq<Range>, lo: int, hi: int, p: int)
    requires SplitStep(s, t, stack, rest, pushed, lo, hi, p)
    requires PartsOf(pushed, stack[|stack| - 1], p)
    ensures GoodStack(rest + pushed, lo, hi) && OrderedApart(t, rest + pushed, lo, hi)
    ensures 0 <= Pending(rest + pushed) < Pending(stack)
  {
    SplitKeepsGoodStack(stack, rest, pushed, lo, hi, p);
    SplitKeepsOrder(s, t, stack, rest, pushed, lo, hi, p);
    PendingDrops(stack, rest, pushed, p);
    PendingNonNegative(rest + pushed);
  }

  /** One round of the source's loop: pop the top range, partition it, and
      push back the parts with more than one slot, the larger part first. */
  method SortStep(a: seq<int>, s: seq<int>, stack: seq<Range>, lo: int, hi: int)
      returns (t: seq<int>, stack': seq<Range>)
    requires 0 <= lo <= hi < |a| && |stack| > 0
    requires SameOutside(a, s, lo, hi) && multiset(s) == multiset(a)
    requires GoodStack(stack, lo, hi) && OrderedApart(s, stack, lo, hi)
    ensures SameOutside(a, t, lo, hi) && multiset(t) == multiset(a)
    ensures GoodStack(stack', lo, hi) && OrderedApart(t, stack', lo, hi)
    ensures 0 <= Pending(stack') < Pending(stack)
  {
    var currRange := stack[|stack| - 1];
    var partition;
    t, partition := Partition(s, currRange.lo, currRange.hi);
    InnerPermutation(a, s, t, lo, hi, currRange.lo, currRange.hi);
    stack' := stack[..|stack| - 1] + PushOrder(currRange, partition);
    StackStep(s, t, stack, lo, hi, partition);
  }

  /** The stack half of one round: once the top range is partitioned at p,
      popping it and pushing its parts keeps the stack invariants. */
  lemma StackStep(s: seq<int>, t: seq<int>, stack: seq<Range>, lo: int, hi: int, p: int)
    requires 0 <= lo && hi < |s| && |stack| > 0
    requires GoodStack(stack, lo, hi) && OrderedApart(s, stack, lo, hi)
    requires var r := stack[|stack| - 1];
      && r.lo <= p <= r.hi
      && SameOutside(s, t, r.lo, r.hi)
      && multiset(t[r.lo..r.hi + 1]) == multiset(s[r.lo..r.hi + 1])
      && (forall k :: r.lo <= k < p ==> t[k] <= t[p])
      && (forall k :: p < k <= r.hi ==> t[p] <= t[k])
    ensures var stack' := stack[..|stack| - 1] + PushOrder(stack[|stack| - 1], p);
      && GoodStack(stack', lo, hi) && OrderedApart(t, stack', lo, hi)
      && 0 <= Pending(stack') < Pending(stack)
  {
    var r := stack[|stack| - 1];
    var rest := stack[..|stack| - 1];
    var pushed := PushOrder(r, p);
    PushOrderParts(r, p);
    assert SplitStep(s, t, stack, rest, pushed, lo, hi, p);
    AfterSplit(s, t, stack, rest, pushed, lo, hi, p);
  }

  /** The source's iterative quicksort of the closed range [lo, hi], driven
      by a stack of pending ranges until the stack is empty. */
  method QSort(a: seq<int>, lo: int, hi: int) returns (s: seq<int>)
    requires 0 <= lo < hi < |a|
    ensures SameOutside(a, s, lo, hi)
    ensures multiset(s) == multiset(a)
    ensures SortedOn(s, lo, hi)
  {
    s := a;
    var stack := [Range(lo, hi)];
    while |stack| > 0
      invariant SameOutside(a, s, lo, hi) && multiset(s) == multiset(a)
      invariant GoodStack(stack, lo, hi)
      invariant OrderedApart(s, stack, lo, hi)
      decreases Pending(stack)
    {
      s, stack := SortStep(a, s, stack, lo, hi);
    }
  }

  /** Permuting a segment inside [lo, hi] keeps a permutation of a that
      agrees with it outside [lo, hi]. */
  lemma InnerPermutation(a: seq<int>, s: seq<int>, t: seq<int>, lo: int, hi: int, rlo: int, rhi: int)
    requires 0 <= lo <= rlo <= rhi <= hi < |a|
    requires SameOutside(a, s, lo, hi) && multiset(s) == multiset(a)
    requires SameOutside(s, t, rlo, rhi)
    requires multiset(t[rlo..rhi + 1]) == multiset(s[rlo..rhi + 1])
    ensures SameOutside(a, t, lo, hi) && multiset(t) == multiset(a)
  {
    SegmentPermutation(s, t, rlo, rhi);
  }

  /** Replacing the top range by parts that exclude the pivot strictly
      lowers the pending total, which is what makes the loop terminate. */
  lemma PendingDrops(stack: seq<Range>, rest: seq<Range>, pushed: seq<Range>, p: int)
    requires |stack| > 0 && rest == stack[..|stack| - 1]
    requires PartsOf(pushed, stack[|stack| - 1], p)
    ensures Pending(rest + pushed) < Pending(stack)
  {
    PendingConcat(rest, pushed);
  }


  /** The source's entry point: sorts the whole array. An array of fewer
      than two entries makes partition read past its end (array[lo] of an
      empty array, array[lo + 1] of a one-entry array). */
  method NRQSort(input: seq<int>) returns (r: Result<seq<int>, Fault>)
    ensures r.Err? <==> |input| < 2
    ensures r.Ok? ==> |r.value| == |input| && multiset(r.value) == multiset(input)
    ensures r.Ok? ==> forall i, j :: 0 <= i < j < |r.value| ==> r.value[i] <= r.value[j]
  {
    if |input| < 2 {
      return Err(IndexOutOfBounds);
    }
    var sorted := QSort(input, 0, |input| - 1);
    r := Ok(sorted);
  }
}

=== FILE: permutations.dfy ===
/**
 Facts about rearranging sequences by exchanges, shared by the array-based
 algorithms: an exchange, agreement outside a closed index range, and
 permutation of a closed segment.
 */
module Permutations {

  /** b agrees with a everywhere outside the closed range [lo, hi]. */
  ghost predicate SameOutside<T>(a: seq<T>, b: seq<T>, lo: int, hi: int)
  {
    |a| == |b| && forall k :: 0 <= k < |a| && (k < lo || hi < k) ==> b[k] == a[k]
  }

  /** Exchanges the entries at i and j. */
  function Exch<T>(a: seq<T>, i: int, j: int): (b: seq<T>)
    requires 0 <= i < |a| && 0 <= j < |a|
    ensures |b| == |a|
    ensures b[i] == a[j] && b[j] == a[i]
    ensures forall k :: 0 <= k < |a| && k != i && k != j ==> b[k] == a[k]
    ensures multiset(b) == multiset(a)
  {
    a[i := a[j]][j := a[i]]
  }

  /** A sequence splits into prefix, closed segment and suffix. */
  lemma SplitMultiset<T>(a: seq<T>, lo: int, hi: int)
    requires 0 <= lo <= hi + 1 <= |a|
    ensures multiset(a) == multiset(a[..lo]) + multiset(a[lo..hi + 1]) + multiset(a[hi + 1..])
  {
    assert a == a[..lo] + a[lo..hi + 1] + a[hi + 1..];
  }

  /** Sequences that agree outside [lo, hi] share the prefix before lo and
      the suffix after hi. */
  lemma SameEnds<T>(a: seq<T>, b: seq<T>, lo: int, hi: int)
    requires 0 <= lo <= hi + 1 <= |a|
    requires SameOutside(a, b, lo, hi)
    ensures b[..lo] == a[..lo] && b[hi + 1..] == a[hi + 1..]
  {
    assert forall k :: 0 <= k < lo ==> b[..lo][k] == a[..lo][k];
    var sa, sb := a[hi + 1..], b[hi + 1..];
    assert forall k :: 0 <= k < |sa| ==> sb[k] == sa[k];
  }

  /** When two sequences agree outside [lo, hi], they are permutations of
      each other exactly when their [lo, hi] segments are. */
  lemma SegmentPermutation<T>(a: seq<T>, b: seq<T>, lo: int, hi: int)
    requires 0 <= lo <= hi + 1 <= |a|
    requires SameOutside(a, b, lo, hi)
    ensures multiset(b) == multiset(a) <==> multiset(b[lo..hi + 1]) == multiset(a[lo..hi + 1])
  {
    SameEnds(a, b, lo, hi);
    SplitMultiset(a, lo, hi);
    SplitMultiset(b, lo, hi);
    var P, Q := multiset(a[..lo]), multiset(a[hi + 1..]);
    var A, B := multiset(a[lo..hi + 1]), multiset(b[lo..hi + 1]);
    assert multiset(a) == P + A + Q && multiset(b) == P + B + Q;
    if multiset(b) == multiset(a) {
      assert B == multiset(b) - P - Q;
      assert A == multiset(a) - P - Q;
    }
  }

  /** Every entry of a permuted segment is one of the segment's old entries. */
  lemma PermutedValue<T>(s: seq<T>, t: seq<T>, lo: int, hi: int, i: int)
    requires 0 <= lo <= i <= hi < |s| && |t| == |s|
    requires multiset(t[lo..hi + 1]) == multiset(s[lo..hi + 1])
    ensures exists m :: lo <= m <= hi && t[i] == s[m]
  {
    assert t[i] == t[lo..hi + 1][i - lo];
    assert t[i] in multiset(t[lo..hi + 1]);
    assert t[i] in s[lo..hi + 1];
    var m' :| 0 <= m' < hi + 1 - lo && s[lo..hi + 1][m'] == t[i];
    assert s[lo + m'] == t[i];
  }
}

=== FILE: rbt_balance.dfy ===
/** The restructuring helpers of the colour-bit-free tree: the two
    rotations, flipColors, moveRedLeft, moveRedRight and balance. Each runs
    inside the frame of the put or delete call whose subtree it is handed,
    so its colour tests see the partly rebuilt tree. The helpers that stay
    in their caller's frame take that frame's colour test as a parameter,
    and what they keep holds whatever the tests answer. A Java
    NullPointerException is `Err(NullDereference)`. */
module RedBlackBalance {
  import opened Wrappers
  import opened RedBlackTree

  /** The source's `h.size = size(h.left) + size(h.right) + 1`. */
  function Resize(h: Tree): (r: Tree)
    requires h.Node?
    ensures r.Node? && r.size == Size(r.left) + Size(r.right) + 1
    ensures r == h.(size := r.size)
  {
    h.(size := Size(h.left) + Size(h.right) + 1)
  }

  /** flipChildren on a node and then on both of its new children. */
  function FlipAll(h: Tree): (r: Tree)
    requires h.Node? && h.left.Node? && h.right.Node?
    ensures r == h.(left := FlipChildren(h.right), right := FlipChildren(h.left))
  {
    var s := FlipChildren(h);
    s.(left := FlipChildren(s.left), right := FlipChildren(s.right))
  }

  /** FlipAll undoes itself. */
  lemma FlipAllTwice(h: Tree)
    requires h.Node? && h.left.Node? && h.right.Node?
    ensures FlipAll(FlipAll(h)) == h
  {
    FlipChildrenTwice(h.left);
    FlipChildrenTwice(h.right);
  }

  /** A node and its subtrees hold the same things after FlipAll. */
  lemma FlipAllKeeps(h: Tree)
    requires h.Node? && h.left.Node? && h.right.Node?
    ensures SameHoldings(FlipAll(h), h)
  {
    FlipChildrenKeeps(h.left);
    FlipChildrenKeeps(h.right);
    Commute(Entries(h.left), Entries(h.right), (h.key, h.val));
    Commute(Ids(h.left), Ids(h.right), h.id);
  }

  /** FlipAll keeps every size field right if it was. */
  lemma FlipAllSizes(h: Tree)
    requires h.Node? && h.left.Node? && h.right.Node?
    ensures SizesOk(FlipAll(h)) == SizesOk(h) && ChildrenOk(FlipAll(h)) == ChildrenOk(h)
  {
    FlipChildrenSizes(h.left);
    FlipChildrenSizes(h.right);
    FlipChildrenKeeps(h.left);
    FlipChildrenKeeps(h.right);
  }

  /** Rebuilding a node with a child that holds the same things keeps what
      the node holds. */
  lemma SameLeft(h: Tree, c: Tree)
    requires h.Node? && SameHoldings(c, h.left)
    ensures SameHoldings(h.(left := c), h)
  {
  }

  lemma SameRight(h: Tree, c: Tree)
    requires h.Node? && SameHoldings(c, h.right)
    ensures SameHoldings(h.(right := c), h)
  {
  }

  /** The size field plays no part in what a subtree holds. */
  lemma SizeFieldKeeps(t: Tree, n: int)
    requires t.Node?
    ensures SameHoldings(t.(size := n), t)
  {
  }

  /** A size field is the node count wherever the sizes are right. */
  lemma SizeIsCount(t: Tree)
    requires SizesOk(t)
    ensures Size(t) == Count(t)
  {
  }

  /** Recomputing a size field leaves what the node holds, and makes its
      sizes right when those below were. */
  lemma ResizeKeeps(h: Tree)
    requires h.Node?
    ensures SameHoldings(Resize(h), h)
    ensures ChildrenOk(h) ==> SizesOk(Resize(h))
  {
    if ChildrenOk(h) {
      SizeIsCount(h.left);
      SizeIsCount(h.right);
    }
  }

  /** Moving the top node of a bag over the one below it. */
  lemma Regroup<T>(a: multiset<T>, b: multiset<T>, c: multiset<T>, p: T, q: T)
    ensures (a + b + multiset{p}) + c + multiset{q} == a + (b + c + multiset{q}) + multiset{p}
  {
  }

  lemma RegroupRight<T>(a: multiset<T>, b: multiset<T>, c: multiset<T>, p: T, q: T)
    ensures a + (b + c + multiset{p}) + multiset{q} == (a + b + multiset{q}) + c + multiset{p}
  {
  }

  /** The pointer work of a left rotation: x = h.right becomes the top, h
      its left child over x's old left subtree. */
  lemma LeftLinksKeep(h: Tree)
    requires h.Node? && h.right.Node?
    ensures SameHoldings(h.right.(left := h.(right := h.right.left)), h)
  {
    var x := h.right;
    Regroup(Entries(h.left), Entries(x.left), Entries(x.right), (h.key, h.val), (x.key, x.val));
    Regroup(Ids(h.left), Ids(x.left), Ids(x.right), h.id, x.id);
  }

  /** The pointer work of a right rotation. */
  lemma RightLinksKeep(h: Tree)
    requires h.Node? && h.left.Node?
    ensures SameHoldings(h.left.(right := h.(left := h.left.right)), h)
  {
    var x := h.left;
    RegroupRight(Entries(x.left), Entries(x.right), Entries(h.right), (h.key, h.val), (x.key, x.val));
    RegroupRight(Ids(x.left), Ids(x.right), Ids(h.right), h.id, x.id);
  }

  /** c is the object `id` with its size field just recomputed. */
  predicate ResizedChild(c: Tree, id: nat)
  {
    c.Node? && c.id == id && c.size == Size(c.left) + Size(c.right) + 1
  }

  /** r is the result of a rotation of h: it takes h's size, and h sits
      below it as a child whose size has been recomputed. */
  predicate Demoted(h: Tree, r: Tree)
  {
    r.Node? && h.Node? && r.size == h.size && (ResizedChild(r.left, h.id) || ResizedChild(r.right, h.id))
  }

  // rotateLeft

  /** The flips rotateLeft does before relinking: a red h is flipped,
      then h's right child if it is red. */
  function PreFlipLeft(red: Colour, h: Tree): (h2: Tree)
    requires h.Node?
    ensures h2.Node? && h2.id == h.id && h2.size == h.size
  {
    var h1 := if red(h, h) then FlipChildren(h) else h;
    if red(h1, h1.right) then h1.(right := FlipChildren(h1.right)) else h1
  }

  /** The relinking of rotateLeft: x = h.right is lifted over h, x is
      flipped when h is then red, h is flipped when it is then black, and
      h's size is recomputed. x keeps its own size field here. */
  function LiftLeft(red: Colour, h: Tree): (x3: Tree)
    requires h.Node? && h.right.Node?
    ensures x3.Node? && x3.id == h.right.id
  {
    var x := h.right;
    var hh := h.(right := x.left);
    var x1 := x.(left := hh);
    var flipX := red(x1, hh) && x1.right.Node?;
    var x2 := if flipX then FlipChildren(x1) else x1;
    var hh2 := Resize(if !red(x2, hh) then FlipChildren(hh) else hh);
    if flipX then x2.(right := hh2) else x2.(left := hh2)
  }

  /** The source's rotateLeft(h). Nothing to do for null, for a black h
      without a right child and for a red h without a left child.
      Otherwise the flips, a null dereference if h then has no right
      child, the relinking, and x takes h's old size. */
  function RotateLeft(red: Colour, h: Tree): (r: Result<Tree, Fault>)
    ensures h.Nil? ==> r == Ok(Nil)
    ensures h.Node? && !red(h, h) && h.right.Nil? ==> r == Ok(h)
    ensures h.Node? && red(h, h) && h.left.Nil? ==> r == Ok(h)
    ensures h.Node? && r.Ok? ==> r.value.Node?
  {
    if h.Nil? then Ok(Nil)
    else if !red(h, h) && h.right.Nil? then Ok(h)
    else if red(h, h) && h.left.Nil? then Ok(h)
    else
      var h2 := PreFlipLeft(red, h);
      if h2.right.Nil? then Err(NullDereference)
      else Ok(LiftLeft(red, h2).(size := h.size))
  }

  lemma PreFlipLeftKeeps(red: Colour, h: Tree)
    requires h.Node?
    ensures SameHoldings(PreFlipLeft(red, h), h)
  {
    var h1 := if red(h, h) then FlipChildren(h) else h;
    FlipChildrenKeeps(h);
    FlipChildrenKeeps(h1.right);
    SameRight(h1, FlipChildren(h1.right));
  }

  lemma PreFlipLeftSizes(red: Colour, h: Tree)
    requires h.Node? && ChildrenOk(h)
    ensures ChildrenOk(PreFlipLeft(red, h))
  {
    var h1 := if red(h, h) then FlipChildren(h) else h;
    FlipChildrenSizes(h);
    FlipChildrenSizes(h1.right);
  }

  lemma LiftLeftKeeps(red: Colour, h: Tree)
    requires h.Node? && h.right.Node?
    ensures SameHoldings(LiftLeft(red, h), h)
  {
    var x := h.right;
    var hh := h.(right := x.left);
    var x1 := x.(left := hh);
    LeftLinksKeep(h);
    var flipX := red(x1, hh) && x1.right.Node?;
    var x2 := if flipX then FlipChildren(x1) else x1;
    FlipChildrenKeeps(x1);
    var hf := if !red(x2, hh) then FlipChildren(hh) else hh;
    FlipChildrenKeeps(hh);
    ResizeKeeps(hf);
    if flipX { SameRight(x2, Resize(hf)); } else { SameLeft(x2, Resize(hf)); }
  }

  lemma LiftLeftSizes(red: Colour, h: Tree)
    requires h.Node? && h.right.Node? && ChildrenOk(h)
    ensures ChildrenOk(LiftLeft(red, h))
  {
    var x := h.right;
    var hh := h.(right := x.left);
    var x1 := x.(left := hh);
    var flipX := red(x1, hh) && x1.right.Node?;
    var x2 := if flipX then FlipChildren(x1) else x1;
    var hf := if !red(x2, hh) then FlipChildren(hh) else hh;
    FlipChildrenSizes(hh);
    ResizeKeeps(hf);
  }

  lemma LiftLeftDemotes(red: Colour, h: Tree)
    requires h.Node? && h.right.Node?
    ensures ResizedChild(LiftLeft(red, h).left, h.id) || ResizedChild(LiftLeft(red, h).right, h.id)
  {
    var x := h.right;
    var hh := h.(right := x.left);
    var x1 := x.(left := hh);
    var flipX := red(x1, hh) && x1.right.Node?;
    var x2 := if flipX then FlipChildren(x1) else x1;
    var hf := if !red(x2, hh) then FlipChildren(hh) else hh;
    assert hf.id == h.id;
    assert ResizedChild(Resize(hf), h.id);
  }

  /** rotateLeft keeps the subtree's entries, identities and node count. */
  lemma RotateLeftKeeps(red: Colour, h: Tree)
    requires RotateLeft(red, h).Ok?
    ensures SameHoldings(RotateLeft(red, h).value, h)
  {
    if h.Node? && !(!red(h, h) && h.right.Nil?) && !(red(h, h) && h.left.Nil?) {
      var h2 := PreFlipLeft(red, h);
      PreFlipLeftKeeps(red, h);
      LiftLeftKeeps(red, h2);
      SizeFieldKeeps(LiftLeft(red, h2), h.size);
    }
  }

  /** The size fields below the top stay right through rotateLeft, and all
      of them do if they were right before. */
  lemma RotateLeftSizes(red: Colour, h: Tree)
    requires RotateLeft(red, h).Ok? && ChildrenOk(h)
    ensures ChildrenOk(RotateLeft(red, h).value)
    ensures SizesOk(h) ==> SizesOk(RotateLeft(red, h).value)
  {
    if h.Node? && !(!red(h, h) && h.right.Nil?) && !(red(h, h) && h.left.Nil?) {
      var h2 := PreFlipLeft(red, h);
      PreFlipLeftSizes(red, h);
      LiftLeftSizes(red, h2);
      if SizesOk(h) {
        RotateLeftKeeps(red, h);
        CountIsEntries(h);
      }
    }
  }

  /** When rotateLeft does any work, it demotes h below the new top. */
  lemma RotateLeftDemotes(red: Colour, h: Tree)
    requires RotateLeft(red, h).Ok? && RotateLeft(red, h).value != h
    ensures Demoted(h, RotateLeft(red, h).value)
  {
    LiftLeftDemotes(red, PreFlipLeft(red, h));
  }

  // rotateRight

  /** The flips rotateRight does before relinking: a red h is flipped,
      then h's left child if it is red. */
  function PreFlipRight(red: Colour, h: Tree): (h2: Tree)
    requires h.Node?
    ensures h2.Node? && h2.id == h.id && h2.size == h.size
  {
    var h1 := if red(h, h) then FlipChildren(h) else h;
    if red(h1, h1.left) then h1.(left := FlipChildren(h1.left)) else h1
  }

  /** The relinking of rotateRight: x = h.left is lifted over h, and h is
      flipped when it is then black. */
  function LiftRight(red: Colour, h: Tree): (x2: Tree)
    requires h.Node? && h.left.Node?
    ensures x2.Node? && x2.id == h.left.id && x2.right.Node? && x2.right.id == h.id
  {
    var x := h.left;
    var hh := h.(left := x.right);
    var x1 := x.(right := hh);
    x1.(right := if !red(x1, hh) then FlipChildren(hh) else hh)
  }

  /** The end of rotateRight: a black x with two children is flipped
      together with both, then h's size is recomputed wherever h sits. */
  function SettleRight(red: Colour, x2: Tree): (x4: Tree)
    requires x2.Node? && x2.right.Node?
    ensures x4.Node? && x4.id == x2.id
  {
    if !red(x2, x2) && x2.left.Node? then
      var x3 := FlipAll(x2);
      x3.(left := Resize(x3.left))
    else
      x2.(right := Resize(x2.right))
  }

  /** The source's rotateRight(h), the mirror image of rotateLeft except
      for the final flip of a black x with two children. */
  function RotateRight(red: Colour, h: Tree): (r: Result<Tree, Fault>)
    ensures h.Nil? ==> r == Ok(Nil)
    ensures h.Node? && !red(h, h) && h.left.Nil? ==> r == Ok(h)
    ensures h.Node? && red(h, h) && h.right.Nil? ==> r == Ok(h)
    ensures h.Node? && r.Ok? ==> r.value.Node?
  {
    if h.Nil? then Ok(Nil)
    else if !red(h, h) && h.left.Nil? then Ok(h)
    else if red(h, h) && h.right.Nil? then Ok(h)
    else
      var h2 := PreFlipRight(red, h);
      if h2.left.Nil? then Err(NullDereference)
      else Ok(SettleRight(red, LiftRight(red, h2)).(size := h.size))
  }

  lemma PreFlipRightKeeps(red: Colour, h: Tree)
    requires h.Node?
    ensures SameHoldings(PreFlipRight(red, h), h)
  {
    var h1 := if red(h, h) then FlipChildren(h) else h;
    FlipChildrenKeeps(h);
    FlipChildrenKeeps(h1.left);
    SameLeft(h1, FlipChildren(h1.left));
  }

  lemma PreFlipRightSizes(red: Colour, h: Tree)
    requires h.Node? && ChildrenOk(h)
    ensures ChildrenOk(PreFlipRight(red, h))
  {
    var h1 := if red(h, h) then FlipChildren(h) else h;
    FlipChildrenSizes(h);
    FlipChildrenSizes(h1.left);
  }

  lemma LiftRightKeeps(red: Colour, h: Tree)
    requires h.Node? && h.left.Node?
    ensures SameHoldings(LiftRight(red, h), h)
  {
    var x := h.left;
    var hh := h.(left := x.right);
    var x1 := x.(right := hh);
    RightLinksKeep(h);
    FlipChildrenKeeps(hh);
    SameRight(x1, if !red(x1, hh) then FlipChildren(hh) else hh);
  }

  lemma LiftRightSizes(red: Colour, h: Tree)
    requires h.Node? && h.left.Node? && ChildrenOk(h)
    ensures SizesOk(LiftRight(red, h).left) && ChildrenOk(LiftRight(red, h).right)
  {
    var x := h.left;
    var hh := h.(left := x.right);
    FlipChildrenSizes(hh);
  }

  lemma SettleRightKeeps(red: Colour, x2: Tree)
    requires x2.Node? && x2.right.Node?
    ensures SameHoldings(SettleRight(red, x2), x2)
  {
    if !red(x2, x2) && x2.left.Node? {
      var x3 := FlipAll(x2);
      FlipAllKeeps(x2);
      ResizeKeeps(x3.left);
      SameLeft(x3, Resize(x3.left));
    } else {
      ResizeKeeps(x2.right);
      SameRight(x2, Resize(x2.right));
    }
  }

  lemma SettleRightSizes(red: Colour, x2: Tree)
    requires x2.Node? && x2.right.Node? && SizesOk(x2.left) && ChildrenOk(x2.right)
    ensures ChildrenOk(SettleRight(red, x2))
  {
    if !red(x2, x2) && x2.left.Node? {
      var x3 := FlipAll(x2);
      FlipAllSizes(x2);
      FlipChildrenSizes(x2.right);
      ResizeKeeps(x3.left);
    } else {
      ResizeKeeps(x2.right);
    }
  }

  lemma SettleRightDemotes(red: Colour, x2: Tree)
    requires x2.Node? && x2.right.Node?
    ensures ResizedChild(SettleRight(red, x2).left, x2.right.id) || ResizedChild(SettleRight(red, x2).right, x2.right.id)
  {
    if !red(x2, x2) && x2.left.Node? {
      var x3 := FlipAll(x2);
      assert x3.left.id == x2.right.id;
      assert ResizedChild(Resize(x3.left), x2.right.id);
    } else {
      assert ResizedChild(Resize(x2.right), x2.right.id);
    }
  }

  /** rotateRight keeps the subtree's entries, identities and node count. */
  lemma RotateRightKeeps(red: Colour, h: Tree)
    requires RotateRight(red, h).Ok?
    ensures SameHoldings(RotateRight(red, h).value, h)
  {
    if h.Node? && !(!red(h, h) && h.left.Nil?) && !(red(h, h) && h.right.Nil?) {
      var h2 := PreFlipRight(red, h);
      PreFlipRightKeeps(red, h);
      LiftRightKeeps(red, h2);
      SettleRightKeeps(red, LiftRight(red, h2));
      SizeFieldKeeps(SettleRight(red, LiftRight(red, h2)), h.size);
    }
  }

  /** The size fields below the top stay right through rotateRight, and
      all of them do if they were right before. */
  lemma RotateRightSizes(red: Colour, h: Tree)
    requires RotateRight(red, h).Ok? && ChildrenOk(h)
    ensures ChildrenOk(RotateRight(red, h).value)
    ensures SizesOk(h) ==> SizesOk(RotateRight(red, h).value)
  {
    if h.Node? && !(!red(h, h) && h.left.Nil?) && !(red(h, h) && h.right.Nil?) {
      var h2 := PreFlipRight(red, h);
      PreFlipRightSizes(red, h);
      LiftRightSizes(red, h2);
      SettleRightSizes(red, LiftRight(red, h2));
      if SizesOk(h) {
        RotateRightKeeps(red, h);
        CountIsEntries(h);
      }
    }
  }

  /** When rotateRight does any work, it demotes h below the new top. */
  lemma RotateRightDemotes(red: Colour, h: Tree)
    requires RotateRight(red, h).Ok? && RotateRight(red, h).value != h
    ensures Demoted(h, RotateRight(red, h).value)
  {
    var h2 := PreFlipRight(red, h);
    SettleRightDemotes(red, LiftRight(red, h2));
  }

  // flipColors

  /** h is red and both its children black. */
  predicate RedOverBlacks(red: Colour, h: Tree)
    requires h.Node?
  {
    red(h, h) && !red(h, h.left) && !red(h, h.right)
  }

  /** h is black and both its children red. */
  predicate BlackOverReds(red: Colour, h: Tree)
    requires h.Node?
  {
    !red(h, h) && red(h, h.left) && red(h, h.right)
  }

  /** The source's flipColors(h): nothing for null or fewer than two
      children; otherwise a node red over two black children is flipped
      with both children, and then, re-evaluated, a node black over two
      red children is flipped with both children. */
  function FlipColors(red: Colour, h: Tree): (r: Tree)
    ensures r != h ==> h.Node? && h.left.Node? && h.right.Node? && (RedOverBlacks(red, h) || BlackOverReds(red, h))
    ensures h.Node? ==> r.Node? && r.id == h.id && r.size == h.size
  {
    if h.Nil? || h.left.Nil? || h.right.Nil? then h
    else
      var h1 := if RedOverBlacks(red, h) then FlipAll(h) else h;
      if BlackOverReds(red, h1) then FlipAll(h1) else h1
  }

  /** flipColors keeps what the subtree holds. */
  lemma FlipColorsKeeps(red: Colour, h: Tree)
    ensures SameHoldings(FlipColors(red, h), h)
  {
    if h.Node? && h.left.Node? && h.right.Node? {
      var h1 := if RedOverBlacks(red, h) then FlipAll(h) else h;
      FlipAllKeeps(h);
      FlipAllKeeps(h1);
      assert SameHoldings(h1, h);
    }
  }

  /** flipColors keeps the size fields right, or wrong, as they were. */
  lemma FlipColorsSizes(red: Colour, h: Tree)
    ensures SizesOk(FlipColors(red, h)) == SizesOk(h) && ChildrenOk(FlipColors(red, h)) == ChildrenOk(h)
  {
    if h.Node? && h.left.Node? && h.right.Node? {
      var h1 := if RedOverBlacks(red, h) then FlipAll(h) else h;
      FlipAllSizes(h);
      FlipAllSizes(h1);
      assert SizesOk(h1) == SizesOk(h) && ChildrenOk(h1) == ChildrenOk(h);
    }
  }

  /** The two tests of flipColors are not exclusive: when the first flip
      leaves a node black over two red children, the second flip undoes it
      and h comes back unchanged. */
  lemma FlipColorsUndoes(red: Colour, h: Tree)
    requires h.Node? && h.left.Node? && h.right.Node? && RedOverBlacks(red, h)
    ensures BlackOverReds(red, FlipAll(h)) ==> FlipColors(red, h) == h
    ensures !BlackOverReds(red, FlipAll(h)) ==> FlipColors(red, h) == FlipAll(h)
  {
    FlipAllTwice(h);
  }

  // moveRedLeft, moveRedRight, balance

  /** The source's moveRedLeft(h): flipColors(h); then, when h.right.left
      is red, h.right is rotated right (a call one level down), h is
      rotated left and flipColors is applied to the new top. Reading
      h.right.left dereferences h and h.right. */
  function MoveRedLeft(ctx: Ctx, h: Tree): (r: Result<Tree, Fault>)
    ensures h.Nil? ==> r == Err(NullDereference)
    ensures h.Node? && r.Ok? ==> r.value.Node?
  {
    var red := ColourAt(ctx);
    var h1 := FlipColors(red, h);
    if h1.Nil? || h1.right.Nil? then Err(NullDereference)
    else if red(h1, h1.right.left) then
      var rr :- RotateRight(ColourAt(Below(ctx, h1, false)), h1.right);
      var h3 :- RotateLeft(red, h1.(right := rr));
      Ok(FlipColors(red, h3))
    else Ok(h1)
  }

  /** moveRedLeft keeps what the subtree holds. */
  lemma MoveRedLeftKeeps(ctx: Ctx, h: Tree)
    requires MoveRedLeft(ctx, h).Ok?
    ensures SameHoldings(MoveRedLeft(ctx, h).value, h)
  {
    var red := ColourAt(ctx);
    var h1 := FlipColors(red, h);
    FlipColorsKeeps(red, h);
    if red(h1, h1.right.left) {
      var below := ColourAt(Below(ctx, h1, false));
      var rr := RotateRight(below, h1.right).value;
      RotateRightKeeps(below, h1.right);
      SameRight(h1, rr);
      var h3 := RotateLeft(red, h1.(right := rr)).value;
      RotateLeftKeeps(red, h1.(right := rr));
      FlipColorsKeeps(red, h3);
    }
  }

  /** moveRedLeft keeps the size fields below the top right, and all of
      them if they were right. */
  lemma MoveRedLeftSizes(ctx: Ctx, h: Tree)
    requires MoveRedLeft(ctx, h).Ok? && ChildrenOk(h)
    ensures ChildrenOk(MoveRedLeft(ctx, h).value)
    ensures SizesOk(h) ==> SizesOk(MoveRedLeft(ctx, h).value)
  {
    var red := ColourAt(ctx);
    var h1 := FlipColors(red, h);
    FlipColorsSizes(red, h);
    if red(h1, h1.right.left) {
      var below := ColourAt(Below(ctx, h1, false));
      var rr := RotateRight(below, h1.right).value;
      RotateRightSizes(below, h1.right);
      var h3 := RotateLeft(red, h1.(right := rr)).value;
      RotateLeftSizes(red, h1.(right := rr));
      FlipColorsSizes(red, h3);
      if SizesOk(h) {
        MoveRedLeftKeeps(ctx, h);
        CountIsEntries(h);
        CountIsEntries(h3);
        FlipColorsKeeps(red, h1);
        RotateRightKeeps(below, h1.right);
        SameRight(h1, rr);
        RotateLeftKeeps(red, h1.(right := rr));
        assert SizesOk(h1.(right := rr));
      }
    }
  }

  /** The source's moveRedRight(h): flipColors(h); then, when h.left.left
      is red, h is rotated right and flipColors is applied to the new top.
      Reading h.left.left dereferences h and h.left. */
  function MoveRedRight(red: Colour, h: Tree): (r: Result<Tree, Fault>)
    ensures h.Nil? ==> r == Err(NullDereference)
    ensures h.Node? && r.Ok? ==> r.value.Node?
  {
    var h1 := FlipColors(red, h);
    if h1.Nil? || h1.left.Nil? then Err(NullDereference)
    else if red(h1, h1.left.left) then
      var h2 :- RotateRight(red, h1);
      Ok(FlipColors(red, h2))
    else Ok(h1)
  }

  /** moveRedRight keeps what the subtree holds. */
  lemma MoveRedRightKeeps(red: Colour, h: Tree)
    requires MoveRedRight(red, h).Ok?
    ensures SameHoldings(MoveRedRight(red, h).value, h)
  {
    var h1 := FlipColors(red, h);
    FlipColorsKeeps(red, h);
    if red(h1, h1.left.left) {
      RotateRightKeeps(red, h1);
      FlipColorsKeeps(red, RotateRight(red, h1).value);
    }
  }

  /** moveRedRight keeps the size fields below the top right, and all of
      them if they were right. */
  lemma MoveRedRightSizes(red: Colour, h: Tree)
    requires MoveRedRight(red, h).Ok? && ChildrenOk(h)
    ensures ChildrenOk(MoveRedRight(red, h).value)
    ensures SizesOk(h) ==> SizesOk(MoveRedRight(red, h).value)
  {
    var h1 := FlipColors(red, h);
    FlipColorsSizes(red, h);
    if red(h1, h1.left.left) {
      RotateRightSizes(red, h1);
      FlipColorsSizes(red, RotateRight(red, h1).value);
    }
  }

  /** The source's balance(h): rotate left when h.right is red and h.left
      black; rotate right when h.left and h.left.left are red; flipColors
      when both children are red; then recompute h's size. Reading h.right
      dereferences h. */
  function Balance(red: Colour, h: Tree): (r: Result<Tree, Fault>)
    ensures h.Nil? ==> r == Err(NullDereference)
    ensures r.Ok? ==> r.value.Node? && r.value.size == Size(r.value.left) + Size(r.value.right) + 1
  {
    if h.Nil? then Err(NullDereference)
    else
      var h1 :- if red(h, h.right) && !red(h, h.left) then RotateLeft(red, h) else Ok(h);
      // isRed(null) is false, so h.left.left is only read when h.left is a node
      var h2 :- if h1.left.Node? && red(h1, h1.left) && red(h1, h1.left.left) then RotateRight(red, h1) else Ok(h1);
      var h3 := if red(h2, h2.left) && red(h2, h2.right) then FlipColors(red, h2) else h2;
      Ok(Resize(h3))
  }

  /** balance keeps what the subtree holds. */
  lemma BalanceKeeps(red: Colour, h: Tree)
    requires Balance(red, h).Ok?
    ensures SameHoldings(Balance(red, h).value, h)
  {
    var h1 := if red(h, h.right) && !red(h, h.left) then RotateLeft(red, h).value else h;
    if red(h, h.right) && !red(h, h.left) {
      RotateLeftKeeps(red, h);
    }
    var h2 := if h1.left.Node? && red(h1, h1.left) && red(h1, h1.left.left) then RotateRight(red, h1).value else h1;
    if h1.left.Node? && red(h1, h1.left) && red(h1, h1.left.left) {
      RotateRightKeeps(red, h1);
    }
    FlipColorsKeeps(red, h2);
    var h3 := if red(h2, h2.left) && red(h2, h2.right) then FlipColors(red, h2) else h2;
    ResizeKeeps(h3);
  }

  /** balance leaves every size field right when those below the top
      were. */
  lemma BalanceSizes(red: Colour, h: Tree)
    requires Balance(red, h).Ok? && ChildrenOk(h)
    ensures SizesOk(Balance(red, h).value)
  {
    var h1 := if red(h, h.right) && !red(h, h.left) then RotateLeft(red, h).value else h;
    if red(h, h.right) && !red(h, h.left) {
      RotateLeftSizes(red, h);
    }
    var h2 := if h1.left.Node? && red(h1, h1.left) && red(h1, h1.left.left) then RotateRight(red, h1).value else h1;
    if h1.left.Node? && red(h1, h1.left) && red(h1, h1.left.left) {
      RotateRightSizes(red, h1);
    }
    FlipColorsSizes(red, h2);
    var h3 := if red(h2, h2.left) && red(h2, h2.right) then FlipColors(red, h2) else h2;
    ResizeKeeps(h3);
  }
}

=== FILE: rbt_bst.dfy ===
/** The public methods of the colour-bit-free red-black symbol table. The
    table is its `root` field together with the next unused node identity,
    which stands for the allocation of fresh objects. A null key or value
    is None. */
module RedBlackBST {
  import opened Wrappers
  import opened RedBlackTree
  import RedBlackBalance
  import P = RedBlackPut
  import D = RedBlackDelete
  import Q = RedBlackQueries

  datatype Bst = Bst(root: Tree, next: nat)

  /** The empty table. */
  function Empty(): Bst
  {
    Bst(Nil, 0)
  }

  /** Every node carries its own identity, below the next unused one, and
      every size field counts its subtree. */
  ghost predicate Valid(b: Bst)
  {
    && SizesOk(b.root)
    && forall i :: i in Ids(b.root) ==> i < b.next && Ids(b.root)[i] == 1
  }

  lemma EmptyIsValid()
    ensures Valid(Empty()) && Count(Empty().root) == 0
  {
  }

  /** The source's size(): the root's size field, 0 for an empty table. */
  function TableSize(b: Bst): (r: int)
    ensures b.root.Nil? ==> r == 0
  {
    Size(b.root)
  }

  /** The source's isEmpty(): whether root is null. */
  function IsEmpty(b: Bst): (r: bool)
    ensures r <==> Entries(b.root) == multiset{}
  {
    b.root.Nil?
  }

  /** On a valid table size() is the number of pairs held, and isEmpty()
      holds exactly when it is 0. */
  lemma SizeCountsPairs(b: Bst)
    requires Valid(b)
    ensures TableSize(b) == |Entries(b.root)|
    ensures IsEmpty(b) <==> TableSize(b) == 0
  {
    RedBlackBalance.SizeIsCount(b.root);
    CountIsEntries(b.root);
  }

  /** The source's get(key): IllegalArgument for a null key; otherwise the
      search from the root, None when it runs off the tree. */
  function Get(b: Bst, key: Option<int>): (r: Result<Option<int>, Fault>)
    ensures key.None? <==> r == Err(IllegalArgument)
    ensures key.None? || r.Ok?
  {
    if key.None? then Err(IllegalArgument) else Ok(Q.GetFrom(b.root, key.value))
  }

  /** The source's contains(key): whether get(key) is not null. */
  function Contains(b: Bst, key: Option<int>): (r: Result<bool, Fault>)
    ensures key.None? <==> r == Err(IllegalArgument)
  {
    var v :- Get(b, key);
    Ok(v.Some?)
  }

  /** On a table in plain ascending order get finds exactly the keys held,
      with their values, and contains agrees. */
  lemma GetMeansLookup(b: Bst, k: int)
    requires Q.Ascending(b.root)
    ensures Get(b, Some(k)).value.Some? <==> k in Keys(b.root)
    ensures Get(b, Some(k)).value.Some? ==> (k, Get(b, Some(k)).value.value) in Entries(b.root)
    ensures Contains(b, Some(k)) == Ok(k in Keys(b.root))
  {
    Q.GetFromFinds(b.root, k);
  }

  /** The source's put(key, val): IllegalArgument for a null key; delete
      for a null value; otherwise the recursive put from the root, called
      while root still holds the old tree. */
  function Put(b: Bst, key: Option<int>, val: Option<int>): (r: Result<Bst, Fault>)
    ensures key.None? ==> r == Err(IllegalArgument)
    ensures key.Some? && val.None? ==> r == Delete(b, key)
    ensures key.Some? && val.Some? && r.Ok? ==> r.value.root.Node? && b.next <= r.value.next
  {
    if key.None? then Err(IllegalArgument)
    else if val.None? then Delete(b, key)
    else
      var p :- P.Put(Top(b.root), b.root, key.value, val.value, b.next);
      PInsertedNext(b, key.value, val.value);
      Ok(Bst(p.0, p.1))
  }

  /** The next identity only grows under put. */
  lemma PInsertedNext(b: Bst, k: int, v: int)
    requires P.Put(Top(b.root), b.root, k, v, b.next).Ok?
    ensures b.next <= P.Put(Top(b.root), b.root, k, v, b.next).value.1
  {
    P.PutInserts(Top(b.root), b.root, k, v, b.next);
  }

  /** Where put's fresh identities go: each one once, none below `lo`. */
  lemma {:induction false} IdRangeOnce(lo: nat, hi: nat, i: nat)
    ensures P.IdRange(lo, hi)[i] == (if lo <= i < hi then 1 else 0)
    decreases hi
  {
    if lo < hi {
      IdRangeOnce(lo, hi - 1, i);
    }
  }

  /** A put that succeeds stores the pair, leaves the other keys' entries
      alone, adds one node per fresh identity and keeps the table valid. */
  lemma PutInserts(b: Bst, k: int, v: int)
    requires Valid(b) && Put(b, Some(k), Some(v)).Ok?
    ensures var a := Put(b, Some(k), Some(v)).value;
      && Valid(a)
      && (k, v) in Entries(a.root)
      && (forall e: (int, int) :: e.0 != k ==> Entries(a.root)[e] == Entries(b.root)[e])
      && Count(a.root) == Count(b.root) + (a.next - b.next)
  {
    var a := Put(b, Some(k), Some(v)).value;
    P.PutInserts(Top(b.root), b.root, k, v, b.next);
    P.PutSizes(Top(b.root), b.root, k, v, b.next);
    forall i | i in Ids(a.root)
      ensures i < a.next && Ids(a.root)[i] == 1
    {
      IdRangeOnce(b.next, a.next, i);
      assert Ids(a.root)[i] == Ids(b.root)[i] + P.IdRange(b.next, a.next)[i];
    }
  }

  /** Put and then get finds the value on a valid table in plain ascending
      order when the put keeps that order. */
  lemma PutThenGet(b: Bst, k: int, v: int)
    requires Valid(b) && Put(b, Some(k), Some(v)).Ok?
    requires Q.Ascending(Put(b, Some(k), Some(v)).value.root)
    ensures Get(Put(b, Some(k), Some(v)).value, Some(k)) == Ok(Some(v))
  {
    var a := Put(b, Some(k), Some(v)).value;
    PutInserts(b, k, v);
    Q.GetFromFinds(a.root, k);
    Q.KeysAreEntryKeys(a.root, k);
    Q.AscendingEntryUnique(a.root, k, v, Q.GetFrom(a.root, k).value);
  }

  /** The root before a public removal: flipped to red when both of its
      children are black. */
  function Prepared(b: Bst): (r: Tree)
    requires b.root.Node?
    ensures SameHoldings(r, b.root) && r.id == b.root.id
  {
    var red := ColourAt(Top(b.root));
    FlipChildrenKeeps(b.root);
    if !red(b.root, b.root.left) && !red(b.root, b.root.right) then FlipChildren(b.root) else b.root
  }

  /** The root after a public removal: flipped again unless the table is
      now empty. */
  function Finished(r: Tree): (t: Tree)
    ensures SameHoldings(t, r) && (t.Nil? <==> r.Nil?)
  {
    FlipChildrenKeeps(r);
    if r.Nil? then r else FlipChildren(r)
  }

  /** The source's deleteMin(): NoSuchElement on an empty table; otherwise
      the root prepared, the recursive removal from it and the root
      finished. */
  function DeleteMin(b: Bst): (r: Result<Bst, Fault>)
    ensures b.root.Nil? ==> r == Err(NoSuchElement)
    ensures r.Ok? ==> r.value.next == b.next
  {
    if b.root.Nil? then Err(NoSuchElement)
    else
      var r0 := Prepared(b);
      var t :- D.DeleteMin(Top(r0), r0);
      Ok(Bst(Finished(t), b.next))
  }

  /** The source's deleteMax(), the same around the recursive deleteMax. */
  function DeleteMax(b: Bst): (r: Result<Bst, Fault>)
    ensures b.root.Nil? ==> r == Err(NoSuchElement)
    ensures r.Ok? ==> r.value.next == b.next
  {
    if b.root.Nil? then Err(NoSuchElement)
    else
      var r0 := Prepared(b);
      var t :- D.DeleteMax(Top(r0), r0);
      Ok(Bst(Finished(t), b.next))
  }

  /** The source's delete(key): IllegalArgument for a null key; nothing
      when the key is not found; otherwise the same around the recursive
      delete. */
  function Delete(b: Bst, key: Option<int>): (r: Result<Bst, Fault>)
    ensures key.None? ==> r == Err(IllegalArgument)
    ensures key.Some? && Q.GetFrom(b.root, key.value).None? ==> r == Ok(b)
    ensures r.Ok? ==> r.value.next == b.next
  {
    var found :- Contains(b, key);
    if !found then Ok(b)
    else
      var r0 := Prepared(b);
      var t :- D.Delete(Top(r0), r0, key.value);
      Ok(Bst(Finished(t), b.next))
  }

  /** A removal that keeps part of the identities and every size field
      keeps the table valid. */
  lemma ShrinkValid(b: Bst, t: Tree)
    requires Valid(b) && Ids(t) <= Ids(b.root) && SizesOk(t)
    ensures Valid(Bst(Finished(t), b.next))
  {
    FlipChildrenSizes(t);
    forall i | i in Ids(Finished(t))
      ensures i < b.next && Ids(Finished(t))[i] == 1
    {
      assert Ids(Finished(t))[i] <= Ids(b.root)[i];
    }
  }

  /** deleteMin removes at least one pair and adds none, keeping the table
      valid. */
  lemma DeleteMinShrinks(b: Bst)
    requires Valid(b) && DeleteMin(b).Ok?
    ensures var a := DeleteMin(b).value;
      && Valid(a)
      && Entries(a.root) <= Entries(b.root)
      && TableSize(a) < TableSize(b)
  {
    var r0 := Prepared(b);
    FlipChildrenSizes(b.root);
    D.DeleteMinShrinks(Top(r0), r0);
    D.DeleteMinSizes(Top(r0), r0);
    var t := D.DeleteMin(Top(r0), r0).value;
    ShrinkValid(b, t);
    RedBlackBalance.SizeIsCount(b.root);
    RedBlackBalance.SizeIsCount(DeleteMin(b).value.root);
  }

  /** deleteMax removes at least one pair and adds none, keeping the table
      valid. */
  lemma DeleteMaxShrinks(b: Bst)
    requires Valid(b) && DeleteMax(b).Ok?
    ensures var a := DeleteMax(b).value;
      && Valid(a)
      && Entries(a.root) <= Entries(b.root)
      && TableSize(a) < TableSize(b)
  {
    var r0 := Prepared(b);
    FlipChildrenSizes(b.root);
    D.DeleteMaxShrinks(Top(r0), r0);
    D.DeleteMaxSizes(Top(r0), r0);
    var t := D.DeleteMax(Top(r0), r0).value;
    ShrinkValid(b, t);
    RedBlackBalance.SizeIsCount(b.root);
    RedBlackBalance.SizeIsCount(DeleteMax(b).value.root);
  }

  /** delete adds no pair and no node, keeping the table valid. */
  lemma DeleteWithin(b: Bst, k: int)
    requires Valid(b) && Delete(b, Some(k)).Ok?
    ensures var a := Delete(b, Some(k)).value;
      && Valid(a)
      && (forall e :: e in Entries(a.root) ==> e in Entries(b.root))
      && TableSize(a) <= TableSize(b)
  {
    if Q.GetFrom(b.root, k).Some? {
      var r0 := Prepared(b);
      FlipChildrenSizes(b.root);
      D.DeleteWithin(Top(r0), r0, k);
      D.DeleteSizes(Top(r0), r0, k);
      var t := D.Delete(Top(r0), r0, k).value;
      ShrinkValid(b, t);
      RedBlackBalance.SizeIsCount(b.root);
      RedBlackBalance.SizeIsCount(Delete(b, Some(k)).value.root);
    }
  }

  /** The source's min(): NoSuchElement on an empty table; otherwise the
      key at the end of the root's left links. */
  function Min(b: Bst): (r: Result<int, Fault>)
    ensures b.root.Nil? <==> r.Err?
    ensures r.Err? ==> r.error == NoSuchElement
  {
    if b.root.Nil? then Err(NoSuchElement) else Ok(Q.MinNode(b.root).value.key)
  }

  /** The source's max(): NoSuchElement on an empty table; otherwise the
      key at the end of the root's right links. */
  function Max(b: Bst): (r: Result<int, Fault>)
    ensures b.root.Nil? <==> r.Err?
    ensures r.Err? ==> r.error == NoSuchElement
  {
    if b.root.Nil? then Err(NoSuchElement) else Ok(Q.MaxNode(b.root).value.key)
  }

  /** min() and max() return keys held; in plain ascending order the
      smallest and the largest. */
  lemma MinMaxAreExtremes(b: Bst)
    requires b.root.Node?
    ensures Min(b).Ok? && Min(b).value in Keys(b.root)
    ensures Max(b).Ok? && Max(b).value in Keys(b.root)
    ensures Q.Ascending(b.root) ==> forall k :: k in Keys(b.root) ==> Min(b).value <= k <= Max(b).value
  {
    Q.MinNodeIsLeast(b.root);
    Q.MaxNodeIsGreatest(b.root);
    var m := Q.MinNode(b.root).value;
    var n := Q.MaxNode(b.root).value;
    Q.KeysAreEntryKeys(b.root, m.key);
    Q.KeysAreEntryKeys(b.root, n.key);
  }

  /** The source's floor(key): IllegalArgument for a null key,
      NoSuchElement on an empty table or when the search finds nothing. */
  function Floor(b: Bst, key: Option<int>): (r: Result<int, Fault>)
    ensures key.None? <==> r == Err(IllegalArgument)
    ensures key.Some? && b.root.Nil? ==> r == Err(NoSuchElement)
  {
    if key.None? then Err(IllegalArgument)
    else if b.root.Nil? then Err(NoSuchElement)
    else
      var x := Q.FloorNode(b.root, key.value);
      if x.Nil? then Err(NoSuchElement) else Ok(x.key)
  }

  /** The source's ceiling(key), the mirror image of floor. */
  function Ceiling(b: Bst, key: Option<int>): (r: Result<int, Fault>)
    ensures key.None? <==> r == Err(IllegalArgument)
    ensures key.Some? && b.root.Nil? ==> r == Err(NoSuchElement)
  {
    if key.None? then Err(IllegalArgument)
    else if b.root.Nil? then Err(NoSuchElement)
    else
      var x := Q.CeilingNode(b.root, key.value);
      if x.Nil? then Err(NoSuchElement) else Ok(x.key)
  }

  /** In plain ascending order floor(k) is the largest key at most k, and
      fails exactly when every key is larger. */
  lemma FloorMeans(b: Bst, k: int)
    requires Q.Ascending(b.root)
    ensures Floor(b, Some(k)) == Err(NoSuchElement) <==> forall x :: x in Keys(b.root) ==> k < x
    ensures Floor(b, Some(k)).Ok? ==>
      var f := Floor(b, Some(k)).value;
      f in Keys(b.root) && f <= k && forall x :: x in Keys(b.root) && x <= k ==> x <= f
  {
    Q.FloorNodeIsFloor(b.root, k);
  }

  /** In plain ascending order ceiling(k) is the smallest key at least k,
      and fails exactly when every key is smaller. */
  lemma CeilingMeans(b: Bst, k: int)
    requires Q.Ascending(b.root)
    ensures Ceiling(b, Some(k)) == Err(NoSuchElement) <==> forall x :: x in Keys(b.root) ==> x < k
    ensures Ceiling(b, Some(k)).Ok? ==>
      var c := Ceiling(b, Some(k)).value;
      c in Keys(b.root) && k <= c && forall x :: x in Keys(b.root) && k <= x ==> c <= x
  {
    Q.CeilingNodeIsCeiling(b.root, k);
  }

  /** The source's keys(lo, hi): IllegalArgument for a null bound;
      otherwise the keys the range walk appends to the queue. */
  function KeysBetween(b: Bst, lo: Option<int>, hi: Option<int>): (r: Result<seq<int>, Fault>)
    ensures lo.None? || hi.None? <==> r == Err(IllegalArgument)
  {
    if lo.None? || hi.None? then Err(IllegalArgument)
    else Ok(Q.KeysIn(b.root, lo.value, hi.value))
  }

  /** The source's keys(): an empty list for an empty table, otherwise
      keys(min(), max()). */
  function AllKeys(b: Bst): (r: Result<seq<int>, Fault>)
    ensures b.root.Nil? ==> r == Ok([])
  {
    if b.root.Nil? then Ok([])
    else KeysBetween(b, Some(Min(b).value), Some(Max(b).value))
  }

  /** In plain ascending order keys(lo, hi) lists exactly the keys in
      [lo, hi], each once, in increasing order. */
  lemma KeysBetweenMeans(b: Bst, lo: int, hi: int)
    requires Q.Ascending(b.root)
    ensures var s := KeysBetween(b, Some(lo), Some(hi)).value;
      && (forall k :: k in s <==> k in Keys(b.root) && lo <= k <= hi)
      && Q.StrictlySorted(s)
  {
    Q.KeysInMembers(b.root, lo, hi);
    Q.KeysInSorted(b.root, lo, hi);
  }

  /** In plain ascending order keys() lists every key held, each once, in
      increasing order. */
  lemma AllKeysMeans(b: Bst)
    requires Q.Ascending(b.root)
    ensures AllKeys(b).Ok?
    ensures forall k :: k in AllKeys(b).value <==> k in Keys(b.root)
    ensures Q.StrictlySorted(AllKeys(b).value)
  {
    if b.root.Node? {
      MinMaxAreExtremes(b);
      KeysBetweenMeans(b, Min(b).value, Max(b).value);
    }
  }
}

=== FILE: rbt_delete.dfy ===
/** Removal from the colour-bit-free tree: deleteMin, deleteMax and
    delete. Each walks down one side, pushing a red link ahead of it with
    moveRedLeft, moveRedRight and the rotations, and rebalances on the way
    back up. delete replaces a found key by the smallest entry of one
    subtree and then removes that subtree's smallest entry, choosing both
    subtrees by h's colour, which is re-evaluated after the key changed. */
module RedBlackDelete {
  import opened Wrappers
  import opened RedBlackTree
  import opened RedBlackBalance
  import opened RedBlackQueries

  /** What a removal may leave in place of h: some of its entries, some of
      its identities and no more nodes. */
  ghost predicate Within(r: Tree, h: Tree)
  {
    && (forall e :: e in Entries(r) ==> e in Entries(h))
    && Ids(r) <= Ids(h)
    && Count(r) <= Count(h)
  }

  /** Reading the grandchild c.left (goLeft) or c.right of the node whose
      child is c, as an unguarded field access: null c is a null
      dereference; otherwise whether the grandchild is black. */
  function BlackBelow(red: Colour, h: Tree, c: Tree, goLeft: bool): (r: Result<bool, Fault>)
    ensures c.Nil? <==> r.Err?
  {
    if c.Nil? then Err(NullDereference) else Ok(!red(h, Child(c, goLeft)))
  }

  /** The source's `c != null && !isRed(grandchild)`, with the null test
      guarding the field access. */
  predicate GuardedBlackBelow(red: Colour, h: Tree, c: Tree, goLeft: bool)
  {
    c.Node? && !red(h, Child(c, goLeft))
  }

  // deleteMin

  /** The source's deleteMin(h) for a call sitting at ctx: null when h has
      no left child (whatever its right child holds); otherwise
      moveRedLeft when h.left and h.left.left are black, the removal one
      level down on the left, and balance. deleteMin(null) reads null.left. */
  function DeleteMin(ctx: Ctx, h: Tree): (r: Result<Tree, Fault>)
    ensures h.Nil? ==> r == Err(NullDereference)
    ensures h.Node? && h.left.Nil? ==> r == Ok(Nil)
    decreases Count(h)
  {
    if h.Nil? then Err(NullDereference)
    else if h.left.Nil? then Ok(Nil)
    else
      var red := ColourAt(ctx);
      var move := !red(h, h.left) && !red(h, h.left.left);
      var h1 :- if move then MoveRedLeft(ctx, h) else Ok(h);
      assert Count(h1) == Count(h) by {
        if move { MoveRedLeftKeeps(ctx, h); }
      }
      var l :- DeleteMin(Below(ctx, h1, true), h1.left);
      Balance(red, h1.(left := l))
  }

  /** Taking part of the left bag keeps the inclusion in the whole. */
  lemma SubLift<T>(a: multiset<T>, b: multiset<T>, o: multiset<T>, p: T)
    requires a <= b
    ensures a + o + multiset{p} <= b + o + multiset{p}
    ensures o + a + multiset{p} <= o + b + multiset{p}
  {
  }

  /** deleteMin removes at least one node and adds nothing: its entries
      and identities are a part of h's. */
  lemma {:induction false} DeleteMinShrinks(ctx: Ctx, h: Tree)
    requires DeleteMin(ctx, h).Ok?
    ensures var r := DeleteMin(ctx, h).value;
      Entries(r) <= Entries(h) && Ids(r) <= Ids(h) && Count(r) < Count(h)
    decreases Count(h)
  {
    if h.left.Node? {
      var red := ColourAt(ctx);
      var move := !red(h, h.left) && !red(h, h.left.left);
      var h1 := if move then MoveRedLeft(ctx, h).value else h;
      if move { MoveRedLeftKeeps(ctx, h); }
      var l := DeleteMin(Below(ctx, h1, true), h1.left).value;
      DeleteMinShrinks(Below(ctx, h1, true), h1.left);
      SubLift(Entries(l), Entries(h1.left), Entries(h1.right), (h1.key, h1.val));
      SubLift(Ids(l), Ids(h1.left), Ids(h1.right), h1.id);
      BalanceKeeps(red, h1.(left := l));
    }
  }

  /** deleteMin leaves every size field right when those below h were. */
  lemma {:induction false} DeleteMinSizes(ctx: Ctx, h: Tree)
    requires DeleteMin(ctx, h).Ok? && ChildrenOk(h)
    ensures SizesOk(DeleteMin(ctx, h).value)
    decreases Count(h)
  {
    if h.left.Node? {
      var red := ColourAt(ctx);
      var move := !red(h, h.left) && !red(h, h.left.left);
      var h1 := if move then MoveRedLeft(ctx, h).value else h;
      if move { MoveRedLeftKeeps(ctx, h); MoveRedLeftSizes(ctx, h); }
      DeleteMinSizes(Below(ctx, h1, true), h1.left);
      BalanceSizes(red, h1.(left := DeleteMin(Below(ctx, h1, true), h1.left).value));
    }
  }

  // deleteMax

  /** The source's deleteMax(h) for a call sitting at ctx: rotateRight
      when h.left is red; null when the right child is then null; otherwise
      moveRedRight when h.right and h.right.left are black, the removal one
      level down on the right, and balance. deleteMax(null) reads
      null.left. */
  function DeleteMax(ctx: Ctx, h: Tree): (r: Result<Tree, Fault>)
    ensures h.Nil? ==> r == Err(NullDereference)
    decreases Count(h)
  {
    if h.Nil? then Err(NullDereference)
    else
      var red := ColourAt(ctx);
      var h1 :- if red(h, h.left) then RotateRight(red, h) else Ok(h);
      assert Count(h1) == Count(h) by {
        if red(h, h.left) { RotateRightKeeps(red, h); }
      }
      if h1.right.Nil? then Ok(Nil)
      else
        var move := !red(h1, h1.right) && !red(h1, h1.right.left);
        var h2 :- if move then MoveRedRight(red, h1) else Ok(h1);
        assert Count(h2) == Count(h1) by {
          if move { MoveRedRightKeeps(red, h1); }
        }
        var r :- DeleteMax(Below(ctx, h2, false), h2.right);
        Balance(red, h2.(right := r))
  }

  /** deleteMax removes at least one node and adds nothing. */
  lemma {:induction false} DeleteMaxShrinks(ctx: Ctx, h: Tree)
    requires DeleteMax(ctx, h).Ok?
    ensures var r := DeleteMax(ctx, h).value;
      Entries(r) <= Entries(h) && Ids(r) <= Ids(h) && Count(r) < Count(h)
    decreases Count(h)
  {
    var red := ColourAt(ctx);
    var h1 := if red(h, h.left) then RotateRight(red, h).value else h;
    if red(h, h.left) { RotateRightKeeps(red, h); }
    if h1.right.Node? {
      var move := !red(h1, h1.right) && !red(h1, h1.right.left);
      var h2 := if move then MoveRedRight(red, h1).value else h1;
      if move { MoveRedRightKeeps(red, h1); }
      var r := DeleteMax(Below(ctx, h2, false), h2.right).value;
      DeleteMaxShrinks(Below(ctx, h2, false), h2.right);
      SubLift(Entries(r), Entries(h2.right), Entries(h2.left), (h2.key, h2.val));
      SubLift(Ids(r), Ids(h2.right), Ids(h2.left), h2.id);
      BalanceKeeps(red, h2.(right := r));
    }
  }

  /** deleteMax leaves every size field right when those below h were. */
  lemma {:induction false} DeleteMaxSizes(ctx: Ctx, h: Tree)
    requires DeleteMax(ctx, h).Ok? && ChildrenOk(h)
    ensures SizesOk(DeleteMax(ctx, h).value)
    decreases Count(h)
  {
    var red := ColourAt(ctx);
    var h1 := if red(h, h.left) then RotateRight(red, h).value else h;
    if red(h, h.left) { RotateRightKeeps(red, h); RotateRightSizes(red, h); }
    if h1.right.Node? {
      var move := !red(h1, h1.right) && !red(h1, h1.right.left);
      var h2 := if move then MoveRedRight(red, h1).value else h1;
      if move { MoveRedRightKeeps(red, h1); MoveRedRightSizes(red, h1); }
      DeleteMaxSizes(Below(ctx, h2, false), h2.right);
      BalanceSizes(red, h2.(right := DeleteMax(Below(ctx, h2, false), h2.right).value));
    }
  }

  // delete

  /** The source's delete(h, key) for a call sitting at ctx: null for
      null; otherwise the branch for a smaller key or the one for a key at
      least h's. */
  function Delete(ctx: Ctx, h: Tree, key: int): (r: Result<Tree, Fault>)
    ensures h.Nil? ==> r == Ok(Nil)
    decreases Count(h), 3
  {
    if h.Nil? then Ok(Nil)
    else if key < h.key then DeleteLess(ctx, h, key)
    else DeleteNotLess(ctx, h, key)
  }

  /** Whether delete for a smaller key calls moveRedLeft: for a black h,
      when the grandchild below h.left on the side matching h.left's colour
      is black; for a red h, the same below h.right. The grandchild is read
      without a null test. */
  function MoveLeftWanted(red: Colour, h: Tree): Result<bool, Fault>
    requires h.Node?
  {
    var c := Child(h, !red(h, h));
    BlackBelow(red, h, c, !red(h, c))
  }

  /** delete for a key smaller than h's: moveRedLeft if wanted, then the
      removal one level down, on the left if h is now black and on the
      right if it is red. */
  function DeleteLess(ctx: Ctx, h: Tree, key: int): (r: Result<Tree, Fault>)
    requires h.Node?
    ensures r.Ok? ==> r.value.Node?
    decreases Count(h), 2
  {
    var red := ColourAt(ctx);
    var move :- MoveLeftWanted(red, h);
    var h1 :- if move then MoveRedLeft(ctx, h) else Ok(h);
    assert Count(h1) == Count(h) by {
      if move { MoveRedLeftKeeps(ctx, h); }
    }
    DeleteBelow(ctx, h1, !red(h1, h1), key)
  }

  /** Whether delete for a key at least h's calls rotateRight: when the
      child on the side of h's colour, left if black and right if red, is
      red. */
  predicate RotateWanted(red: Colour, h: Tree)
    requires h.Node?
  {
    red(h, Child(h, !red(h, h)))
  }

  /** delete for a key at least h's: rotateRight if wanted; null when the
      key is h's and h has no right child; otherwise the rest below. */
  function DeleteNotLess(ctx: Ctx, h: Tree, key: int): (r: Result<Tree, Fault>)
    requires h.Node?
    decreases Count(h), 2
  {
    var red := ColourAt(ctx);
    var h1 :- if RotateWanted(red, h) then RotateRight(red, h) else Ok(h);
    assert Count(h1) == Count(h) by {
      if RotateWanted(red, h) { RotateRightKeeps(red, h); }
    }
    if key == h1.key && h1.right.Nil? then Ok(Nil)
    else DeleteRightward(ctx, h1, key)
  }

  /** Whether delete for a key at least h's calls moveRedRight. A black h
      moves when h.right and, behind a null test, h.right.left are black;
      when h.right is red the source tests it for black again, so it never
      moves. A red h moves when h.left and, behind a null test, the
      grandchild below h.left on the side matching h.right's colour are
      black. */
  predicate MoveRightWanted(red: Colour, h: Tree)
    requires h.Node?
  {
    var l := h.left;
    var r := h.right;
    if !red(h, h) then
      if !red(h, r) then !red(h, r) && GuardedBlackBelow(red, h, r, true)
      else !red(h, r) && GuardedBlackBelow(red, h, r, false)
    else !red(h, l) && GuardedBlackBelow(red, h, l, !red(h, r))
  }

  /** delete for a key at least h's after the rotation: moveRedRight if
      wanted; then the key is replaced at h, or removed one level down, on
      the right if h is black and on the left if it is red. */
  function DeleteRightward(ctx: Ctx, h: Tree, key: int): (r: Result<Tree, Fault>)
    requires h.Node?
    ensures r.Ok? ==> r.value.Node?
    decreases Count(h), 1
  {
    var red := ColourAt(ctx);
    var h2 :- if MoveRightWanted(red, h) then MoveRedRight(red, h) else Ok(h);
    assert Count(h2) == Count(h) by {
      if MoveRightWanted(red, h) { MoveRedRightKeeps(red, h); }
    }
    if key == h2.key then DeleteFound(ctx, h2)
    else DeleteBelow(ctx, h2, red(h2, h2), key)
  }

  /** The removal one level down on the side goLeft, a call whose result
      is linked in when it returns, followed by balance. */
  function DeleteBelow(ctx: Ctx, h: Tree, goLeft: bool, key: int): (r: Result<Tree, Fault>)
    requires h.Node?
    ensures r.Ok? ==> r.value.Node?
    decreases Count(h), 0
  {
    var c :- Delete(Below(ctx, h, goLeft), Child(h, goLeft), key);
    Balance(ColourAt(ctx), SetChild(h, goLeft, c))
  }

  /** delete at the node holding the key: copy the smallest entry of
      h.right (h black) or h.left (h red) into h; then, by h's colour
      re-evaluated, remove the smallest entry of h.right or h.left, and
      balance. min(null) reads null.left. */
  function DeleteFound(ctx: Ctx, h: Tree): (r: Result<Tree, Fault>)
    requires h.Node?
    ensures r.Ok? ==> r.value.Node?
  {
    var red := ColourAt(ctx);
    var aux :- MinNode(Child(h, red(h, h)));
    var h3 := h.(key := aux.key, val := aux.val);
    var goLeft := red(h3, h3);
    var c :- DeleteMin(Below(ctx, h3, goLeft), Child(h3, goLeft));
    Balance(red, SetChild(h3, goLeft, c))
  }

  /** Within is transitive. */
  lemma WithinTrans(a: Tree, b: Tree, c: Tree)
    requires Within(a, b) && Within(b, c)
    ensures Within(a, c)
  {
  }

  /** Holding the same as h is within h. */
  lemma SameIsWithin(a: Tree, h: Tree)
    requires SameHoldings(a, h)
    ensures Within(a, h)
  {
  }

  /** Replacing a child of h by part of it keeps the result within h. */
  lemma LinkWithin(h: Tree, goLeft: bool, c: Tree)
    requires h.Node? && Within(c, Child(h, goLeft))
    ensures Within(SetChild(h, goLeft, c), h)
  {
    var o := Child(h, !goLeft);
    SubLift(Ids(c), Ids(Child(h, goLeft)), Ids(o), h.id);
  }

  /** The entries after copying an entry h holds into h and replacing a
      child by a part of it are entries of h. */
  lemma CopyLinkEntries(h: Tree, goLeft: bool, c: Tree, k: int, v: int)
    requires h.Node? && (k, v) in Entries(h) && Entries(c) <= Entries(Child(h, goLeft))
    ensures forall e :: e in Entries(SetChild(h.(key := k, val := v), goLeft, c)) ==> e in Entries(h)
  {
    var o := Child(h, !goLeft);
    var t := SetChild(h.(key := k, val := v), goLeft, c);
    assert Entries(Child(h, goLeft)) <= Entries(h);
    assert Entries(o) <= Entries(h);
    assert Entries(t) == Entries(Child(t, true)) + Entries(Child(t, false)) + multiset{(k, v)};
  }

  /** Copying an entry h holds into h and replacing a child by a part of
      it keeps the result within h. */
  lemma CopyLinkWithin(h: Tree, goLeft: bool, c: Tree, k: int, v: int)
    requires h.Node? && (k, v) in Entries(h)
    requires Entries(c) <= Entries(Child(h, goLeft)) && Ids(c) <= Ids(Child(h, goLeft))
    requires Count(c) <= Count(Child(h, goLeft))
    ensures Within(SetChild(h.(key := k, val := v), goLeft, c), h)
  {
    var t := SetChild(h.(key := k, val := v), goLeft, c);
    if goLeft {
      assert Ids(t) == Ids(c) + Ids(h.right) + multiset{h.id};
      SubLift(Ids(c), Ids(h.left), Ids(h.right), h.id);
    } else {
      assert Ids(t) == Ids(h.left) + Ids(c) + multiset{h.id};
      SubLift(Ids(c), Ids(h.right), Ids(h.left), h.id);
    }
    CopyLinkEntries(h, goLeft, c, k, v);
  }

  /** delete adds nothing: every entry it leaves was an entry of h, and its
      identities are a part of h's, in no more nodes. */
  lemma {:induction false} DeleteWithin(ctx: Ctx, h: Tree, key: int)
    requires Delete(ctx, h, key).Ok?
    ensures Within(Delete(ctx, h, key).value, h)
    decreases Count(h), 3
  {
    if h.Node? {
      if key < h.key { DeleteLessWithin(ctx, h, key); }
      else { DeleteNotLessWithin(ctx, h, key); }
    }
  }

  lemma {:induction false} DeleteLessWithin(ctx: Ctx, h: Tree, key: int)
    requires h.Node? && DeleteLess(ctx, h, key).Ok?
    ensures Within(DeleteLess(ctx, h, key).value, h)
    decreases Count(h), 2
  {
    var red := ColourAt(ctx);
    var move := MoveLeftWanted(red, h).value;
    var h1 := if move then MoveRedLeft(ctx, h).value else h;
    if move { MoveRedLeftKeeps(ctx, h); }
    SameIsWithin(h1, h);
    DeleteBelowWithin(ctx, h1, !red(h1, h1), key);
    WithinTrans(DeleteLess(ctx, h, key).value, h1, h);
  }

  lemma {:induction false} DeleteNotLessWithin(ctx: Ctx, h: Tree, key: int)
    requires h.Node? && DeleteNotLess(ctx, h, key).Ok?
    ensures Within(DeleteNotLess(ctx, h, key).value, h)
    decreases Count(h), 2
  {
    var red := ColourAt(ctx);
    var h1 := if RotateWanted(red, h) then RotateRight(red, h).value else h;
    if RotateWanted(red, h) { RotateRightKeeps(red, h); }
    NotLessUnfolds(ctx, h, key, h1);
    if !(key == h1.key && h1.right.Nil?) {
      SameIsWithin(h1, h);
      DeleteRightwardWithin(ctx, h1, key);
      WithinTrans(DeleteRightward(ctx, h1, key).value, h1, h);
    }
  }

  /** The step of delete for a key at least h's after the rotation h1. */
  lemma NotLessUnfolds(ctx: Ctx, h: Tree, key: int, h1: Tree)
    requires h.Node? && DeleteNotLess(ctx, h, key).Ok?
    requires h1 == if RotateWanted(ColourAt(ctx), h) then RotateRight(ColourAt(ctx), h).value else h
    ensures h1.Node?
    ensures key == h1.key && h1.right.Nil? ==> DeleteNotLess(ctx, h, key) == Ok(Nil)
    ensures !(key == h1.key && h1.right.Nil?) ==> DeleteNotLess(ctx, h, key) == DeleteRightward(ctx, h1, key)
  {
  }

  lemma {:induction false} DeleteRightwardWithin(ctx: Ctx, h: Tree, key: int)
    requires h.Node? && DeleteRightward(ctx, h, key).Ok?
    ensures Within(DeleteRightward(ctx, h, key).value, h)
    decreases Count(h), 1
  {
    var red := ColourAt(ctx);
    var h2 := if MoveRightWanted(red, h) then MoveRedRight(red, h).value else h;
    if MoveRightWanted(red, h) { MoveRedRightKeeps(red, h); }
    SameIsWithin(h2, h);
    if key == h2.key {
      DeleteFoundWithin(ctx, h2);
    } else {
      DeleteBelowWithin(ctx, h2, red(h2, h2), key);
    }
    WithinTrans(DeleteRightward(ctx, h, key).value, h2, h);
  }

  lemma {:induction false} DeleteBelowWithin(ctx: Ctx, h: Tree, goLeft: bool, key: int)
    requires h.Node? && DeleteBelow(ctx, h, goLeft, key).Ok?
    ensures Within(DeleteBelow(ctx, h, goLeft, key).value, h)
    decreases Count(h), 0
  {
    var c := Delete(Below(ctx, h, goLeft), Child(h, goLeft), key).value;
    DeleteWithin(Below(ctx, h, goLeft), Child(h, goLeft), key);
    LinkWithin(h, goLeft, c);
    BalanceKeeps(ColourAt(ctx), SetChild(h, goLeft, c));
    SameIsWithin(DeleteBelow(ctx, h, goLeft, key).value, SetChild(h, goLeft, c));
    WithinTrans(DeleteBelow(ctx, h, goLeft, key).value, SetChild(h, goLeft, c), h);
  }

  /** The key copy brings in an entry h already holds, and the removal
      below takes at least one node away. */
  lemma DeleteFoundWithin(ctx: Ctx, h: Tree)
    requires h.Node? && DeleteFound(ctx, h).Ok?
    ensures Within(DeleteFound(ctx, h).value, h)
  {
    var red := ColourAt(ctx);
    var aux := MinNode(Child(h, red(h, h))).value;
    MinNodeIsLeast(Child(h, red(h, h)));
    assert (aux.key, aux.val) in Entries(h);
    var h3 := h.(key := aux.key, val := aux.val);
    var goLeft := red(h3, h3);
    assert Child(h3, goLeft) == Child(h, goLeft);
    var c := DeleteMin(Below(ctx, h3, goLeft), Child(h3, goLeft)).value;
    DeleteMinShrinks(Below(ctx, h3, goLeft), Child(h3, goLeft));
    CopyLinkWithin(h, goLeft, c, aux.key, aux.val);
    var t := SetChild(h3, goLeft, c);
    BalanceKeeps(red, t);
    SameIsWithin(DeleteFound(ctx, h).value, t);
    WithinTrans(DeleteFound(ctx, h).value, t, h);
  }

  /** delete leaves every size field right when those below h were. */
  lemma {:induction false} DeleteSizes(ctx: Ctx, h: Tree, key: int)
    requires Delete(ctx, h, key).Ok? && ChildrenOk(h)
    ensures SizesOk(Delete(ctx, h, key).value)
    decreases Count(h), 3
  {
    if h.Node? {
      if key < h.key { DeleteLessSizes(ctx, h, key); }
      else { DeleteNotLessSizes(ctx, h, key); }
    }
  }

  lemma {:induction false} DeleteLessSizes(ctx: Ctx, h: Tree, key: int)
    requires h.Node? && DeleteLess(ctx, h, key).Ok? && ChildrenOk(h)
    ensures SizesOk(DeleteLess(ctx, h, key).value)
    decreases Count(h), 2
  {
    var red := ColourAt(ctx);
    var move := MoveLeftWanted(red, h).value;
    var h1 := if move then MoveRedLeft(ctx, h).value else h;
    if move { MoveRedLeftKeeps(ctx, h); MoveRedLeftSizes(ctx, h); }
    DeleteBelowSizes(ctx, h1, !red(h1, h1), key);
  }

  lemma {:induction false} DeleteNotLessSizes(ctx: Ctx, h: Tree, key: int)
    requires h.Node? && DeleteNotLess(ctx, h, key).Ok? && ChildrenOk(h)
    ensures SizesOk(DeleteNotLess(ctx, h, key).value)
    decreases Count(h), 2
  {
    var red := ColourAt(ctx);
    var h1 := if RotateWanted(red, h) then RotateRight(red, h).value else h;
    if RotateWanted(red, h) { RotateRightKeeps(red, h); RotateRightSizes(red, h); }
    if !(key == h1.key && h1.right.Nil?) {
      DeleteRightwardSizes(ctx, h1, key);
    }
  }

  lemma {:induction false} DeleteRightwardSizes(ctx: Ctx, h: Tree, key: int)
    requires h.Node? && DeleteRightward(ctx, h, key).Ok? && ChildrenOk(h)
    ensures SizesOk(DeleteRightward(ctx, h, key).value)
    decreases Count(h), 1
  {
    var red := ColourAt(ctx);
    var h2 := if MoveRightWanted(red, h) then MoveRedRight(red, h).value else h;
    if MoveRightWanted(red, h) { MoveRedRightKeeps(red, h); MoveRedRightSizes(red, h); }
    if key == h2.key {
      DeleteFoundSizes(ctx, h2);
    } else {
      DeleteBelowSizes(ctx, h2, red(h2, h2), key);
    }
  }

  lemma {:induction false} DeleteBelowSizes(ctx: Ctx, h: Tree, goLeft: bool, key: int)
    requires h.Node? && DeleteBelow(ctx, h, goLeft, key).Ok? && ChildrenOk(h)
    ensures SizesOk(DeleteBelow(ctx, h, goLeft, key).value)
    decreases Count(h), 0
  {
    var c := Delete(Below(ctx, h, goLeft), Child(h, goLeft), key).value;
    DeleteSizes(Below(ctx, h, goLeft), Child(h, goLeft), key);
    BalanceSizes(ColourAt(ctx), SetChild(h, goLeft, c));
  }

  lemma DeleteFoundSizes(ctx: Ctx, h: Tree)
    requires h.Node? && DeleteFound(ctx, h).Ok? && ChildrenOk(h)
    ensures SizesOk(DeleteFound(ctx, h).value)
  {
    var red := ColourAt(ctx);
    var aux := MinNode(Child(h, red(h, h))).value;
    var h3 := h.(key := aux.key, val := aux.val);
    var goLeft := red(h3, h3);
    var c := DeleteMin(Below(ctx, h3, goLeft), Child(h3, goLeft)).value;
    DeleteMinSizes(Below(ctx, h3, goLeft), Child(h3, goLeft));
    BalanceSizes(red, SetChild(h3, goLeft, c));
  }
}

=== FILE: rbt_put.dfy ===
/** Insertion into the colour-bit-free tree. put first descends as the
    search order of a black node says, then tests h's colour afresh and
    descends the inverted way if h is now red, so both descents can run and
    the key can be inserted below h twice. A fresh object gets the next
    unused identity. */
module RedBlackPut {
  import opened Wrappers
  import opened RedBlackTree
  import opened RedBlackBalance

  /** The identities lo, lo+1, ..., hi-1. */
  function IdRange(lo: nat, hi: nat): multiset<nat>
    decreases hi
  {
    if hi <= lo then multiset{} else IdRange(lo, hi - 1) + multiset{hi - 1}
  }

  lemma {:induction false} IdRangeSplit(lo: nat, mid: nat, hi: nat)
    requires lo <= mid <= hi
    ensures IdRange(lo, mid) + IdRange(mid, hi) == IdRange(lo, hi)
    decreases hi
  {
    if mid < hi {
      var top: nat := hi - 1;
      IdRangeSplit(lo, mid, top);
      assert IdRange(mid, hi) == IdRange(mid, top) + multiset{top};
      assert IdRange(lo, hi) == IdRange(lo, top) + multiset{top};
      AddOne(IdRange(lo, mid), IdRange(mid, top), top);
    }
  }

  lemma AddOne<T>(a: multiset<T>, b: multiset<T>, x: T)
    ensures a + (b + multiset{x}) == (a + b) + multiset{x}
  {
  }

  /** Every identity in IdRange(lo, hi) lies in [lo, hi). */
  lemma {:induction false} IdRangeBounds(lo: nat, hi: nat, i: nat)
    requires i in IdRange(lo, hi)
    ensures lo <= i < hi
    decreases hi
  {
    if i != hi - 1 {
      IdRangeBounds(lo, hi - 1, i);
    }
  }

  /** From bag `before` to bag `after` only entries with key `key` changed,
      and no entry of that key with a value other than `val` became more
      frequent. */
  ghost predicate Changed(before: multiset<(int, int)>, after: multiset<(int, int)>, key: int, val: int)
  {
    && (forall e: (int, int) :: e.0 != key ==> after[e] == before[e])
    && (forall e: (int, int) :: e.0 == key && e.1 != val ==> after[e] <= before[e])
  }

  /** t, with next identity n, is what a put of (key, val) may leave in
      place of h, with next identity `next`: (key, val) is present, other
      keys are untouched, and exactly the identities next, ..., n-1 were
      added, one node each. */
  ghost predicate Inserted(h: Tree, key: int, val: int, next: nat, t: Tree, n: nat)
  {
    && next <= n
    && Count(t) == Count(h) + (n - next)
    && Ids(t) == Ids(h) + IdRange(next, n)
    && Changed(Entries(h), Entries(t), key, val)
    && (key, val) in Entries(t)
  }

  /** The source's put(h, key, val) for a call sitting at ctx: a new node
      for null; otherwise the descents, the fix-up and the size. */
  function Put(ctx: Ctx, h: Tree, key: int, val: int, next: nat): (r: Result<(Tree, nat), Fault>)
    ensures r.Ok? ==> r.value.0.Node?
    decreases h, 2
  {
    if h.Nil? then Ok((Node(next, key, val, Nil, Nil, 1), next + 1))
    else
      var b :- Descents(ctx, h, key, val, next);
      var t :- FixUp(ColourAt(ctx), b.0);
      Ok((t, b.1))
  }

  /** One descent of put into the child of h on the side goLeft, a call
      one level down whose result is linked in when it returns. `orig` is
      h as put found it: the child has not been touched since. */
  function Step(ctx: Ctx, h: Tree, goLeft: bool, key: int, val: int, next: nat, orig: Tree): (r: Result<(Tree, nat), Fault>)
    requires h.Node? && orig.Node? && Child(h, goLeft) == Child(orig, goLeft)
    ensures r.Ok? ==> r.value.0.Node? && Child(r.value.0, !goLeft) == Child(h, !goLeft)
    decreases orig, 0
  {
    var p :- Put(Below(ctx, h, goLeft), Child(h, goLeft), key, val, next);
    Ok((SetChild(h, goLeft, p.0), p.1))
  }

  /** The two colour-guarded descents of put. While h is black: left for a
      smaller key, right for a larger one, overwrite for an equal one. Then,
      if h is red by now: right for a smaller key, left for a larger one,
      overwrite for an equal one. */
  function Descents(ctx: Ctx, h: Tree, key: int, val: int, next: nat): (r: Result<(Tree, nat), Fault>)
    requires h.Node?
    ensures r.Ok? ==> r.value.0.Node?
    decreases h, 1
  {
    var a :- if Red(ctx, h, h) then Ok((h, next))
             else if key == h.key then Ok((h.(val := val), next))
             else Step(ctx, h, key < h.key, key, val, next, h);
    var h1 := a.0;
    if !Red(ctx, h1, h1) then Ok(a)
    else if key == h.key then Ok((h1.(val := val), a.1))
    else Step(ctx, h1, key > h.key, key, val, a.1, h)
  }

  /** The left rotations of put's fix-up: a black h rotates left when its
      right child is red and its left black; then a red h rotates left when
      its left child is red and its right black. */
  function FixLeft(red: Colour, h: Tree): (r: Result<Tree, Fault>)
    requires h.Node?
    ensures r.Ok? ==> r.value.Node?
  {
    var h3 :- if !red(h, h) && red(h, h.right) && !red(h, h.left) then RotateLeft(red, h) else Ok(h);
    if red(h3, h3) && red(h3, h3.left) && !red(h3, h3.right) then RotateLeft(red, h3) else Ok(h3)
  }

  /** The right rotations of put's fix-up: a black h rotates right when
      h.left and h.left.right are red; then a red h rotates right when
      h.right and h.right.right are red. isRed(null) is false, so a
      grandchild is only read below a node. */
  function FixRight(red: Colour, h: Tree): (r: Result<Tree, Fault>)
    requires h.Node?
    ensures r.Ok? ==> r.value.Node?
  {
    var h5 :- if !red(h, h) && h.left.Node? && red(h, h.left) && red(h, h.left.right)
              then RotateRight(red, h) else Ok(h);
    if red(h5, h5) && h5.right.Node? && red(h5, h5.right) && red(h5, h5.right.right)
    then RotateRight(red, h5) else Ok(h5)
  }

  /** The fix-up at the end of put: the left rotations, the right
      rotations, flipColors when both children are red, and the size. */
  function FixUp(red: Colour, h: Tree): (r: Result<Tree, Fault>)
    requires h.Node?
    ensures r.Ok? ==> r.value.Node? && r.value.size == Size(r.value.left) + Size(r.value.right) + 1
  {
    var h4 :- FixLeft(red, h);
    var h6 :- FixRight(red, h4);
    Ok(Resize(if red(h6, h6.left) && red(h6, h6.right) then FlipColors(red, h6) else h6))
  }

  lemma FixLeftKeeps(red: Colour, h: Tree)
    requires h.Node? && FixLeft(red, h).Ok?
    ensures SameHoldings(FixLeft(red, h).value, h)
    ensures ChildrenOk(h) ==> ChildrenOk(FixLeft(red, h).value)
  {
    var c1 := !red(h, h) && red(h, h.right) && !red(h, h.left);
    var h3 := if c1 then RotateLeft(red, h).value else h;
    if c1 {
      RotateLeftKeeps(red, h);
      if ChildrenOk(h) { RotateLeftSizes(red, h); }
    }
    if red(h3, h3) && red(h3, h3.left) && !red(h3, h3.right) {
      RotateLeftKeeps(red, h3);
      if ChildrenOk(h3) { RotateLeftSizes(red, h3); }
    }
  }

  lemma FixRightKeeps(red: Colour, h: Tree)
    requires h.Node? && FixRight(red, h).Ok?
    ensures SameHoldings(FixRight(red, h).value, h)
    ensures ChildrenOk(h) ==> ChildrenOk(FixRight(red, h).value)
  {
    var c1 := !red(h, h) && h.left.Node? && red(h, h.left) && red(h, h.left.right);
    var h5 := if c1 then RotateRight(red, h).value else h;
    if c1 {
      RotateRightKeeps(red, h);
      if ChildrenOk(h) { RotateRightSizes(red, h); }
    }
    if red(h5, h5) && h5.right.Node? && red(h5, h5.right) && red(h5, h5.right.right) {
      RotateRightKeeps(red, h5);
      if ChildrenOk(h5) { RotateRightSizes(red, h5); }
    }
  }

  /** The fix-up keeps what the subtree holds, and leaves every size field
      right when those below the top were. */
  lemma FixUpKeeps(red: Colour, h: Tree)
    requires h.Node? && FixUp(red, h).Ok?
    ensures SameHoldings(FixUp(red, h).value, h)
    ensures ChildrenOk(h) ==> SizesOk(FixUp(red, h).value)
  {
    var h4 := FixLeft(red, h).value;
    FixLeftKeeps(red, h);
    var h6 := FixRight(red, h4).value;
    FixRightKeeps(red, h4);
    FlipColorsKeeps(red, h6);
    FlipColorsSizes(red, h6);
    ResizeKeeps(if red(h6, h6.left) && red(h6, h6.right) then FlipColors(red, h6) else h6);
  }

  /** Overwriting the value of h replaces one entry of its key. */
  lemma OverwriteInserts(h: Tree, val: int, next: nat)
    requires h.Node?
    ensures Inserted(h, h.key, val, next, h.(val := val), next)
  {
    var t := h.(val := val);
    assert Entries(t) == Entries(h.left) + Entries(h.right) + multiset{(h.key, val)};
    assert Ids(t) == Ids(h);
  }

  /** Changed is transitive. */
  lemma ChangedTrans(a: multiset<(int, int)>, b: multiset<(int, int)>, c: multiset<(int, int)>, key: int, val: int)
    requires Changed(a, b, key, val) && Changed(b, c, key, val)
    ensures Changed(a, c, key, val)
  {
  }

  /** Adding the same bag and element on both sides keeps Changed. */
  lemma ChangedLift(a: multiset<(int, int)>, c: multiset<(int, int)>, o: multiset<(int, int)>, p: (int, int), key: int, val: int)
    requires Changed(a, c, key, val)
    ensures Changed(a + o + multiset{p}, c + o + multiset{p}, key, val)
    ensures Changed(o + a + multiset{p}, o + c + multiset{p}, key, val)
  {
  }

  /** Adding the same bag and element on both sides keeps an addition. */
  lemma AddedLift(a: multiset<nat>, c: multiset<nat>, o: multiset<nat>, d: multiset<nat>, p: nat)
    requires c == a + d
    ensures c + o + multiset{p} == (a + o + multiset{p}) + d
    ensures o + c + multiset{p} == (o + a + multiset{p}) + d
  {
  }

  /** Two puts of the same pair in a row amount to one. */
  lemma InsertedTrans(h: Tree, key: int, val: int, n0: nat, t1: Tree, n1: nat, t2: Tree, n2: nat)
    requires Inserted(h, key, val, n0, t1, n1)
    requires Inserted(t1, key, val, n1, t2, n2)
    ensures Inserted(h, key, val, n0, t2, n2)
  {
    IdRangeSplit(n0, n1, n2);
    ChangedTrans(Entries(h), Entries(t1), Entries(t2), key, val);
  }

  /** Linking a child that a put changed into h changes h the same way. */
  lemma LinkInserts(h: Tree, goLeft: bool, key: int, val: int, next: nat, c: Tree, n: nat)
    requires h.Node? && Inserted(Child(h, goLeft), key, val, next, c, n)
    ensures Inserted(h, key, val, next, SetChild(h, goLeft, c), n)
  {
    var o := Child(h, !goLeft);
    var a := Child(h, goLeft);
    ChangedLift(Entries(a), Entries(c), Entries(o), (h.key, h.val), key, val);
    AddedLift(Ids(a), Ids(c), Ids(o), IdRange(next, n), h.id);
  }

  /** put(h, key, val) inserts: (key, val) is present afterwards, the
      entries of other keys are untouched, no other value of the key became
      more frequent, and one node was added for each fresh identity used. */
  lemma {:induction false} PutInserts(ctx: Ctx, h: Tree, key: int, val: int, next: nat)
    requires Put(ctx, h, key, val, next).Ok?
    ensures Inserted(h, key, val, next, Put(ctx, h, key, val, next).value.0, Put(ctx, h, key, val, next).value.1)
    decreases h, 2
  {
    if h.Nil? {
      assert Entries(Put(ctx, h, key, val, next).value.0) == multiset{(key, val)};
      assert IdRange(next, next + 1) == multiset{next};
    } else {
      var b := Descents(ctx, h, key, val, next).value;
      DescentsInsert(ctx, h, key, val, next);
      FixUpKeeps(ColourAt(ctx), b.0);
    }
  }

  lemma {:induction false} StepInserts(ctx: Ctx, h: Tree, goLeft: bool, key: int, val: int, next: nat, orig: Tree)
    requires h.Node? && orig.Node? && Child(h, goLeft) == Child(orig, goLeft)
    requires Step(ctx, h, goLeft, key, val, next, orig).Ok?
    ensures var r := Step(ctx, h, goLeft, key, val, next, orig).value; Inserted(h, key, val, next, r.0, r.1)
    decreases orig, 0
  {
    var p := Put(Below(ctx, h, goLeft), Child(h, goLeft), key, val, next).value;
    PutInserts(Below(ctx, h, goLeft), Child(h, goLeft), key, val, next);
    LinkInserts(h, goLeft, key, val, next, p.0, p.1);
  }

  lemma {:induction false} DescentsInsert(ctx: Ctx, h: Tree, key: int, val: int, next: nat)
    requires h.Node? && Descents(ctx, h, key, val, next).Ok?
    ensures var r := Descents(ctx, h, key, val, next).value; Inserted(h, key, val, next, r.0, r.1)
    decreases h, 1
  {
    var a := if Red(ctx, h, h) then (h, next)
             else if key == h.key then (h.(val := val), next)
             else Step(ctx, h, key < h.key, key, val, next, h).value;
    if !Red(ctx, h, h) {
      if key == h.key { OverwriteInserts(h, val, next); }
      else { StepInserts(ctx, h, key < h.key, key, val, next, h); }
    }
    var h1 := a.0;
    if Red(ctx, h1, h1) {
      var b := if key == h.key then (h1.(val := val), a.1)
               else Step(ctx, h1, key > h.key, key, val, a.1, h).value;
      if key == h.key { OverwriteInserts(h1, val, a.1); }
      else { StepInserts(ctx, h1, key > h.key, key, val, a.1, h); }
      if !Red(ctx, h, h) {
        InsertedTrans(h, key, val, next, h1, a.1, b.0, b.1);
      }
    }
  }

  /** put leaves every size field right when those below h were. */
  lemma {:induction false} PutSizes(ctx: Ctx, h: Tree, key: int, val: int, next: nat)
    requires Put(ctx, h, key, val, next).Ok? && ChildrenOk(h)
    ensures SizesOk(Put(ctx, h, key, val, next).value.0)
    decreases h, 2
  {
    if h.Nil? {
      var t := Node(next, key, val, Nil, Nil, 1);
      assert Put(ctx, h, key, val, next).value.0 == t;
      assert Count(t) == 1 && SizesOk(t.left) && SizesOk(t.right);
    } else {
      var b := Descents(ctx, h, key, val, next).value;
      DescentsSizes(ctx, h, key, val, next);
      FixUpKeeps(ColourAt(ctx), b.0);
    }
  }

  lemma {:induction false} StepSizes(ctx: Ctx, h: Tree, goLeft: bool, key: int, val: int, next: nat, orig: Tree)
    requires h.Node? && orig.Node? && Child(h, goLeft) == Child(orig, goLeft)
    requires Step(ctx, h, goLeft, key, val, next, orig).Ok? && ChildrenOk(h)
    ensures ChildrenOk(Step(ctx, h, goLeft, key, val, next, orig).value.0)
    decreases orig, 0
  {
    var c := Child(h, goLeft);
    assert SizesOk(c);
    PutSizes(Below(ctx, h, goLeft), c, key, val, next);
  }

  lemma {:induction false} DescentsSizes(ctx: Ctx, h: Tree, key: int, val: int, next: nat)
    requires h.Node? && Descents(ctx, h, key, val, next).Ok? && ChildrenOk(h)
    ensures ChildrenOk(Descents(ctx, h, key, val, next).value.0)
    decreases h, 1
  {
    var a := if Red(ctx, h, h) then (h, next)
             else if key == h.key then (h.(val := val), next)
             else Step(ctx, h, key < h.key, key, val, next, h).value;
    if !Red(ctx, h, h) && key != h.key {
      StepSizes(ctx, h, key < h.key, key, val, next, h);
    }
    var h1 := a.0;
    if Red(ctx, h1, h1) && key != h.key {
      StepSizes(ctx, h1, key > h.key, key, val, a.1, h);
    }
  }
}

=== FILE: rbt_queries.dfy ===
/** The read-only searches of the colour-bit-free tree: get, min, max,
    floor, ceiling and the range walk behind keys. They follow the links in
    plain search order and never test a colour, so they are stated against
    the entries of a tree in plain ascending order. */
module RedBlackQueries {
  import opened Wrappers
  import opened RedBlackTree

  /** Every key in the left subtree is smaller than the node's key and
      every key in the right subtree larger, at every node. */
  ghost predicate Ascending(t: Tree)
  {
    t.Nil? || (
      && Ascending(t.left) && Ascending(t.right)
      && (forall k :: k in Keys(t.left) ==> k < t.key)
      && (forall k :: k in Keys(t.right) ==> t.key < k))
  }

  /** A key is present exactly when some entry carries it. */
  lemma {:induction false} KeysAreEntryKeys(t: Tree, k: int)
    ensures k in Keys(t) <==> exists v :: (k, v) in Entries(t)
  {
    if t.Node? {
      KeysAreEntryKeys(t.left, k);
      KeysAreEntryKeys(t.right, k);
      if k == t.key {
        assert (k, t.val) in Entries(t);
      }
    }
  }

  /** In an ascending tree every entry of a key is the one at the node
      that carries it, so a key has one value. */
  lemma {:induction false} AscendingEntryUnique(t: Tree, k: int, v: int, w: int)
    requires Ascending(t) && (k, v) in Entries(t) && (k, w) in Entries(t)
    ensures v == w
  {
    KeysAreEntryKeys(t.left, k);
    KeysAreEntryKeys(t.right, k);
    if (k, v) in Entries(t.left) && (k, w) in Entries(t.left) {
      AscendingEntryUnique(t.left, k, v, w);
    } else if (k, v) in Entries(t.right) && (k, w) in Entries(t.right) {
      AscendingEntryUnique(t.right, k, v, w);
    }
  }

  /** The source's get(x, key): walk left for a smaller key, right for a
      larger one; the value at an equal key, null (None) off the tree. */
  function GetFrom(x: Tree, key: int): (r: Option<int>)
    ensures r.Some? ==> (key, r.value) in Entries(x)
  {
    if x.Nil? then None
    else if key < x.key then GetFrom(x.left, key)
    else if key > x.key then GetFrom(x.right, key)
    else Some(x.val)
  }

  /** On an ascending tree get finds a key exactly when it is present, and
      then returns its value. */
  lemma {:induction false} GetFromFinds(t: Tree, key: int)
    requires Ascending(t)
    ensures GetFrom(t, key).Some? <==> key in Keys(t)
    ensures GetFrom(t, key).Some? ==> (key, GetFrom(t, key).value) in Entries(t)
  {
    if t.Node? {
      GetFromFinds(t.left, key);
      GetFromFinds(t.right, key);
    }
  }

  /** The source's min(x): the node at the end of the left links; reading
      null.left is a null dereference. */
  function MinNode(x: Tree): (r: Result<Tree, Fault>)
    ensures x.Nil? <==> r.Err?
    ensures r.Ok? ==> r.value.Node? && r.value.left.Nil?
  {
    if x.Nil? then Err(NullDereference)
    else if x.left.Nil? then Ok(x)
    else MinNode(x.left)
  }

  /** The source's max(x): the node at the end of the right links. */
  function MaxNode(x: Tree): (r: Result<Tree, Fault>)
    ensures x.Nil? <==> r.Err?
    ensures r.Ok? ==> r.value.Node? && r.value.right.Nil?
  {
    if x.Nil? then Err(NullDereference)
    else if x.right.Nil? then Ok(x)
    else MaxNode(x.right)
  }

  /** min's node is an entry of the tree, and on an ascending tree its key
      is the smallest. */
  lemma {:induction false} MinNodeIsLeast(t: Tree)
    requires t.Node?
    ensures var m := MinNode(t).value; (m.key, m.val) in Entries(t)
    ensures Ascending(t) ==> forall k :: k in Keys(t) ==> MinNode(t).value.key <= k
  {
    if t.left.Node? {
      MinNodeIsLeast(t.left);
    }
  }

  /** max's node is an entry of the tree, and on an ascending tree its key
      is the largest. */
  lemma {:induction false} MaxNodeIsGreatest(t: Tree)
    requires t.Node?
    ensures var m := MaxNode(t).value; (m.key, m.val) in Entries(t)
    ensures Ascending(t) ==> forall k :: k in Keys(t) ==> k <= MaxNode(t).value.key
  {
    if t.right.Node? {
      MaxNodeIsGreatest(t.right);
    }
  }

  /** The source's floor(x, key): the node of an equal key; for a smaller
      key the floor on the left; for a larger one the floor on the right if
      there is one and x otherwise. Nil stands for null. */
  function FloorNode(x: Tree, key: int): (r: Tree)
    ensures r.Node? ==> r.key <= key && r.key in Keys(x)
  {
    if x.Nil? then Nil
    else if key == x.key then x
    else if key < x.key then FloorNode(x.left, key)
    else
      var t := FloorNode(x.right, key);
      if t.Node? then t else x
  }

  /** The source's ceiling(x, key), the mirror image of floor. */
  function CeilingNode(x: Tree, key: int): (r: Tree)
    ensures r.Node? ==> r.key >= key && r.key in Keys(x)
  {
    if x.Nil? then Nil
    else if key == x.key then x
    else if key > x.key then CeilingNode(x.right, key)
    else
      var t := CeilingNode(x.left, key);
      if t.Node? then t else x
  }

  /** On an ascending tree floor finds the largest key at most `key`, and
      null exactly when every key is larger. */
  lemma {:induction false} FloorNodeIsFloor(t: Tree, key: int)
    requires Ascending(t)
    ensures FloorNode(t, key).Nil? <==> forall k :: k in Keys(t) ==> key < k
    ensures FloorNode(t, key).Node? ==>
      && FloorNode(t, key).key in Keys(t) && FloorNode(t, key).key <= key
      && forall k :: k in Keys(t) && k <= key ==> k <= FloorNode(t, key).key
  {
    if t.Node? {
      FloorNodeIsFloor(t.left, key);
      FloorNodeIsFloor(t.right, key);
      assert Keys(t) == Keys(t.left) + Keys(t.right) + {t.key};
      if key < t.key {
        assert FloorNode(t, key) == FloorNode(t.left, key);
        forall k | k in Keys(t)
          ensures k in Keys(t.left) || t.key <= k
        {
        }
      } else if key > t.key {
        var f := FloorNode(t.right, key);
        assert t.key in Keys(t);
        if f.Node? {
          assert FloorNode(t, key) == f;
          assert t.key < f.key;
        } else {
          assert FloorNode(t, key) == t;
        }
      } else {
        assert t.key in Keys(t);
      }
    }
  }

  /** On an ascending tree ceiling finds the smallest key at least `key`,
      and null exactly when every key is smaller. */
  lemma {:induction false} CeilingNodeIsCeiling(t: Tree, key: int)
    requires Ascending(t)
    ensures CeilingNode(t, key).Nil? <==> forall k :: k in Keys(t) ==> k < key
    ensures CeilingNode(t, key).Node? ==>
      && CeilingNode(t, key).key in Keys(t) && key <= CeilingNode(t, key).key
      && forall k :: k in Keys(t) && key <= k ==> CeilingNode(t, key).key <= k
  {
    if t.Node? {
      CeilingNodeIsCeiling(t.left, key);
      CeilingNodeIsCeiling(t.right, key);
      assert Keys(t) == Keys(t.left) + Keys(t.right) + {t.key};
      if key > t.key {
        assert CeilingNode(t, key) == CeilingNode(t.right, key);
        forall k | k in Keys(t)
          ensures k in Keys(t.right) || k <= t.key
        {
        }
      } else if key < t.key {
        var c := CeilingNode(t.left, key);
        assert t.key in Keys(t);
        if c.Node? {
          assert CeilingNode(t, key) == c;
          assert c.key < t.key;
        } else {
          assert CeilingNode(t, key) == t;
        }
      } else {
        assert t.key in Keys(t);
      }
    }
  }

  /** The source's keys(x, queue, lo, hi), as the sequence it appends: the
      left subtree's keys when lo is smaller than x's key, x's key when it
      lies in [lo, hi], the right subtree's when hi is larger. */
  function KeysIn(x: Tree, lo: int, hi: int): (r: seq<int>)
    ensures forall k :: k in r ==> lo <= k <= hi && k in Keys(x)
  {
    if x.Nil? then []
    else
      (if lo < x.key then KeysIn(x.left, lo, hi) else [])
      + (if lo <= x.key <= hi then [x.key] else [])
      + (if hi > x.key then KeysIn(x.right, lo, hi) else [])
  }

  /** The sequence is strictly increasing. */
  ghost predicate StrictlySorted(s: seq<int>)
  {
    forall i, j :: 0 <= i < j < |s| ==> s[i] < s[j]
  }

  /** Joining increasing sequences with all of the first below all of the
      second gives an increasing sequence. */
  lemma JoinSorted(a: seq<int>, b: seq<int>)
    requires StrictlySorted(a) && StrictlySorted(b)
    requires forall i, j :: 0 <= i < |a| && 0 <= j < |b| ==> a[i] < b[j]
    ensures StrictlySorted(a + b)
  {
  }

  /** The range walk emits exactly the keys of an ascending tree that lie
      in [lo, hi]. */
  lemma {:induction false} KeysInMembers(t: Tree, lo: int, hi: int)
    requires Ascending(t)
    ensures forall k :: k in KeysIn(t, lo, hi) <==> k in Keys(t) && lo <= k <= hi
  {
    if t.Node? {
      KeysInMembers(t.left, lo, hi);
      KeysInMembers(t.right, lo, hi);
    }
  }

  /** The range walk emits the keys of an ascending tree in increasing
      order. */
  lemma {:induction false} KeysInSorted(t: Tree, lo: int, hi: int)
    requires Ascending(t)
    ensures StrictlySorted(KeysIn(t, lo, hi))
  {
    if t.Node? {
      KeysInSorted(t.left, lo, hi);
      KeysInSorted(t.right, lo, hi);
      KeysInMembers(t.left, lo, hi);
      KeysInMembers(t.right, lo, hi);
      var a := if lo < t.key then KeysIn(t.left, lo, hi) else [];
      var m := if lo <= t.key <= hi then [t.key] else [];
      var b := if hi > t.key then KeysIn(t.right, lo, hi) else [];
      forall i | 0 <= i < |a|
        ensures a[i] < t.key
      {
        assert a[i] in KeysIn(t.left, lo, hi);
      }
      forall i | 0 <= i < |b|
        ensures t.key < b[i]
      {
        assert b[i] in KeysIn(t.right, lo, hi);
      }
      JoinSorted(a, m);
      assert forall i :: 0 <= i < |a + m| ==> (a + m)[i] <= t.key;
      JoinSorted(a + m, b);
      assert KeysIn(t, lo, hi) == a + m + b;
    }
  }
}

=== FILE: rbt_tree.dfy ===
/** The nodes of the left-leaning red-black tree that keeps no colour bit.
    A node is red when it is the only child of its parent, or when it has
    two children stored in descending key order; `flipChildren` is the only
    way to change a colour.

    Java nodes are mutable objects compared by reference. A node here
    carries an `id` standing for its identity, and a changed object is a
    new value with the same id. `isRed` walks from the class's `root`
    field, which put and delete reassign only after the recursion returns,
    so inside them it sees a partly rebuilt tree. A `Ctx` records how to
    rebuild that view from the subtree the current call is working on. */
module RedBlackTree {

  /** A node: its identity, its key and value, its links and its `size`
      field. Keys are ints; values are non-null ints, since a null value
      makes put delete the key. */
  datatype Tree = Nil | Node(id: nat, key: int, val: int, left: Tree, right: Tree, size: int)

  /** The exceptions the Java code can throw. */
  datatype Fault = NullDereference | IllegalArgument | NoSuchElement

  /** The source's reference comparison `a == b` between non-null links. */
  predicate Is(a: Tree, b: Tree)
  {
    a.Node? && b.Node? && a.id == b.id
  }

  /** The source's size(x): 0 for null, the size field otherwise. */
  function Size(t: Tree): (r: int)
    ensures SizesOk(t) ==> r == Count(t)
    ensures r != 0 ==> t.Node?
  {
    if t.Nil? then 0 else t.size
  }

  /** The child of h on the side goLeft. */
  function Child(h: Tree, goLeft: bool): Tree
    requires h.Node?
  {
    if goLeft then h.left else h.right
  }

  /** h with the link on the side goLeft reassigned to c. */
  function SetChild(h: Tree, goLeft: bool, c: Tree): (r: Tree)
    requires h.Node?
    ensures r.Node? && r.id == h.id && r.key == h.key && r.val == h.val && r.size == h.size
    ensures Child(r, goLeft) == c && Child(r, !goLeft) == Child(h, !goLeft)
  {
    if goLeft then h.(left := c) else h.(right := c)
  }

  /** The number of nodes. */
  function Count(t: Tree): nat
  {
    if t.Nil? then 0 else Count(t.left) + Count(t.right) + 1
  }

  /** The key-value pairs of the nodes, with repetition. */
  function Entries(t: Tree): multiset<(int, int)>
  {
    if t.Nil? then multiset{} else Entries(t.left) + Entries(t.right) + multiset{(t.key, t.val)}
  }

  /** The identities of the nodes, with repetition. */
  function Ids(t: Tree): multiset<nat>
  {
    if t.Nil? then multiset{} else Ids(t.left) + Ids(t.right) + multiset{t.id}
  }

  /** The keys of the nodes. */
  function Keys(t: Tree): set<int>
  {
    if t.Nil? then {} else Keys(t.left) + Keys(t.right) + {t.key}
  }

  /** Every size field counts the nodes below and including its node. */
  predicate SizesOk(t: Tree)
  {
    t.Nil? || (t.size == Count(t) && SizesOk(t.left) && SizesOk(t.right))
  }

  /** The sizes below the top node are right; the top one may be stale. */
  predicate ChildrenOk(t: Tree)
  {
    t.Nil? || (SizesOk(t.left) && SizesOk(t.right))
  }

  /** The node count is the number of entries and of identities. */
  lemma {:induction false} CountIsEntries(t: Tree)
    ensures Count(t) == |Entries(t)| == |Ids(t)|
  {
    if t.Node? {
      CountIsEntries(t.left);
      CountIsEntries(t.right);
    }
  }

  /** The object with identity `id` in t, as it is now; Nil if none. */
  function FindId(t: Tree, id: nat): (r: Tree)
    ensures r.Node? ==> r.id == id
  {
    if t.Nil? then Nil
    else if t.id == id then t
    else
      var l := FindId(t.left, id);
      if l.Node? then l else FindId(t.right, id)
  }

  /** Where the current call sits. `Top(root)`: called from a public
      method, whose `root` field holds the object `root`. `Below(up, top,
      goLeft)`: called on one child of the object `top` (as it was at the
      time of the call) by a call sitting at `up`; `top` still links to the
      original child object, and the caller reassigns the link only after
      this call returns. */
  datatype Ctx = Top(root: Tree) | Below(up: Ctx, top: Tree, goLeft: bool)

  /** The object the `root` field holds. */
  function CtxRoot(ctx: Ctx): Tree
    decreases ctx
  {
    match ctx
    case Top(root) => root
    case Below(up, _, _) => CtxRoot(up)
  }

  /** The states of the heap the current call can see, newest first: its
      own subtree `local`, then the subtree of each caller as it stood when
      that caller recursed, out to the public method's root. An object's
      fields are those of the first of them that holds it. */
  function Snapshots(ctx: Ctx, local: Tree): (s: seq<Tree>)
    ensures |s| >= 2 && s[0] == local && s[|s| - 1] == CtxRoot(ctx)
    decreases ctx
  {
    match ctx
    case Top(root) => [local, root]
    case Below(up, top, _) => [local] + Snapshots(up, top)
  }

  /** The first of the snapshots s[0..n] that holds the object `id`, or -1
      when none does. */
  function Newest(s: seq<Tree>, id: nat, n: nat): (j: int)
    requires n <= |s|
    ensures -1 <= j < n
    ensures j >= 0 ==> FindId(s[j], id).Node?
    ensures forall k :: 0 <= k < n && (j < 0 || k < j) ==> FindId(s[k], id).Nil?
  {
    if n == 0 then -1
    else
      var j := Newest(s, id, n - 1);
      if j >= 0 then j
      else if FindId(s[n - 1], id).Node? then n - 1
      else -1
  }

  /** The heap reached from the node t of snapshot s[i], with each object
      reached in the state of the newest snapshot that holds it. */
  function View(s: seq<Tree>, i: nat, t: Tree): (r: Tree)
    requires i < |s|
    ensures r.Nil? <==> t.Nil?
    ensures r.Node? ==> r.id == t.id && r.key == t.key && r.val == t.val && r.size == t.size
    decreases i, t, 0
  {
    if t.Nil? then Nil
    else t.(left := Link(s, i, t.left), right := Link(s, i, t.right))
  }

  /** What the link of a node of s[i] to the object c leads to now: c in
      the state of a newer snapshot when one holds it, else as in s[i]. */
  function Link(s: seq<Tree>, i: nat, c: Tree): (r: Tree)
    requires i < |s|
    ensures r.Nil? <==> c.Nil?
    ensures r.Node? ==> r.id == c.id
    decreases i, c, 1
  {
    if c.Nil? then Nil
    else
      var j := Newest(s, c.id, i);
      if j >= 0 then View(s, j, FindId(s[j], c.id)) else View(s, i, c)
  }

  /** The current call's own subtree is seen exactly as it is. */
  lemma {:induction false} ViewOfNewest(s: seq<Tree>, t: Tree)
    requires |s| > 0
    ensures View(s, 0, t) == t
    decreases t
  {
    if t.Node? {
      ViewOfNewest(s, t.left);
      ViewOfNewest(s, t.right);
    }
  }

  /** The tree the `root` field leads to while the current call's subtree
      is `local`. */
  function RootView(ctx: Ctx, local: Tree): (r: Tree)
    ensures r.Nil? <==> CtxRoot(ctx).Nil?
    ensures r.Node? ==> r.id == CtxRoot(ctx).id
  {
    var s := Snapshots(ctx, local);
    Link(s, |s| - 1, CtxRoot(ctx))
  }

  /** When the current call's subtree holds the root object, the `root`
      field leads to that subtree's version of it, wherever the call sits. */
  lemma RootInLocal(ctx: Ctx, local: Tree)
    requires CtxRoot(ctx).Node? && FindId(local, CtxRoot(ctx).id).Node?
    ensures RootView(ctx, local) == FindId(local, CtxRoot(ctx).id)
  {
    var s := Snapshots(ctx, local);
    assert Newest(s, CtxRoot(ctx).id, |s| - 1) == 0;
    ViewOfNewest(s, FindId(local, CtxRoot(ctx).id));
  }

  /** A caller's stale link to the child it recursed on leads to the
      current call's version of that child. */
  lemma LinkToLocal(s: seq<Tree>, i: nat, c: Tree)
    requires 0 < i < |s| && c.Node? && FindId(s[0], c.id).Node?
    ensures Link(s, i, c) == FindId(s[0], c.id)
  {
    assert Newest(s, c.id, i) == 0;
    ViewOfNewest(s, FindId(s[0], c.id));
  }

  /** The loop of the source's isRed, walking down from `parent`: true when
      it returns true, that is when it meets a node whose only child is x;
      false when it breaks out or runs off the tree. At a node with one
      child it always steps right; at a node with two children it steps by
      comparing keys, the other way round below a red node. */
  function Walk(parent: Tree, x: Tree): (b: bool)
    requires x.Node?
    ensures b ==> SoleChildIn(parent, x)
    decreases parent
  {
    if parent.Nil? then false
    else if Is(parent.left, x) then parent.right.Nil?
    else if Is(parent.right, x) then parent.left.Nil?
    else if parent.left.Nil? || parent.right.Nil? then Walk(parent.right, x)
    else if parent.left.key < parent.right.key then
      if x.key < parent.key then Walk(parent.left, x)
      else if x.key > parent.key then Walk(parent.right, x)
      else false
    else
      if x.key < parent.key then Walk(parent.right, x)
      else if x.key > parent.key then Walk(parent.left, x)
      else false
  }

  /** Both children are present and stored in descending key order. */
  predicate Descending(x: Tree)
  {
    x.Node? && x.left.Node? && x.right.Node? && x.left.key > x.right.key
  }

  /** The source's isRed(x) when the `root` field leads to `root`: null and
      the root are black; otherwise x is red when the walk meets it as an
      only child, or when its two children are in descending order. */
  function IsRed(root: Tree, x: Tree): (r: bool)
    ensures x.Nil? || Is(root, x) ==> !r
    ensures Descending(x) && !Is(root, x) ==> r
  {
    x.Node? && !Is(root, x) && (Walk(root, x) || Descending(x))
  }

  /** isRed(x) called from the position `ctx` while its subtree is `local`. */
  function Red(ctx: Ctx, local: Tree, x: Tree): bool
  {
    IsRed(RootView(ctx, local), x)
  }

  /** A caller that rotated the root object o two levels down, below y
      and x, recursed on x; the call lifted o back above x. The `root`
      field still holds o, whose only child x is red. */
  lemma LiftedRootStaysInView()
    ensures
      var leaf := Node(4, 15, 0, Nil, Nil, 1);
      var o := Node(1, 30, 0, Node(2, 20, 0, Node(3, 10, 0, Nil, Nil, 1), Nil, 2), Nil, 3);
      var y := Node(3, 10, 0, Nil, Node(2, 20, 0, Nil, Node(1, 30, 0, Nil, Nil, 1), 2), 3);
      var local := Node(1, 30, 0, Node(2, 20, 0, leaf, Nil, 2), Nil, 3);
      var ctx := Below(Top(o), y, false);
      RootView(ctx, local) == local && Red(ctx, local, local.left)
  {
    var leaf := Node(4, 15, 0, Nil, Nil, 1);
    var o := Node(1, 30, 0, Node(2, 20, 0, Node(3, 10, 0, Nil, Nil, 1), Nil, 2), Nil, 3);
    var y := Node(3, 10, 0, Nil, Node(2, 20, 0, Nil, Node(1, 30, 0, Nil, Nil, 1), 2), 3);
    var local := Node(1, 30, 0, Node(2, 20, 0, leaf, Nil, 2), Nil, 3);
    RootInLocal(Below(Top(o), y, false), local);
  }

  /** A colour test as the restructuring helpers use it: whether x is red
      while the current call's subtree is `local`. */
  type Colour = (Tree, Tree) -> bool

  /** The colour test of the call sitting at `ctx`. */
  function ColourAt(ctx: Ctx): Colour
  {
    (local: Tree, x: Tree) => Red(ctx, local, x)
  }

  /** Some node of t has x as its only child. */
  predicate SoleChildIn(t: Tree, x: Tree)
  {
    t.Node? && (
      || (Is(t.left, x) && t.right.Nil?)
      || (Is(t.right, x) && t.left.Nil?)
      || SoleChildIn(t.left, x)
      || SoleChildIn(t.right, x))
  }

  /** A red node is either the only child of some node or has descending
      children, and is neither null nor the root. */
  lemma IsRedSound(root: Tree, x: Tree)
    requires IsRed(root, x)
    ensures x.Node? && !Is(root, x) && (SoleChildIn(root, x) || Descending(x))
  {
  }

  /** The only child of the root is red. */
  lemma OnlyChildOfRootIsRed(root: Tree, x: Tree)
    requires x.Node? && root.Node? && x.id != root.id
    requires (Is(root.left, x) && root.right.Nil?) || (Is(root.right, x) && root.left.Nil?)
    ensures IsRed(root, x)
  {
  }

  /** The colour rules case by case. A node with two children that is
      nobody's only child is red exactly when its children are stored in
      descending order; a node with fewer children is red exactly when the
      walk meets it as an only child. */
  lemma IsRedCases(root: Tree, x: Tree)
    requires x.Node? && !Is(root, x)
    ensures x.left.Node? && x.right.Node? && !SoleChildIn(root, x) ==>
      (IsRed(root, x) <==> x.left.key > x.right.key)
    ensures x.left.Nil? || x.right.Nil? ==> (IsRed(root, x) <==> Walk(root, x))
  {
  }

  /** The source's flipChildren: swap the two links when both are present;
      nothing else changes. */
  function FlipChildren(x: Tree): (r: Tree)
    ensures x.Nil? ==> r.Nil?
    ensures x.Node? ==> r.Node? && r.id == x.id && r.key == x.key && r.val == x.val && r.size == x.size
    ensures x.Node? && x.left.Node? && x.right.Node? ==> r.left == x.right && r.right == x.left
    ensures x.Node? && (x.left.Nil? || x.right.Nil?) ==> r == x
  {
    if x.Nil? then x
    else if x.left.Node? && x.right.Node? then x.(left := x.right, right := x.left)
    else x
  }

  /** Swapping the two lower parts of a node's bag. */
  lemma Commute<T>(a: multiset<T>, b: multiset<T>, p: T)
    ensures a + b + multiset{p} == b + a + multiset{p}
  {
  }

  /** Two subtrees hold the same entries and identities, in the same
      number of nodes. */
  predicate SameHoldings(a: Tree, b: Tree)
  {
    Entries(a) == Entries(b) && Ids(a) == Ids(b) && Count(a) == Count(b)
  }

  /** Flipping twice restores the node. */
  lemma FlipChildrenTwice(x: Tree)
    ensures FlipChildren(FlipChildren(x)) == x
  {
  }

  /** Flipping keeps the subtree's entries, identities, keys and count. */
  lemma FlipChildrenKeeps(x: Tree)
    ensures SameHoldings(FlipChildren(x), x) && Keys(FlipChildren(x)) == Keys(x)
  {
    if x.Node? {
      Commute(Entries(x.left), Entries(x.right), (x.key, x.val));
      Commute(Ids(x.left), Ids(x.right), x.id);
    }
  }

  /** Flipping keeps the size fields right, or wrong, as they were. */
  lemma FlipChildrenSizes(x: Tree)
    ensures SizesOk(FlipChildren(x)) == SizesOk(x) && ChildrenOk(FlipChildren(x)) == ChildrenOk(x)
  {
  }

  /** With two children of distinct keys, flipping toggles the descending
      order, which is the node's colour by the two-child rule. */
  lemma FlipChildrenToggles(x: Tree)
    requires x.Node? && x.left.Node? && x.right.Node? && x.left.key != x.right.key
    ensures Descending(FlipChildren(x)) == !Descending(x)
  {
  }
}

=== FILE: wrappers.dfy ===
/** Optional values (the Java programs' null) and results that either carry
    a value or name the exception the Java code would throw. */
module Wrappers {

  datatype Option<+T> = None | Some(value: T)

  datatype Result<+T, +E> = Ok(value: T) | Err(error: E)
  {
    predicate IsFailure()
    {
      Err?
    }

    function PropagateFailure<U>(): Result<U, E>
      requires Err?
    {
      Err(error)
    }

    function Extract(): T
      requires Ok?
    {
      value
    }
  }
}
